=== FILE: README.md ===
# Magic3D consolidation core, modelled in Dafny

This project models the geometry-consolidation engine of Magic3D and two small
pieces of its applications, and proves properties of the model.

The consolidation engine (`MagicDGP::Consolidation`) covers:

- **Normal orientation.** `CalPointSetNormal` orients estimated point normals
  by propagation. A priority front is keyed by `1 − |cos θ|`. New fronts are
  seeded at the highest unaccepted point. `RedressPointSetNormal` re-estimates
  normals and keeps each one on the side of the stored normal.
- **Small-patch removal.** `RemoveSmallMeshPatch` exists for the half-edge
  mesh and for the index ("light") mesh. It splits the vertices into
  connected groups by a level-by-level flood fill. It keeps only groups larger
  than `n · proportion` truncated to an `int`, and gives up when that
  threshold is below 10. It
  renumbers the kept vertices and keeps the faces whose three corners survive.
- **Outlier removal.** `RemovePointSetOutlier` ranks points by a density score
  in a `std::map<float, int>`. It walks the map from `rbegin()`, the largest
  score, down (Consolidation.cpp lines 691-701), invalidating up to
  `n · proportion` truncated points, and copies the valid points into a new
  set. Equal scores share one map key (see Findings).
- **Explicit smoothing.** `SimpleMeshSmooth` exists for both mesh kinds, plus
  `SimplePointsetSmooth`. Each is one pass of `new = 0.75 · mean(neighbours) +
  0.25 · old`, computed from a snapshot of the old positions. Half-edge
  boundary vertices are pinned. Light-mesh vertices whose neighbour count
  differs from their face count are pinned.

The application parts are:

- **`ReconstructionApp`:**
  - The coarse bounding box of a depth frame.
  - The six guarded `Change*Range` adjustments.
  - The playback frame counter with its start and end marks.
- **`VisionShopApp`:**
  - The integer arithmetic that fits an image into the view.
  - The brush mode set by `BrushFront`, `BrushBack` and `SegmentImageDo`.
  - The 5×5 marking stroke painted by `MouseMoved`.

Modelling conventions:

- **Entities.** Every entity is an immutable datatype, and collections are
  `seq`, `set` and `map`.
- **Points and meshes.**
  - Points are `Point(position, normal, valid)` and point sets are `PointSet`.
  - Index meshes are `LightMesh(positions, faces: seq<Tri>)`.
  - Half-edge meshes are arenas of `HalfEdge`, `HEVertex` and `HEFace`
    records, linked by index. `next`, `pre`, a vertex's edge and a face slot
    are `Option`s, since the code tests them for `NULL`.
- **Floating point** is exact `real` arithmetic. A C++ conversion of a float
  to `int` is `TruncToInt`, which truncates toward zero.
- **Containers.**
  - A `std::multimap<double, int>` is a key-sorted `seq<Entry>`. Insertion goes
    at the upper bound of its key, so equal keys leave in insertion order.
  - A `std::map<float, int>` is a strictly sorted `seq<Entry>`. Assigning to an
    existing key overwrites its value.
  - A `std::set<int>` is iterated through `Ascending`, its ascending
    enumeration.
- **Inputs from code outside the model** are parameters:
  - the FLANN k-nearest-neighbour lists;
  - the Eigen normal estimates;
  - the density scores, which need square roots;
  - the `MagicDGP::Epsilon` constant;
  - the boundary flags.

Modules, one per file:

- **`Common`:** `Option`, `Distinct`, graph shape, the first-unvisited scan
  and the ascending set enumeration.
- **`Geometry`:** vectors, sums and means, and the 0.75 blend.
- **`PointCloud`:** points and point sets.
- **`PriorityQueue`:** the multimap model.
- **`Meshes`:** both mesh kinds, face-derived neighbour sets, and the half-edge
  ring walk.
- **`Components`:** the flood fill.
- **`Orientation`:** normal orientation.
- **`Patches`:** small-patch removal.
- **`Outlier`:** outlier removal.
- **`Smoothing`:** the explicit smoothers.
- **`RangeLimits`:** the `ReconstructionApp` range and playback state.
- **`VisionShop`:** view fitting and the brush.

## Model

| member | source | states |
|---|---|---|
| Common.TruncToInt | Src/DGP/Consolidation.cpp:389 | The `int` a `double` product converts to lies within 1 of it, below it for non-negative values and above it for negative ones (truncation toward zero). |
| Common.FirstFalse | Src/DGP/Consolidation.cpp:398-410 | The start scan finds nothing exactly when every vertex is visited. Otherwise it returns an unvisited vertex with every lower index visited. |
| Common.Ascending | Src/DGP/Consolidation.cpp:569-578 | Iterating a neighbour `std::set` yields exactly its members, in strictly increasing order. |
| Common.AscendingLength | Src/DGP/Consolidation.cpp:787-796 | The enumeration of a set has as many entries as the set has members, so the loop visits `neighbors.size()` vertices. |
| PriorityQueue.Insert | Src/DGP/Consolidation.cpp:153 | `multimap::insert` keeps the keys sorted and places the new entry after every entry with a key no larger. Entries before it stay in place and entries after it shift by one. |
| PriorityQueue.FrontIsMinimal | Src/DGP/Consolidation.cpp:99-104 | `begin()` of the front holds a smallest key. |
| PriorityQueue.EqualKeysStayInInsertionOrder | Src/DGP/Consolidation.cpp:153 | An entry inserted with a key already present lands after the existing entries with that key, so equal keys pop first-in first-out. |
| PriorityQueue.InsertMembers | Src/DGP/Consolidation.cpp:153 | After an insertion the front holds exactly the old entries plus the new one. |
| Orientation.SeedAsWritten | Src/DGP/Consolidation.cpp:105-128 | The seed scan as written finds no seed exactly when every unaccepted point lies at or below z = −1e10. Otherwise it picks the highest unaccepted point, and the first such point when several tie. |
| Orientation.Seed | Src/DGP/Consolidation.cpp:105-128 | The corrected seed scan finds no seed exactly when every point is accepted. Otherwise it picks the highest unaccepted point, the first one on ties. |
| Orientation.SeedUnique | Src/DGP/Consolidation.cpp:109-120 | At most one point meets the seed condition (strict `>` keeps the first maximum). |
| Orientation.DeepPointNeverSeeded | Src/DGP/Consolidation.cpp:107-133 | A single unaccepted point at z = −2e10 is never seeded as written, so the loop breaks with it unaccepted. The corrected scan seeds it. |
| Orientation.SeedAgreesAboveFloor | Src/DGP/Consolidation.cpp:107-128 | Whenever some unaccepted point lies above −1e10, the scan as written and the corrected scan choose the same seed. |
| Orientation.Visit | Src/DGP/Consolidation.cpp:141-155 | Visiting a neighbour of the active point keeps the propagation invariant and leaves the neighbour accepted. An already accepted neighbour is skipped and nothing changes. A neighbour not yet accepted, whose normal is still its estimate, records the active point as its parent. It is negated exactly when its dot product with the active normal is negative, and it enters the front with key 1 − \|cos\|. Already accepted points keep their normal and parent. The count of unaccepted points plus the front size does not change. |
| Orientation.Expand | Src/DGP/Consolidation.cpp:138-156 | After the neighbour loop every listed neighbour is accepted, and nothing accepted earlier changes. |
| Orientation.Step | Src/DGP/Consolidation.cpp:95-157 | One turn of the loop, seeded by the corrected scan, stops exactly when the front is empty and every point is accepted. Otherwise it keeps the invariant and strictly decreases 2·(unaccepted) + \|front\|. It seeds a new front, at a valid seed, only when the front was empty. When the front is not empty it expands `queue[0]`, the entry `PriorityQueue.FrontIsMinimal` shows has the smallest key and `PriorityQueue.EqualKeysStayInInsertionOrder` shows was inserted first among equal keys, over the rest of the front. |
| Orientation.StepAsWritten | Src/DGP/Consolidation.cpp:95-136 | One turn of the loop as written stops exactly when the front is empty and every unaccepted point lies at or below z = −1e10. Whenever it goes on, it does what the corrected turn does. |
| Orientation.PropagateAsWritten | Src/DGP/Consolidation.cpp:92-157 | The propagation as written leaves a point unaccepted only when it lies at or below z = −1e10, and then with its unoriented estimate and no parent. Every normal is ± its estimate, every accepted point is a seed or a front entry, a point reached from a parent agrees with it, and seeds point up. |
| Orientation.Propagate | Src/DGP/Consolidation.cpp:92-157 | With the corrected seed scan the propagation ends with every point accepted, and every normal is its estimate or the negated estimate. Each point enters the front at most once or is a seed, and never both. A point reached from a parent is in that parent's neighbour list and has a non-negative dot product with the parent's normal. Every seed's normal points up (z ≥ 0). |
| Orientation.CalPointSetNormal | Src/DGP/Consolidation.cpp:92-169 | Over the corrected propagation, the point set gets normals, and positions and validity are unchanged. Each normal is ± its estimate. |
| Orientation.Agree | Src/DGP/Consolidation.cpp:244-247 | The chosen normal is ± the estimate and has a non-negative dot product with the stored normal. It is the estimate itself whenever the estimate already agrees. |
| Orientation.Redress | Src/DGP/Consolidation.cpp:172-261 | Without normals the call fails and changes nothing. Otherwise it succeeds and keeps positions and validity. Each new normal is ± its estimate and does not oppose the old normal. It is the estimate itself whenever the estimate's dot product with the old normal is not negative, including zero. |
| Orientation.RedressIdempotent | Src/DGP/Consolidation.cpp:244-248 | Redressing twice with the same estimates gives the same point set as redressing once. |
| Meshes.AddFace | Src/DGP/Consolidation.cpp:532-538 | Inserting one face adds exactly the other two corners to each corner's neighbour set. |
| Meshes.NeighbourSets | Src/DGP/Consolidation.cpp:528-539 | `u` is in `v`'s neighbour set exactly when some face has both `v` and `u` as distinct corner slots. |
| Meshes.NeighbourSetsSymmetric | Src/DGP/Consolidation.cpp:533-538 | The face-derived neighbour relation is symmetric. |
| Meshes.FaceCount | Src/DGP/Consolidation.cpp:768-781 | A vertex's incident-face count is zero exactly when no face has it as a corner. |
| Meshes.IsolatedVertex | Src/DGP/Consolidation.cpp:767-781 | A vertex on no face has an empty neighbour set. |
| Meshes.RingFrom | Src/DGP/Consolidation.cpp:424-442 | The walk around a vertex records at least one vertex and at most fuel + 1. It starts with the target of the starting half-edge, and every entry is a vertex index. |
| Meshes.RingFromVisits | Src/DGP/Consolidation.cpp:424-442 | The k-th recorded vertex is the target of the k-th half-edge of the `pair→next` orbit. |
| Meshes.RingFromAvoidsStart | Src/DGP/Consolidation.cpp:425-442 | After its first step the walk never returns to the starting half-edge. |
| Meshes.RingFromStops | Src/DGP/Consolidation.cpp:436-442 | The walk ends only when the orbit reaches `NULL`, comes back to the vertex's edge, or the fuel runs out. |
| Meshes.Ring | Src/DGP/Consolidation.cpp:423-442 | A vertex's ring is empty exactly when the vertex has no half-edge. Every ring entry is a vertex index. |
| Meshes.RingGraph | Src/DGP/Consolidation.cpp:421-443 | The half-edge adjacency is a valid graph whose list for each vertex is its ring. |
| Meshes.FaceCorners | Src/DGP/Consolidation.cpp:473-509 | A face yields corners exactly when it exists and its edge, the edge's `next` and its `pre` are all present. The corners are vertex indices. |
| Components.VisitNeighbours | Src/DGP/Consolidation.cpp:423-442 | Expanding one member marks its unvisited neighbours, appending exactly the newly marked vertices to the group and to the next level. This keeps the labelling, the spanning-tree and the leader invariants. The members not yet expanded stay closed. |
| Components.VisitLevel | Src/DGP/Consolidation.cpp:418-445 | One level expands every member of the current stack. The next level is exactly the vertices it appended. |
| Components.GrowGroup | Src/DGP/Consolidation.cpp:413-447 | Growing from an unvisited start gives a non-empty group headed by the start. Every visited vertex's neighbours are visited by the end, and the number of unvisited vertices drops by exactly the group's size. |
| Components.FloodFill | Src/DGP/Consolidation.cpp:394-449 | The groups partition the vertices: non-empty, duplicate-free, disjoint and covering. An edge never leads from a group to a later group. Each member after the first is a neighbour of an earlier member of its group. Each group starts at the lowest vertex not in an earlier group. |
| Components.SymmetricGroupsClosed | Src/DGP/Consolidation.cpp:540-585 | With a symmetric adjacency, every neighbour of a group member is in the same group, so the groups are connected components. |
| Patches.Survivors | Src/DGP/Consolidation.cpp:455-469 | A vertex is kept exactly when it lies in some group larger than the threshold. |
| Patches.SurvivorsDistinct | Src/DGP/Consolidation.cpp:455-469 | For disjoint groups the kept list has no duplicates and holds vertex indices only. |
| Patches.NewIndex | Src/DGP/Consolidation.cpp:451-467 | `vertMapOld2New` is defined exactly on the kept vertices and maps each to its position in the new vertex list. |
| Patches.NewIndexOfDistinct | Src/DGP/Consolidation.cpp:460-466 | With distinct kept vertices, the i-th kept vertex is renumbered i. |
| Patches.SurvivingFaces | Src/DGP/Consolidation.cpp:607-621 | A face is retained exactly when it is an old face whose three corners are all kept. |
| Patches.RebuildFaces | Src/DGP/Consolidation.cpp:607-627 | The renumbered faces name new vertices only. Mapping them back through the kept list gives exactly the surviving old faces, in order. |
| Patches.LightAdjacency | Src/DGP/Consolidation.cpp:528-539 | The index-mesh adjacency is a valid graph whose list for `v` holds exactly `v`'s face neighbours. |
| Patches.LightGroupsClosed | Src/DGP/Consolidation.cpp:564-581 | On an index mesh every face neighbour of a group member is in the same group. |
| Patches.ReadableFaces | Src/DGP/Consolidation.cpp:470-509 | The faces the half-edge version reads are exactly the corner triples of the faces whose links are all present. |
| Patches.RemoveSmallPatchLight | Src/DGP/Consolidation.cpp:520-630 | Returns `NULL` exactly when n·proportion, truncated, is below 10. Otherwise it throws `std::out_of_range` exactly when some face names a missing vertex. Otherwise the groups are the flood fill's partition, the new positions are the kept vertices' positions in group order, the new mesh is well formed, and its faces are exactly the surviving old faces, renumbered. |
| Patches.RemoveSmallPatchHalfEdge | Src/DGP/Consolidation.cpp:385-518 | The same for the half-edge mesh, whose groups come from the ring walk and whose faces are the readable faces. |
| Outlier.Put | Src/DGP/Consolidation.cpp:678 | `densityMap[density] = i` keeps the keys strictly sorted. It holds the new pair and every old entry with a different key, and nothing else. |
| Outlier.DensityMap | Src/DGP/Consolidation.cpp:665-679 | The map after the scoring loop holds an entry for a point exactly when no later point has the same score, keyed by that score. |
| Outlier.DensityMapStep | Src/DGP/Consolidation.cpp:678 | Putting the next point under its score keeps the map's meaning: afterwards an entry is present exactly when its point is the last one so far with that score. |
| Outlier.DensityMapKeys | Src/DGP/Consolidation.cpp:666-679 | Every point's score appears as a key. |
| Outlier.DensityMapIdsDistinct | Src/DGP/Consolidation.cpp:666-679 | No point appears in two entries. |
| Outlier.Taken | Src/DGP/Consolidation.cpp:691-701 | The reverse walk takes at most the map's size and at most `invalidNum` entries. It stops short of the map's size only when it has taken `invalidNum`. |
| Outlier.ValidIndices | Src/DGP/Consolidation.cpp:704-709 | The copy loop visits exactly the valid points, in increasing index order. |
| Outlier.CopyValid | Src/DGP/Consolidation.cpp:703-713 | The new set holds, in order, a fresh valid copy of position and normal for each valid point. |
| Outlier.Invalidate | Src/DGP/Consolidation.cpp:691-701 | A point is invalid afterwards exactly when it was invalid before or it is among the taken top entries. |
| Outlier.RemoveOutlier | Src/DGP/Consolidation.cpp:632-716 | The filter as written invalidates exactly the top `Taken` entries of the score map and returns the copies of the still-valid points. |
| Outlier.TopIdsDistinct | Src/DGP/Consolidation.cpp:693-701 | No point is invalidated twice. |
| Outlier.TakenScoreHighest | Src/DGP/Consolidation.cpp:693-701 | Every map entry the walk leaves has a strictly lower score than every point it takes. |
| Outlier.UniqueTopScoreTaken | Src/DGP/Consolidation.cpp:693-700 | A point with a strictly highest score is the first invalidated whenever anything is. |
| Outlier.RepeatedScoreNeverTaken | Src/DGP/Consolidation.cpp:678 | A point whose score recurs at a later index is never invalidated. |
| Outlier.EqualScoresSparePoint | Src/DGP/Consolidation.cpp:678-701 | Two points with score 1.0 and proportion 1.0 ask for two removals, but the map has one entry, and point 0 survives. |
| Outlier.AllScores | Src/DGP/Consolidation.cpp:665-679 | The corrected ranking, a multimap with one entry per point, is key-sorted and holds exactly each point's (score, index). |
| Outlier.RemoveOutlierRanked | Src/DGP/Consolidation.cpp:632-716 | The corrected filter invalidates the top `Taken` entries of the full ranking and copies the rest. |
| Outlier.RankedTakesExactly | Src/DGP/Consolidation.cpp:691-701 | With the full ranking the walk invalidates exactly min(`invalidNum`, n) distinct points. |
| Outlier.RankedTakesHighest | Src/DGP/Consolidation.cpp:693-701 | With the full ranking every invalidated point scores at least as high as every point kept. |
| Smoothing.SumOver | Src/DGP/Consolidation.cpp:989-992 | The accumulation loop computes the sum of the neighbours' positions. |
| Smoothing.RelaxedFixed | Src/DGP/Consolidation.cpp:747-748 | A vertex already at the mean of its neighbours does not move. |
| Smoothing.RelaxedTranslate | Src/DGP/Consolidation.cpp:993-994 | Relaxation commutes with translating every position. |
| Smoothing.HalfEdgeTargets | Src/DGP/Consolidation.cpp:724-751 | The target loop gives every interior vertex its half-edge target, computed from the backed-up positions. |
| Smoothing.SmoothHalfEdge | Src/DGP/Consolidation.cpp:718-762 | Connectivity is untouched. Each vertex gets its target computed from the old positions, and every boundary vertex keeps its position. |
| Smoothing.HalfEdgeTranslate | Src/DGP/Consolidation.cpp:737-748 | Translating the mesh translates every half-edge smoothing target by the same vector. |
| Smoothing.HalfEdgeFixed | Src/DGP/Consolidation.cpp:747-748 | An interior vertex at the mean of its ring keeps its position. |
| Smoothing.RingIgnoresPositions | Src/DGP/Consolidation.cpp:723-746 | The ring walk depends on connectivity only, so the positions snapshot does not influence which neighbours are averaged. |
| Smoothing.NeighbourList | Src/DGP/Consolidation.cpp:787-796 | The neighbours averaged for a light-mesh vertex are vertex indices, as many as its neighbour set has members. |
| Smoothing.IsolatedVertexPassesGuard | Src/DGP/Consolidation.cpp:788-797 | A vertex on no face passes the guard as written, so line 797 divides by a face count of zero. |
| Smoothing.LoneVertexDividesByZero | Src/DGP/Consolidation.cpp:788-797 | A mesh of one vertex and no faces is an input that reaches the division by zero. |
| Smoothing.LightTargetRelaxes | Src/DGP/Consolidation.cpp:788-798 | With the corrected guard a moved vertex has neighbours, and dividing by its face count is dividing by its neighbour count, so it relaxes towards their mean. |
| Smoothing.LightTargets | Src/DGP/Consolidation.cpp:784-799 | The target loop, with the corrected guard, gives every vertex that is not pinned its light-mesh target, computed from the old positions. |
| Smoothing.SmoothLight | Src/DGP/Consolidation.cpp:764-809 | With the corrected guard, which also pins vertices on no face: it throws `std::out_of_range` exactly when some face names a missing vertex. Otherwise faces are untouched, each vertex gets its target computed from the old positions, and every pinned vertex keeps its position. |
| Smoothing.LightTranslate | Src/DGP/Consolidation.cpp:785-799 | Translating the mesh translates every light-mesh smoothing target by the same vector. |
| Smoothing.PointTargets | Src/DGP/Consolidation.cpp:983-995 | The target loop gives every point its relaxed position, computed from the old positions and its graph list. |
| Smoothing.Place | Src/DGP/Consolidation.cpp:996-999 | The placement loop gives each point its target and changes nothing else about it. |
| Smoothing.SmoothPoints | Src/DGP/Consolidation.cpp:920-1001 | The graph used and returned is the new k-NN graph when asked for and the caller's graph otherwise. It throws `std::out_of_range` (no result) exactly when that graph has fewer lists than there are points. Otherwise every point is relaxed towards the mean of its graph neighbours in the old positions, and its normal and validity are kept. |
| RangeLimits.CoarseRangeLimit | Src/Application/ReconstructionApp.cpp:99-140 | The side limits bound every point. The depth limits bound every point deeper than −ε. Each limit is either its starting value or attained by some (deep) point, and never moves past its starting value. |
| RangeLimits.AbsorbStep | Src/Application/ReconstructionApp.cpp:106-137 | One loop turn extends the bounding property from a prefix to the next point. |
| RangeLimits.ChangeLeft | Src/Application/ReconstructionApp.cpp:305-312 | Only the left limit can change, by `rel`. It changes exactly when the new value is above −5000 and below the right limit. |
| RangeLimits.ChangeRight | Src/Application/ReconstructionApp.cpp:314-321 | Only the right limit can change, by `rel`. It changes exactly when the new value is above the left limit and below 5000. |
| RangeLimits.ChangeTop | Src/Application/ReconstructionApp.cpp:323-330 | Only the top limit can change, by `rel`. It changes exactly when the new value is above the down limit and below 5000. |
| RangeLimits.ChangeDown | Src/Application/ReconstructionApp.cpp:332-339 | Only the down limit can change, by `rel`. It changes exactly when the new value is above −5000 and below the top limit. |
| RangeLimits.ChangeFront | Src/Application/ReconstructionApp.cpp:341-348 | Only the front limit can change, by `−rel`. It changes exactly when the new value is above the back limit and below −500. |
| RangeLimits.ChangeBack | Src/Application/ReconstructionApp.cpp:350-357 | Only the back limit can change, by `−rel`. It changes exactly when the new value is above −5000 and below the front limit. |
| RangeLimits.ChangesKeepOrder | Src/Application/ReconstructionApp.cpp:305-357 | Any sequence of range changes keeps left < right, down < top and back < front once they hold. |
| RangeLimits.SetTimeStart | Src/Application/ReconstructionApp.cpp:293-296 | Raises the start flag and changes no frame index. |
| RangeLimits.SetTimeEnd | Src/Application/ReconstructionApp.cpp:298-303 | Raises the end flag and changes no frame index. |
| RangeLimits.Update | Src/Application/ReconstructionApp.cpp:144-160 | A display tick clears both flags and shows the current frame. A raised flag captures the current frame as start or end. The counter then advances by one while that stays at most the end, and otherwise wraps to the start. |
| RangeLimits.UpdateStaysInWindow | Src/Application/ReconstructionApp.cpp:144-160 | A counter inside [start, end] stays inside after a tick. |
| RangeLimits.ShownSweepsWindow | Src/Application/ReconstructionApp.cpp:144-160 | With no pending flag and the counter inside [start, end], the next end − current + 1 ticks show current, current + 1, …, end in turn, and leave the counter back at start. |
| RangeLimits.ShownInWindow | Src/Application/ReconstructionApp.cpp:144-160 | With no pending flag and the counter inside [start, end], every frame shown in any number of ticks lies within [start, end]. |
| VisionShop.ScaleSide | Src/Application/VisionShopApp.cpp:197 | The float proportion is undefined exactly when the divisor is zero. For non-negative operands the truncated value is the integer floor quotient. |
| VisionShop.TruncQuotient | Src/Application/VisionShopApp.cpp:197-203 | Truncating the exact quotient of non-negative integers gives integer division. |
| VisionShop.FitWidth | Src/Application/VisionShopApp.cpp:195-200 | A fitting width leaves the size alone. A wider image takes the view's width and height ⌊h·winW/w⌋ and is marked resized. |
| VisionShop.FitHeight | Src/Application/VisionShopApp.cpp:201-206 | A fitting height leaves the size alone. A taller image takes the view's height and width ⌊w·winH/h⌋ and is marked resized. |
| VisionShop.ResizeToViewSuit | Src/Application/VisionShopApp.cpp:188-219 | An image that fits in both directions keeps its size and is not resized. One that fits in width is resized exactly when it is too tall. |
| VisionShop.ResizedIffTooLarge | Src/Application/VisionShopApp.cpp:194-207 | For non-negative sizes and a window at least as large as its panels, the image is resized exactly when it is too wide or too tall. |
| VisionShop.FitsAfterWidth | Src/Application/VisionShopApp.cpp:195-200 | After the width step the height is non-negative and no larger than before. |
| VisionShop.ResizeFits | Src/Application/VisionShopApp.cpp:195-206 | For a window larger than its panels the final size is defined, non-negative, at most the view's width and at most its height. |
| VisionShop.ResizeProportions | Src/Application/VisionShopApp.cpp:195-206 | A too-wide image that then fits in height ends at (winW, ⌊imgH·winW/imgW⌋). An image that fits in width but is too tall ends at (⌊imgW·winH/imgH⌋, winH). |
| VisionShop.Initial | Src/Application/VisionShopApp.cpp:12-15 | The application starts in view mode. |
| VisionShop.BrushFront | Src/Application/VisionShopApp.cpp:221-224 | Selects foreground painting and keeps the marks. |
| VisionShop.BrushBack | Src/Application/VisionShopApp.cpp:226-229 | Selects background painting and keeps the marks. |
| VisionShop.SegmentImageDo | Src/Application/VisionShopApp.cpp:231-236 | Returns to view mode and keeps the marks. |
| VisionShop.BrushColour | Src/Application/VisionShopApp.cpp:49-76 | Only the paint modes paint: front with channels (0, 0, 255), back with (255, 0, 0). |
| VisionShop.Stamp | Src/Application/VisionShopApp.cpp:53-62 | The clipped stroke keeps the image's shape. |
| VisionShop.Paint | Src/Application/VisionShopApp.cpp:51-62 | The corrected stroke, written row by row and pixel by pixel in the loop's order, skipping positions off the image, produces exactly one clipped stroke: every in-image pixel of the square takes the colour and nothing else changes. |
| VisionShop.Drag | Src/Application/VisionShopApp.cpp:45-83 | With the clipped stroke, a mouse move keeps the mode and the image's shape, and changes nothing unless the left button is down in a paint mode. In that case exactly the in-image pixels within 2 of (y − 10, x − 165) take the mode's colour. |
| VisionShop.MouseMoved | Src/Application/VisionShopApp.cpp:45-83 | The handler with the corrected stroke has exactly the effect of `Drag`. |
| VisionShop.StampOverwrites | Src/Application/VisionShopApp.cpp:53-78 | A later stroke at the same place replaces an earlier one completely. |
| VisionShop.DragIdempotent | Src/Application/VisionShopApp.cpp:47-81 | A second move event at the same place changes nothing more. |
| VisionShop.SegmentStopsPainting | Src/Application/VisionShopApp.cpp:231-236 | After `SegmentImageDo`, no mouse move changes the marks. |
| VisionShop.BrushMarksCursor | Src/Application/VisionShopApp.cpp:47-81 | After `BrushFront` (or `BrushBack`), a left-button move over the image marks the cursor's pixel foreground (or background). |
| VisionShop.BackOverFront | Src/Application/VisionShopApp.cpp:47-81 | A background stroke over a foreground stroke at the same place leaves what the background stroke alone leaves. |
| VisionShop.AddressedCells | Src/Application/VisionShopApp.cpp:51-57 | The handler as written addresses 25 pixel positions, all in the square around the shifted cursor, with no bounds check. |
| VisionShop.CornerStrokeLeavesImage | Src/Application/VisionShopApp.cpp:51-57 | A move at the image's top-left corner (165, 10) addresses row −2, column −2, which is outside every image. |

## Left out

- **FLANN.** The k-nearest-neighbour index build and query (`flann_*`) are a
  foreign library. Neighbour lists are inputs whose entries are point indices.
- **Eigen normal estimation.** The covariance and `SelfAdjointEigenSolver`
  normal estimation, with its small-length warning, is floating-point linear
  algebra. The estimated normals are inputs.
- **Density scores.** Computing the density scores (lines 666-677) needs
  vector lengths, that is square roots. The scores are inputs. Only their
  insertion into the map is modelled.
- **Mean-curvature-flow fairing.** `MeanCurvatureFlowFairing` uses cotangent
  weights and a sparse LU solve, which are floating point and a foreign solver.
- **Mesh maintenance and the dead export.** `UpdateNormal`,
  `UpdateBoundaryFlag` and `CalculateFaceArea` are not part of this model. The
  boundary flags are given data, and normals are not recomputed after
  smoothing or patch removal. The commented-out STL export is dead code.
- **Logging and memory.** All logging is left out, and so are the
  `new`/`delete` bookkeeping of the index buffers and the ownership of the
  returned structures.
- **Floating-point rounding.** Floats and doubles are exact reals.
  `float`/`double` rounding, NaN and infinity are not modelled, except where a
  division by zero is reported as an error or a finding.
- RemoveSmallPatchHalfEdge: returns the surviving vertices and renumbered
  faces as an index mesh. `Mesh3D::InsertVertex`/`InsertFace`, which rebuild
  half-edge connectivity, are not part of this model.
- Meshes.RingFrom: the `pair→next` walk carries fuel equal to the number of
  half-edges. The model does not state what happens on a malformed mesh whose
  orbit never returns, where the source loops forever.
- Meshes.WellFormed: every half-edge has a pair index, because the source
  calls `GetPair()` without a `NULL` test.
- SmoothHalfEdge: requires every interior vertex to have an outgoing
  half-edge, because line 742 dereferences it without a test.
- SmoothPoints: requires the lists of points `0..n-1` that the graph has to be
  non-empty and to name points only. Line 993 divides by a list's length, and
  line 991 reads the named point without a range test. With a newly built
  graph it also requires one list per point, as the nearest-neighbour search
  returns.
- Orientation.Step: seeds with the corrected scan `Seed`, so it never
  breaks while points remain unaccepted. `Orientation.StepAsWritten` is the
  turn with the −1e10 floor of lines 107-133.
- Orientation.Propagate: runs the corrected `Step`, so its "every point
  accepted" holds for the corrected scan only. As written, points at or below
  z = −1e10 can stay unaccepted. `Orientation.PropagateAsWritten` states that
  outcome.
- Orientation.CalPointSetNormal: is built on the corrected `Propagate`. With
  the scan as written, points at or below z = −1e10 keep their unoriented
  estimates.
- Smoothing.SmoothLight: pins vertices on no face. The source lets them pass
  the guard at line 788 and divides by a face count of zero at line 797 (see
  Findings). The result of that division is not modelled.
- Outlier.RemoveOutlier: the new point set's `hasNormal` flag and its
  `Point3DSet` container are not modelled. The result is the sequence of
  copied points.
- **`ReconstructionApp` outside the range and playback state.** The OpenNI
  device and stream handling, `seek`, depth-to-world conversion, normal
  computation and Ogre rendering are device I/O and rendering.
  `MagicDGP::Epsilon` is a parameter. Frame indices are unbounded integers, so
  32-bit overflow of `mFrameCurrent` is not modelled.
- RangeLimits.ChangeLeft: `mLeftLimit + rel` is computed in `float`. The model
  adds exactly, and the same holds for the other five `Change*` operations.
- **`VisionShopApp` outside the sizing and brush logic.**
  - Image loading and saving, `cv::resize`, seam carving, saliency, graph-cut
    segmentation and texture updates are foreign library calls and UI.
  - The render window's size is an input.
  - The mark image's initial contents, uninitialised by `cv::Mat`, are an
    input.
- VisionShop.Stamp: is the stroke clipped to the image. The handler's
  unchecked writes through `ptr` at lines 57 and 73 are not modelled (see
  Findings). In the continuous mark buffer, an off-edge column of an in-image
  row lands in the neighbouring row, and an off-image row lands outside the
  buffer.
- VisionShop.Paint: skips the positions off the image, which the handler
  writes unchecked. The writes it does perform are the handler's, in the
  handler's order.
- VisionShop.Drag: changes only in-image pixels. The handler's stray writes
  near the image's edge are not modelled.
- VisionShop.MouseMoved: is the handler with the corrected, clipped stroke.
  The stray writes are not modelled.
- VisionShop.ScaleSide: the proportion is computed exactly. A `float`
  rounding of `imgH * float(winW) / imgW` for very large sides is not modelled.
- VisionShop.ResizeToViewSuit: for a window smaller than its panels the model
  returns the negative sizes the arithmetic gives. It does not model
  `cv::Size`/`cv::resize` rejecting them.
- `Src/Application/Reconstruction.h` only declares a class and is not part of
  this model.

## Findings

| source | as written | input that shows it | evidently intended | confidence | as-written member | corrected member |
|---|---|---|---|---|---|---|
| Src/DGP/Consolidation.cpp:107-133 | The seed scan starts from `maxZ = -1.0e10` and accepts only `z > maxZ`, so unaccepted points at or below that height are never seeded. The loop then breaks with them unaccepted and their normals unoriented. | One point at z = −2e10 with an empty front | Seed the highest unaccepted point whatever its height, so that propagation accepts every point | not executed | Orientation.SeedAsWritten | Orientation.Seed |
| Src/DGP/Consolidation.cpp:788-797 | The light-mesh guard skips a vertex only when its neighbour count differs from its face count. A vertex on no face has both counts zero, passes the guard, and line 797 divides its zero sum by a face count of zero. | A mesh of one vertex and no faces | Leave vertices that lie on no face where they are, like other vertices whose ring is not a manifold disk | not executed | Smoothing.LoneVertexDividesByZero | Smoothing.LightTargetRelaxes |
| Src/DGP/Consolidation.cpp:665-701 | Scores are keys of a `std::map<float, int>`, so points with equal scores overwrite each other. Only the last survives in the ranking, fewer than the truncated `n·proportion` points can be removed, and the earlier ones can never be removed. | Scores [1.0, 1.0], proportion 1.0: two removals are asked for, only point 1 is removed | Rank every point, for instance in a multimap, and remove exactly the top `n·proportion` (truncated) scores, breaking ties arbitrarily | not executed | Outlier.EqualScoresSparePoint | Outlier.RankedTakesExactly |
| Src/Application/VisionShopApp.cpp:51-61 | The brush writes all 25 pixels around (Y − 10, X − 165) through `ptr` with no bounds check. Near the image's left or right edge an off-edge column lands in the neighbouring row of the continuous mark buffer. Near the top or bottom, or away from the image, the write lands outside the buffer. | Left-button drag in a paint mode at (165, 10): row −2, column −2 is written | Mark only the pixels of the square that lie in the image | not executed | VisionShop.CornerStrokeLeavesImage | VisionShop.Paint |

=== FILE: common.dfy ===
/** Small index-level vocabulary shared by the consolidation model: optional
    values, flag scans, distinctness, neighbour graphs and the C++ cast from a
    floating-point value to `int`. */
module Common {

  datatype Option<+T> = None | Some(value: T)

  /** No element occurs twice. */
  predicate Distinct<T(==)>(s: seq<T>) {
    forall i, j :: 0 <= i < j < |s| ==> s[i] != s[j]
  }

  /** A neighbour graph over `n` points: one ordered neighbour list per point,
      every neighbour a valid point index. */
  predicate ValidGraph(graph: seq<seq<nat>>, n: nat) {
    && |graph| == n
    && forall i, k :: 0 <= i < n && 0 <= k < |graph[i]| ==> graph[i][k] < n
  }

  /** The neighbour relation of `graph` is symmetric. */
  predicate Symmetric(graph: seq<seq<nat>>) {
    forall v, u :: 0 <= v < |graph| && u in graph[v] ==> u < |graph| && v in graph[u]
  }

  /** The number of unset flags. */
  function CountFalse(flags: seq<bool>): nat {
    if |flags| == 0 then 0
    else (if flags[|flags| - 1] then 0 else 1) + CountFalse(flags[..|flags| - 1])
  }

  lemma {:induction false} CountFalseSet(flags: seq<bool>, i: nat)
    requires i < |flags| && !flags[i]
    ensures CountFalse(flags[i := true]) + 1 == CountFalse(flags)
    decreases |flags|
  {
    var last := |flags| - 1;
    if i < last {
      assert flags[i := true][..last] == flags[..last][i := true];
      CountFalseSet(flags[..last], i);
    } else {
      assert flags[i := true][..last] == flags[..last];
    }
  }

  lemma {:induction false} CountFalseZero(flags: seq<bool>)
    requires CountFalse(flags) == 0
    ensures forall i :: 0 <= i < |flags| ==> flags[i]
    decreases |flags|
  {
    if |flags| > 0 {
      CountFalseZero(flags[..|flags| - 1]);
      assert forall i :: 0 <= i < |flags| - 1 ==> flags[..|flags| - 1][i] == flags[i];
    }
  }

  /** The scan `for (i = from; i < n; i++) if (!flags[i]) ...break`: the
      lowest index at or after `from` whose flag is unset. */
  function FirstFalse(flags: seq<bool>, from: nat): (r: Option<nat>)
    requires from <= |flags|
    decreases |flags| - from
    ensures r.None? <==> forall i :: from <= i < |flags| ==> flags[i]
    ensures r.Some? ==> from <= r.value < |flags| && !flags[r.value]
    ensures r.Some? ==> forall i :: from <= i < r.value ==> flags[i]
  {
    if from == |flags| then None
    else if !flags[from] then Some(from)
    else FirstFalse(flags, from + 1)
  }

  /** The elements of `s` in `[lo, hi)` in ascending order: the iteration
      order of a `std::set<int>`. */
  function Ascending(s: set<nat>, lo: nat, hi: nat): (r: seq<nat>)
    requires lo <= hi
    decreases hi - lo
    ensures forall i, j :: 0 <= i < j < |r| ==> r[i] < r[j]
    ensures forall x :: x in r <==> x in s && lo <= x < hi
  {
    if lo == hi then []
    else
      var rest := Ascending(s, lo + 1, hi);
      assert forall k :: 0 <= k < |rest| ==> lo < rest[k] by {
        forall k | 0 <= k < |rest| ensures lo < rest[k] {
          assert rest[k] in rest;
        }
      }
      (if lo in s then [lo] else []) + rest
  }

  lemma AscendingDistinct(s: set<nat>, lo: nat, hi: nat)
    requires lo <= hi
    ensures Distinct(Ascending(s, lo, hi))
  {
  }

  /** The size of a set of indices below `hi` is the length of its ascending
      enumeration. */
  lemma AscendingLength(s: set<nat>, lo: nat, hi: nat)
    requires lo <= hi
    requires forall x :: x in s ==> lo <= x < hi
    ensures |Ascending(s, lo, hi)| == |s|
  {
    AscendingCount(s, lo, hi);
    CountInCard(s, lo, hi);
  }

  /** The number of members of `s` in `[lo, hi)`. */
  function CountIn(s: set<nat>, lo: nat, hi: nat): nat
    requires lo <= hi
    decreases hi - lo
  {
    if lo == hi then 0 else (if lo in s then 1 else 0) + CountIn(s, lo + 1, hi)
  }

  lemma {:induction false} AscendingCount(s: set<nat>, lo: nat, hi: nat)
    requires lo <= hi
    ensures |Ascending(s, lo, hi)| == CountIn(s, lo, hi)
    decreases hi - lo
  {
    if lo < hi {
      AscendingCount(s, lo + 1, hi);
      AscendingStepLength(s, lo, hi);
    }
  }

  /** One step of the enumeration adds `lo` exactly when it is a member. */
  lemma AscendingStepLength(s: set<nat>, lo: nat, hi: nat)
    requires lo < hi
    ensures |Ascending(s, lo, hi)| == (if lo in s then 1 else 0) + |Ascending(s, lo + 1, hi)|
  {
  }

  lemma {:induction false} CountInCard(s: set<nat>, lo: nat, hi: nat)
    requires lo <= hi
    requires forall x :: x in s ==> lo <= x < hi
    ensures CountIn(s, lo, hi) == |s|
    decreases hi - lo
  {
    if lo < hi {
      var rest := s - {lo};
      CountInIgnores(s, rest, lo + 1, hi);
      CountInCard(rest, lo + 1, hi);
      RemoveCard(s, lo);
    } else {
      assert s == {};
    }
  }

  lemma {:induction false} CountInIgnores(s: set<nat>, t: set<nat>, lo: nat, hi: nat)
    requires lo <= hi
    requires forall x :: lo <= x < hi ==> (x in s <==> x in t)
    ensures CountIn(s, lo, hi) == CountIn(t, lo, hi)
    decreases hi - lo
  {
    if lo < hi {
      CountInIgnores(s, t, lo + 1, hi);
    }
  }

  /** Removing `x` shrinks a set by one exactly when `x` is a member. */
  lemma RemoveCard(s: set<nat>, x: nat)
    ensures |s| == |s - {x}| + (if x in s then 1 else 0)
  {
    if x in s {
      assert s == (s - {x}) + {x};
    } else {
      assert s - {x} == s;
    }
  }

  lemma {:induction false} AscendingIgnoresBelow(s: set<nat>, t: set<nat>, lo: nat, hi: nat)
    requires lo <= hi
    requires forall x :: lo <= x < hi ==> (x in s <==> x in t)
    ensures Ascending(s, lo, hi) == Ascending(t, lo, hi)
    decreases hi - lo
  {
    if lo < hi {
      AscendingIgnoresBelow(s, t, lo + 1, hi);
    }
  }

  /** The C++ conversion of a floating-point value to `int`: truncation
      toward zero. */
  function TruncToInt(x: real): (r: int)
    ensures 0.0 <= x ==> r as real <= x < r as real + 1.0
    ensures x < 0.0 ==> r as real - 1.0 < x <= r as real
  {
    if x >= 0.0 then x.Floor else -((-x).Floor)
  }
}

=== FILE: components.dfy ===
/** The breadth-first flood fill both `RemoveSmallMeshPatch` variants run
    over their vertex adjacency (lines 394-449 and 540-585): take the lowest
    unvisited vertex, then grow its group one level at a time, appending
    each newly reached vertex to the group and to the next level. */
module Components {
  import opened Common

  // ---------------------------------------------------------------------
  // What the finished groups satisfy

  /** Every vertex below `n` is in exactly one group; groups are non-empty
      and list no vertex twice. */
  predicate Partition(n: nat, groups: seq<seq<nat>>) {
    Disjoint(n, groups) && forall v :: 0 <= v < n ==> InSome(groups, |groups|, v)
  }

  /** Groups are non-empty, list no vertex twice, hold vertices below `n`,
      and no vertex is in two groups. */
  predicate Disjoint(n: nat, groups: seq<seq<nat>>) {
    && (forall g :: 0 <= g < |groups| ==> |groups[g]| > 0 && Distinct(groups[g]))
    && (forall g, k :: 0 <= g < |groups| && 0 <= k < |groups[g]| ==> groups[g][k] < n)
    && (forall g, h, v :: 0 <= g < |groups| && 0 <= h < |groups| && v in groups[g] && v in groups[h] ==> g == h)
  }

  /** `v` is in one of the first `g` groups. */
  predicate InSome(groups: seq<seq<nat>>, g: nat, v: nat) {
    exists h :: 0 <= h < g && h < |groups| && v in groups[h]
  }

  /** A neighbour of a group member lies in that group or an earlier one. */
  predicate ReachesBack(adj: seq<seq<nat>>, groups: seq<seq<nat>>) {
    forall g, v, u :: 0 <= g < |groups| && v in groups[g] && v < |adj| && u in adj[v] ==>
      InSome(groups, g + 1, u)
  }

  /** Member `k` of `group` is a neighbour of an earlier member. */
  predicate ReachedFromEarlier(adj: seq<seq<nat>>, group: seq<nat>, k: nat)
    requires k < |group|
  {
    exists j :: 0 <= j < k && group[j] < |adj| && group[k] in adj[group[j]]
  }

  /** Every member after the first was reached from an earlier member. */
  predicate Tree(adj: seq<seq<nat>>, groups: seq<seq<nat>>) {
    forall g, k :: 0 <= g < |groups| && 0 < k < |groups[g]| ==> ReachedFromEarlier(adj, groups[g], k)
  }

  /** Each group starts at the lowest vertex no earlier group holds. */
  predicate Leaders(groups: seq<seq<nat>>) {
    forall g, v :: 0 <= g < |groups| && |groups[g]| > 0 && 0 <= v < groups[g][0] ==>
      InSome(groups, g, v)
  }

  // ---------------------------------------------------------------------
  // Loop state: `visitFlag`, a ghost record of which group took each
  // vertex, and the groups so far (the last one possibly still growing)

  ghost predicate Labelled(n: nat, visited: seq<bool>, owner: seq<int>, gs: seq<seq<nat>>) {
    && |visited| == n && |owner| == n
    && (forall v :: 0 <= v < n ==> (visited[v] <==> owner[v] >= 0))
    && (forall v :: 0 <= v < n && visited[v] ==> owner[v] < |gs| && v in gs[owner[v]])
    && (forall g, k :: 0 <= g < |gs| && 0 <= k < |gs[g]| ==> gs[g][k] < n && owner[gs[g][k]] == g)
    && (forall g :: 0 <= g < |gs| ==> |gs[g]| > 0 && Distinct(gs[g]))
  }

  /** Group leaders: everything below a group's first vertex was taken by an
      earlier group. */
  ghost predicate LeadersOk(visited: seq<bool>, owner: seq<int>, gs: seq<seq<nat>>)
    requires |visited| == |owner|
  {
    forall g, v :: 0 <= g < |gs| && |gs[g]| > 0 && 0 <= v < gs[g][0] && v < |visited| ==>
      visited[v] && owner[v] < g
  }

  /** All neighbours of `v` are visited, by `v`'s group or an earlier one. */
  ghost predicate Expanded(adj: seq<seq<nat>>, visited: seq<bool>, owner: seq<int>, v: nat)
    requires |visited| == |owner| && v < |adj| && v < |owner|
  {
    forall u :: u in adj[v] ==> u < |visited| && visited[u] && owner[u] <= owner[v]
  }

  /** Every visited vertex not waiting in `pending` has been expanded. */
  ghost predicate Closed(adj: seq<seq<nat>>, visited: seq<bool>, owner: seq<int>, pending: seq<nat>)
    requires |visited| == |owner| == |adj|
  {
    forall v :: 0 <= v < |visited| && visited[v] && v !in pending ==> Expanded(adj, visited, owner, v)
  }

  /** Visited vertices keep their flag and their group. */
  ghost predicate Grows(visited: seq<bool>, owner: seq<int>, visited': seq<bool>, owner': seq<int>)
    requires |visited| == |owner| == |visited'| == |owner'|
  {
    forall v :: 0 <= v < |visited| && visited[v] ==> visited'[v] && owner'[v] == owner[v]
  }

  /** Marking unvisited `u`, a neighbour of member `x`, as a member of the
      last group keeps the labelling, the leaders and the tree shape. */
  lemma MarkInv(adj: seq<seq<nat>>, visited: seq<bool>, owner: seq<int>,
                groups: seq<seq<nat>>, group: seq<nat>, x: nat, u: nat)
    requires ValidGraph(adj, |adj|)
    requires Labelled(|adj|, visited, owner, groups + [group])
    requires LeadersOk(visited, owner, groups + [group])
    requires Tree(adj, groups + [group])
    requires x in group && x < |adj| && u < |adj| && u in adj[x] && !visited[u]
    ensures Labelled(|adj|, visited[u := true], owner[u := |groups|], groups + [group + [u]])
    ensures LeadersOk(visited[u := true], owner[u := |groups|], groups + [group + [u]])
    ensures Tree(adj, groups + [group + [u]])
    ensures Grows(visited, owner, visited[u := true], owner[u := |groups|])
    ensures CountFalse(visited[u := true]) + 1 == CountFalse(visited)
  {
    CountFalseSet(visited, u);
    MarkLabelled(|adj|, visited, owner, groups, group, u);
    MarkLeaders(|adj|, visited, owner, groups, group, u);
    MarkTree(adj, groups, group, x, u);
  }

  lemma MarkFresh(n: nat, visited: seq<bool>, owner: seq<int>, groups: seq<seq<nat>>, group: seq<nat>, u: nat)
    requires Labelled(n, visited, owner, groups + [group])
    requires u < n && !visited[u]
    ensures u !in group
  {
    var g := |groups|;
    assert (groups + [group])[g] == group;
    forall k | 0 <= k < |group|
      ensures group[k] != u
    {
      assert owner[(groups + [group])[g][k]] == g;
    }
  }

  lemma DistinctAppend(s: seq<nat>, u: nat)
    requires Distinct(s) && u !in s
    ensures Distinct(s + [u])
  {
    forall i, j | 0 <= i < j < |s + [u]|
      ensures (s + [u])[i] != (s + [u])[j]
    {
      assert (s + [u])[i] == s[i];
      if j < |s| {
        assert (s + [u])[j] == s[j];
      }
    }
  }

  lemma MarkLabelled(n: nat, visited: seq<bool>, owner: seq<int>, groups: seq<seq<nat>>, group: seq<nat>, u: nat)
    requires Labelled(n, visited, owner, groups + [group])
    requires u < n && !visited[u]
    ensures Labelled(n, visited[u := true], owner[u := |groups|], groups + [group + [u]])
  {
    var g := |groups|;
    var gs, gs' := groups + [group], groups + [group + [u]];
    var visited', owner' := visited[u := true], owner[u := g];
    assert gs[g] == group && gs'[g] == group + [u];
    assert forall h :: 0 <= h < g ==> gs'[h] == gs[h];
    MarkFresh(n, visited, owner, groups, group, u);
    forall v | 0 <= v < n && visited'[v]
      ensures owner'[v] < |gs'| && v in gs'[owner'[v]]
    {
      if v != u {
        assert v in gs[owner[v]];
      }
    }
    forall h, k | 0 <= h < |gs'| && 0 <= k < |gs'[h]|
      ensures gs'[h][k] < n && owner'[gs'[h][k]] == h
    {
      if h < g || k < |group| {
        assert gs'[h][k] == gs[h][k];
        assert visited[gs[h][k]];
      }
    }
    DistinctAppend(group, u);
  }

  lemma MarkLeaders(n: nat, visited: seq<bool>, owner: seq<int>, groups: seq<seq<nat>>, group: seq<nat>, u: nat)
    requires Labelled(n, visited, owner, groups + [group])
    requires LeadersOk(visited, owner, groups + [group])
    requires u < n && !visited[u]
    ensures LeadersOk(visited[u := true], owner[u := |groups|], groups + [group + [u]])
  {
    var g := |groups|;
    var gs, gs' := groups + [group], groups + [group + [u]];
    var visited', owner' := visited[u := true], owner[u := g];
    assert gs[g] == group && gs'[g] == group + [u];
    forall h, v | 0 <= h < |gs'| && |gs'[h]| > 0 && 0 <= v < gs'[h][0] && v < n
      ensures visited'[v] && owner'[v] < h
    {
      if h < g {
        assert gs'[h] == gs[h];
      } else {
        assert gs'[h][0] == group[0] == gs[h][0];
      }
      assert visited[v] && owner[v] < h;
      assert v != u;
    }
  }

  lemma MarkTree(adj: seq<seq<nat>>, groups: seq<seq<nat>>, group: seq<nat>, x: nat, u: nat)
    requires Tree(adj, groups + [group])
    requires x in group && x < |adj| && u in adj[x]
    ensures Tree(adj, groups + [group + [u]])
  {
    var g := |groups|;
    var gs, gs' := groups + [group], groups + [group + [u]];
    assert gs[g] == group && gs'[g] == group + [u];
    forall h, k | 0 <= h < |gs'| && 0 < k < |gs'[h]|
      ensures ReachedFromEarlier(adj, gs'[h], k)
    {
      if h == g && k == |group| {
        var j :| 0 <= j < |group| && group[j] == x;
        assert gs'[h][j] == x && gs'[h][k] == u;
      } else {
        if h < g {
          assert gs'[h] == gs[h];
        } else {
          assert k < |group|;
          assert gs'[h][k] == gs[h][k];
          assert forall j :: 0 <= j < k ==> gs'[h][j] == gs[h][j];
        }
        assert ReachedFromEarlier(adj, gs[h], k);
        var j :| 0 <= j < k && gs[h][j] < |adj| && gs[h][k] in adj[gs[h][j]];
        assert gs'[h][j] == gs[h][j];
      }
    }
  }

  /** The inner loop of lines 421-443 (or 567-579) for one member `x`, the
      one at position `pos` of the growing group: every unvisited neighbour
      is appended to the group and to the next level, and marked. */
  method VisitNeighbours(adj: seq<seq<nat>>, ghost groups: seq<seq<nat>>, visited0: seq<bool>,
                         ghost owner0: seq<int>, group0: seq<nat>, next0: seq<nat>,
                         x: nat, ghost pos: nat)
    returns (visited: seq<bool>, ghost owner: seq<int>, group: seq<nat>, next: seq<nat>)
    requires ValidGraph(adj, |adj|)
    requires Labelled(|adj|, visited0, owner0, groups + [group0])
    requires LeadersOk(visited0, owner0, groups + [group0])
    requires Tree(adj, groups + [group0])
    requires pos < |group0| && group0[pos] == x && Closed(adj, visited0, owner0, group0[pos..])
    ensures Labelled(|adj|, visited, owner, groups + [group])
    ensures LeadersOk(visited, owner, groups + [group])
    ensures Tree(adj, groups + [group])
    ensures Grows(visited0, owner0, visited, owner)
    ensures |group| >= |group0| && group[..|group0|] == group0
    ensures Closed(adj, visited, owner, group[pos + 1..])
    ensures next == next0 + group[|group0|..]
    ensures CountFalse(visited) + |group| == CountFalse(visited0) + |group0|
  {
    ghost var g := |groups|;
    assert (groups + [group0])[g] == group0;
    visited, owner, group, next := visited0, owner0, group0, next0;
    var j := 0;
    while j < |adj[x]|
      invariant 0 <= j <= |adj[x]|
      invariant Labelled(|adj|, visited, owner, groups + [group])
      invariant LeadersOk(visited, owner, groups + [group])
      invariant Tree(adj, groups + [group])
      invariant Grows(visited0, owner0, visited, owner)
      invariant |group| >= |group0| && group[..|group0|] == group0
      invariant next == next0 + group[|group0|..]
      invariant CountFalse(visited) + |group| == CountFalse(visited0) + |group0|
      invariant Closed(adj, visited, owner, group[pos..])
      invariant Seen(visited, owner, adj[x], j, g)
    {
      var u := adj[x][j];
      if !visited[u] {
        assert group[pos] == x;
        MarkInv(adj, visited, owner, groups, group, x, u);
        ClosedMark(adj, visited, owner, group[pos..], u, g);
        GrowsMark(visited0, owner0, visited, owner, u, g);
        GrowsKeepsSeen(visited, owner, visited[u := true], owner[u := g], adj[x], j, g);
        AppendKeeps(group0, next0, group, next, u, pos);
        visited := visited[u := true];
        owner := owner[u := g];
        group := group + [u];
        next := next + [u];
      }
      assert visited[u];
      assert owner[u] < |groups + [group]|;
      SeenStep(visited, owner, adj[x], j, g);
      j := j + 1;
    }
    assert (groups + [group])[g][pos] == x;
    ClosedPop(adj, visited, owner, group[pos..]);
    assert group[pos..][1..] == group[pos + 1..];
  }

  /** Marking an unvisited vertex keeps what an earlier state had visited. */
  lemma GrowsMark(visited0: seq<bool>, owner0: seq<int>, visited: seq<bool>, owner: seq<int>, u: nat, g: int)
    requires |visited0| == |owner0| == |visited| == |owner| && u < |visited| && !visited[u]
    requires Grows(visited0, owner0, visited, owner)
    ensures Grows(visited0, owner0, visited[u := true], owner[u := g])
  {
  }

  /** The first `j` entries of `vs` are visited, by group `g` or earlier. */
  ghost predicate Seen(visited: seq<bool>, owner: seq<int>, vs: seq<nat>, j: nat, g: int)
    requires |visited| == |owner|
  {
    forall i :: 0 <= i < j && i < |vs| ==> vs[i] < |visited| && visited[vs[i]] && owner[vs[i]] <= g
  }

  /** Neighbours already seen stay seen, in the same group, as the marking
      grows. */
  lemma GrowsKeepsSeen(visited: seq<bool>, owner: seq<int>, visited': seq<bool>, owner': seq<int>,
                       vs: seq<nat>, j: nat, g: int)
    requires |visited| == |owner| == |visited'| == |owner'|
    requires Grows(visited, owner, visited', owner')
    requires Seen(visited, owner, vs, j, g)
    ensures Seen(visited', owner', vs, j, g)
  {
  }

  lemma SeenStep(visited: seq<bool>, owner: seq<int>, vs: seq<nat>, j: nat, g: int)
    requires |visited| == |owner| && j < |vs|
    requires Seen(visited, owner, vs, j, g)
    requires vs[j] < |visited| && visited[vs[j]] && owner[vs[j]] <= g
    ensures Seen(visited, owner, vs, j + 1, g)
  {
  }

  /** Appending `u` to the group keeps the group's old prefix, queues `u`
      on the next level and adds it to the members still to expand. */
  lemma AppendKeeps(group0: seq<nat>, next0: seq<nat>, group: seq<nat>, next: seq<nat>, u: nat, pos: nat)
    requires pos <= |group0| <= |group| && group[..|group0|] == group0
    requires next == next0 + group[|group0|..]
    ensures (group + [u])[..|group0|] == group0
    ensures next + [u] == next0 + (group + [u])[|group0|..]
    ensures (group + [u])[pos..] == group[pos..] + [u]
  {
    assert (group + [u])[..|group0|] == group[..|group0|];
    assert (group + [u])[|group0|..] == group[|group0|..] + [u];
  }

  /** Marking `u` and queueing it keeps every expanded vertex expanded. */
  lemma ClosedMark(adj: seq<seq<nat>>, visited: seq<bool>, owner: seq<int>, pending: seq<nat>, u: nat, g: int)
    requires |visited| == |owner| == |adj| && u < |adj| && !visited[u]
    requires Closed(adj, visited, owner, pending)
    ensures Closed(adj, visited[u := true], owner[u := g], pending + [u])
  {
    var visited', owner' := visited[u := true], owner[u := g];
    forall v | 0 <= v < |visited'| && visited'[v] && v !in pending + [u]
      ensures Expanded(adj, visited', owner', v)
    {
      assert v != u && v !in pending;
      assert Expanded(adj, visited, owner, v);
    }
  }

  /** Once every neighbour of the head of `pending` is visited no later
      than the head's own group, the head can leave `pending`. */
  lemma ClosedPop(adj: seq<seq<nat>>, visited: seq<bool>, owner: seq<int>, pending: seq<nat>)
    requires |visited| == |owner| == |adj| && |pending| > 0 && pending[0] < |adj|
    requires Closed(adj, visited, owner, pending)
    requires forall i :: 0 <= i < |adj[pending[0]]| ==>
      adj[pending[0]][i] < |adj| && visited[adj[pending[0]][i]] && owner[adj[pending[0]][i]] <= owner[pending[0]]
    ensures Closed(adj, visited, owner, pending[1..])
  {
    var x := pending[0];
    assert Expanded(adj, visited, owner, x) by {
      forall u | u in adj[x]
        ensures u < |visited| && visited[u] && owner[u] <= owner[x]
      {
        var i :| 0 <= i < |adj[x]| && adj[x][i] == u;
      }
    }
    assert pending == [x] + pending[1..];
    forall v | 0 <= v < |visited| && visited[v] && v !in pending[1..]
      ensures Expanded(adj, visited, owner, v)
    {
      if v != x {
        assert v !in pending;
      }
    }
  }

  /** One pass of the `for` over `visitStack` (lines 420-445): the level is
      the tail `group0[e..]`, and the next level is what the pass appends. */
  method VisitLevel(adj: seq<seq<nat>>, ghost groups: seq<seq<nat>>, visited0: seq<bool>,
                    ghost owner0: seq<int>, group0: seq<nat>, stack: seq<nat>, ghost e: nat)
    returns (visited: seq<bool>, ghost owner: seq<int>, group: seq<nat>, next: seq<nat>)
    requires ValidGraph(adj, |adj|)
    requires Labelled(|adj|, visited0, owner0, groups + [group0])
    requires LeadersOk(visited0, owner0, groups + [group0])
    requires Tree(adj, groups + [group0])
    requires e <= |group0| && stack == group0[e..] && Closed(adj, visited0, owner0, stack)
    ensures Labelled(|adj|, visited, owner, groups + [group])
    ensures LeadersOk(visited, owner, groups + [group])
    ensures Tree(adj, groups + [group])
    ensures Grows(visited0, owner0, visited, owner)
    ensures |group| >= |group0| && group[..|group0|] == group0
    ensures next == group[|group0|..] && Closed(adj, visited, owner, next)
    ensures CountFalse(visited) + |group| == CountFalse(visited0) + |group0|
  {
    visited, owner, group, next := visited0, owner0, group0, [];
    var i := 0;
    while i < |stack|
      invariant 0 <= i <= |stack|
      invariant Labelled(|adj|, visited, owner, groups + [group])
      invariant LeadersOk(visited, owner, groups + [group])
      invariant Tree(adj, groups + [group])
      invariant Grows(visited0, owner0, visited, owner)
      invariant |group| >= |group0| && group[..|group0|] == group0
      invariant next == group[|group0|..]
      invariant Closed(adj, visited, owner, group[e + i..])
      invariant CountFalse(visited) + |group| == CountFalse(visited0) + |group0|
    {
      assert group[e + i] == group0[e + i] == stack[i];
      ghost var group1, next1 := group, next;
      visited, owner, group, next := VisitNeighbours(adj, groups, visited, owner, group, next, stack[i], e + i);
      assert group[..|group0|] == group[..|group1|][..|group0|];
      assert next == group[|group0|..] by {
        assert group == group1 + group[|group1|..];
        assert group[|group0|..] == group1[|group0|..] + group[|group1|..];
      }
      i := i + 1;
    }
    assert group[e + i..] == group[|group0|..];
  }

  /** Lines 414-447: start a group at unvisited `s` and grow it level by
      level until a level adds nothing. */
  method GrowGroup(adj: seq<seq<nat>>, ghost groups: seq<seq<nat>>, visited0: seq<bool>,
                   ghost owner0: seq<int>, s: nat)
    returns (visited: seq<bool>, ghost owner: seq<int>, group: seq<nat>)
    requires ValidGraph(adj, |adj|)
    requires Labelled(|adj|, visited0, owner0, groups)
    requires LeadersOk(visited0, owner0, groups)
    requires Tree(adj, groups)
    requires Closed(adj, visited0, owner0, [])
    requires s < |adj| && !visited0[s] && forall v :: 0 <= v < s ==> visited0[v]
    ensures Labelled(|adj|, visited, owner, groups + [group])
    ensures LeadersOk(visited, owner, groups + [group])
    ensures Tree(adj, groups + [group])
    ensures Closed(adj, visited, owner, [])
    ensures |group| > 0 && group[0] == s
    ensures CountFalse(visited) + |group| == CountFalse(visited0)
  {
    StartInv(adj, visited0, owner0, groups, s);
    ClosedMark(adj, visited0, owner0, [], s, |groups|);
    assert [] + [s] == [s];
    visited, owner, group := visited0[s := true], owner0[s := |groups|], [s];
    var stack := [s];
    ghost var e := 0;
    while |stack| > 0
      invariant Labelled(|adj|, visited, owner, groups + [group])
      invariant LeadersOk(visited, owner, groups + [group])
      invariant Tree(adj, groups + [group])
      invariant e <= |group| && stack == group[e..] && Closed(adj, visited, owner, stack)
      invariant |group| > 0 && group[0] == s
      invariant CountFalse(visited) + |group| == CountFalse(visited0)
      decreases CountFalse(visited), |stack|
    {
      ghost var size := |group|;
      var next;
      visited, owner, group, next := VisitLevel(adj, groups, visited, owner, group, stack, e);
      assert group[0] == group[..size][0];
      stack, e := next, size;
    }
  }

  /** Starting a group at `s`, the lowest unvisited vertex. */
  lemma StartInv(adj: seq<seq<nat>>, visited: seq<bool>, owner: seq<int>, groups: seq<seq<nat>>, s: nat)
    requires Labelled(|adj|, visited, owner, groups)
    requires LeadersOk(visited, owner, groups)
    requires Tree(adj, groups)
    requires s < |adj| && !visited[s] && forall v :: 0 <= v < s ==> visited[v]
    ensures Labelled(|adj|, visited[s := true], owner[s := |groups|], groups + [[s]])
    ensures LeadersOk(visited[s := true], owner[s := |groups|], groups + [[s]])
    ensures Tree(adj, groups + [[s]])
    ensures CountFalse(visited[s := true]) + 1 == CountFalse(visited)
  {
    CountFalseSet(visited, s);
    StartLabelled(|adj|, visited, owner, groups, s);
    StartLeaders(|adj|, visited, owner, groups, s);
    var gs' := groups + [[s]];
    forall h, k | 0 <= h < |gs'| && 0 < k < |gs'[h]|
      ensures ReachedFromEarlier(adj, gs'[h], k)
    {
      assert gs'[h] == groups[h];
      assert ReachedFromEarlier(adj, groups[h], k);
    }
  }

  lemma StartLabelled(n: nat, visited: seq<bool>, owner: seq<int>, groups: seq<seq<nat>>, s: nat)
    requires Labelled(n, visited, owner, groups)
    requires s < n && !visited[s]
    ensures Labelled(n, visited[s := true], owner[s := |groups|], groups + [[s]])
  {
    var g := |groups|;
    var gs' := groups + [[s]];
    var visited', owner' := visited[s := true], owner[s := g];
    assert gs'[g] == [s];
    assert forall h :: 0 <= h < g ==> gs'[h] == groups[h];
    forall v | 0 <= v < n && visited'[v]
      ensures owner'[v] < |gs'| && v in gs'[owner'[v]]
    {
      if v != s {
        assert v in groups[owner[v]];
      }
    }
    forall h, k | 0 <= h < |gs'| && 0 <= k < |gs'[h]|
      ensures gs'[h][k] < n && owner'[gs'[h][k]] == h
    {
      if h < g {
        assert visited[groups[h][k]];
      }
    }
  }

  lemma StartLeaders(n: nat, visited: seq<bool>, owner: seq<int>, groups: seq<seq<nat>>, s: nat)
    requires Labelled(n, visited, owner, groups)
    requires LeadersOk(visited, owner, groups)
    requires s < n && !visited[s] && forall v :: 0 <= v < s ==> visited[v]
    ensures LeadersOk(visited[s := true], owner[s := |groups|], groups + [[s]])
  {
    var g := |groups|;
    var gs' := groups + [[s]];
    var visited', owner' := visited[s := true], owner[s := g];
    forall h, v | 0 <= h < |gs'| && |gs'[h]| > 0 && 0 <= v < gs'[h][0] && v < |visited'|
      ensures visited'[v] && owner'[v] < h
    {
      if h < g {
        assert gs'[h] == groups[h];
        assert visited[v] && owner[v] < h;
      } else {
        assert gs'[h][0] == s;
        assert visited[v] && owner[v] < g;
      }
    }
  }

  /** Lines 394-449 (and 540-585): repeatedly start a group at the lowest
      unvisited vertex and grow it. */
  method FloodFill(adj: seq<seq<nat>>) returns (groups: seq<seq<nat>>)
    requires ValidGraph(adj, |adj|)
    ensures Partition(|adj|, groups)
    ensures ReachesBack(adj, groups)
    ensures Tree(adj, groups)
    ensures Leaders(groups)
  {
    var visited := seq(|adj|, _ => false);
    ghost var owner: seq<int> := seq(|adj|, _ => -1);
    groups := [];
    while true
      invariant Labelled(|adj|, visited, owner, groups)
      invariant LeadersOk(visited, owner, groups)
      invariant Tree(adj, groups)
      invariant Closed(adj, visited, owner, [])
      decreases CountFalse(visited)
    {
      var start := FirstFalse(visited, 0);
      if start.None? {
        break;
      }
      var group;
      visited, owner, group := GrowGroup(adj, groups, visited, owner, start.value);
      groups := groups + [group];
    }
    FinishPartition(|adj|, visited, owner, groups);
    FinishReachesBack(adj, visited, owner, groups);
    FinishLeaders(visited, owner, groups);
  }

  lemma FinishPartition(n: nat, visited: seq<bool>, owner: seq<int>, groups: seq<seq<nat>>)
    requires Labelled(n, visited, owner, groups)
    requires forall v :: 0 <= v < n ==> visited[v]
    ensures Partition(n, groups)
  {
    forall v | 0 <= v < n
      ensures InSome(groups, |groups|, v)
    {
      assert v in groups[owner[v]];
    }
    forall g, h, v | 0 <= g < |groups| && 0 <= h < |groups| && v in groups[g] && v in groups[h]
      ensures g == h
    {
      var i :| 0 <= i < |groups[g]| && groups[g][i] == v;
      var j :| 0 <= j < |groups[h]| && groups[h][j] == v;
      assert owner[groups[g][i]] == g && owner[groups[h][j]] == h;
    }
  }

  lemma FinishReachesBack(adj: seq<seq<nat>>, visited: seq<bool>, owner: seq<int>, groups: seq<seq<nat>>)
    requires Labelled(|adj|, visited, owner, groups)
    requires Closed(adj, visited, owner, [])
    ensures ReachesBack(adj, groups)
  {
    forall g, v, u | 0 <= g < |groups| && v in groups[g] && v < |adj| && u in adj[v]
      ensures InSome(groups, g + 1, u)
    {
      var i :| 0 <= i < |groups[g]| && groups[g][i] == v;
      assert owner[groups[g][i]] == g;
      assert visited[v];
      assert Expanded(adj, visited, owner, v);
      assert u in groups[owner[u]];
    }
  }

  lemma FinishLeaders(visited: seq<bool>, owner: seq<int>, groups: seq<seq<nat>>)
    requires Labelled(|visited|, visited, owner, groups)
    requires LeadersOk(visited, owner, groups)
    ensures Leaders(groups)
  {
    forall g, v | 0 <= g < |groups| && |groups[g]| > 0 && 0 <= v < groups[g][0]
      ensures InSome(groups, g, v)
    {
      assert groups[g][0] < |visited|;
      assert visited[v] && owner[v] < g;
      assert v in groups[owner[v]];
    }
  }

  /** With a symmetric adjacency every group is a whole connected
      component: a member's neighbours are members of the same group. */
  lemma SymmetricGroupsClosed(adj: seq<seq<nat>>, groups: seq<seq<nat>>, g: nat, v: nat, u: nat)
    requires Symmetric(adj) && Partition(|adj|, groups) && ReachesBack(adj, groups)
    requires g < |groups| && v in groups[g] && u in adj[v]
    ensures u in groups[g]
  {
    var h := BackTo(adj, groups, g, v, u);
    assert u < |adj| && v in adj[u];
    var h' := BackTo(adj, groups, h, u, v);
    UniqueGroup(|adj|, groups, g, h', v);
  }

  /** The group, at or before `g`, that holds a neighbour `u` of member `v`. */
  lemma BackTo(adj: seq<seq<nat>>, groups: seq<seq<nat>>, g: nat, v: nat, u: nat) returns (h: nat)
    requires ReachesBack(adj, groups) && (forall g, k :: 0 <= g < |groups| && 0 <= k < |groups[g]| ==> groups[g][k] < |adj|)
    requires g < |groups| && v in groups[g] && u in adj[v]
    ensures h <= g && u in groups[h]
  {
    var i :| 0 <= i < |groups[g]| && groups[g][i] == v;
    assert v < |adj|;
    assert InSome(groups, g + 1, u);
    h :| 0 <= h < g + 1 && h < |groups| && u in groups[h];
  }

  lemma UniqueGroup(n: nat, groups: seq<seq<nat>>, g: nat, h: nat, v: nat)
    requires Disjoint(n, groups)
    requires g < |groups| && h < |groups| && v in groups[g] && v in groups[h]
    ensures g == h
  {
  }
}

=== FILE: geometry.dfy ===
/** Three-dimensional vectors over the reals, standing for the source's
    `MagicMath::Vector3` (floating-point rounding is not modelled). */
module Geometry {

  datatype Vec3 = Vec3(x: real, y: real, z: real)

  const Origin: Vec3 := Vec3(0.0, 0.0, 0.0)

  function Add(a: Vec3, b: Vec3): Vec3 {
    Vec3(a.x + b.x, a.y + b.y, a.z + b.z)
  }

  /** `v *= -1`. */
  function Neg(a: Vec3): Vec3 {
    Vec3(-a.x, -a.y, -a.z)
  }

  function Scale(a: Vec3, s: real): Vec3 {
    Vec3(a.x * s, a.y * s, a.z * s)
  }

  /** A product of two coordinates. */
  function Mul(u: real, v: real): real {
    u * v
  }

  /** `a * b` on two vectors: the dot product. */
  function Dot(a: Vec3, b: Vec3): real {
    Mul(a.x, b.x) + Mul(a.y, b.y) + Mul(a.z, b.z)
  }

  /** `v /= n`, componentwise. */
  function Divide(a: Vec3, n: nat): Vec3
    requires n > 0
  {
    Vec3(a.x / n as real, a.y / n as real, a.z / n as real)
  }

  /** `avgPos += p` over `vs` in order, starting from the origin. */
  function Sum(vs: seq<Vec3>): Vec3 {
    if |vs| == 0 then Origin else Add(Sum(vs[..|vs| - 1]), vs[|vs| - 1])
  }

  /** The unweighted average of a non-empty sequence of positions. */
  function Mean(vs: seq<Vec3>): Vec3
    requires |vs| > 0
  {
    Divide(Sum(vs), |vs|)
  }

  /** The positions `pos[idx[0]], pos[idx[1]], ...`. */
  function Gather(pos: seq<Vec3>, idx: seq<nat>): (r: seq<Vec3>)
    requires forall k :: 0 <= k < |idx| ==> idx[k] < |pos|
    ensures |r| == |idx|
    ensures forall k :: 0 <= k < |idx| ==> r[k] == pos[idx[k]]
  {
    seq(|idx|, k requires 0 <= k < |idx| => pos[idx[k]])
  }

  /** `smoothWeight` of the explicit smoothers. */
  const SmoothWeight: real := 0.75

  /** `avgPos * smoothWeight + pos * (1 - smoothWeight)`. */
  function Blend(mean: Vec3, prev: Vec3): Vec3 {
    Add(Scale(mean, SmoothWeight), Scale(prev, 1.0 - SmoothWeight))
  }

  /** Every position moved by the same offset. */
  function Translate(vs: seq<Vec3>, t: Vec3): (r: seq<Vec3>)
    ensures |r| == |vs|
    ensures forall k :: 0 <= k < |vs| ==> r[k] == Add(vs[k], t)
  {
    seq(|vs|, k requires 0 <= k < |vs| => Add(vs[k], t))
  }

  lemma DotNeg(a: Vec3, b: Vec3)
    ensures Dot(a, Neg(b)) == -Dot(a, b)
    ensures Dot(Neg(a), b) == -Dot(a, b)
  {
  }

  lemma DotOrigin(b: Vec3)
    ensures Dot(Origin, b) == 0.0
  {
  }

  lemma DotSelf(a: Vec3)
    ensures Dot(a, a) >= 0.0
  {
    SquareNonNeg(a.x);
    SquareNonNeg(a.y);
    SquareNonNeg(a.z);
  }

  /** Only the origin is orthogonal to itself. */
  lemma DotSelfPos(a: Vec3)
    requires a != Origin
    ensures Dot(a, a) > 0.0
  {
    DotSelf(a);
    if a.x != 0.0 {
      SquarePos(a.x);
    } else if a.y != 0.0 {
      SquarePos(a.y);
    } else {
      SquarePos(a.z);
    }
  }

  lemma SquarePos(x: real)
    requires x != 0.0
    ensures Mul(x, x) > 0.0
  {
    if x > 0.0 {
      ProductPos(x, x);
    } else {
      ProductNegNeg(x, x);
    }
  }

  lemma SquareNonNeg(x: real)
    ensures Mul(x, x) >= 0.0
  {
    if x != 0.0 {
      SquarePos(x);
    }
  }

  lemma ProductPos(x: real, y: real)
    requires x > 0.0 && y > 0.0
    ensures Mul(x, y) > 0.0
  {
  }

  lemma ProductNegNeg(x: real, y: real)
    requires x < 0.0 && y < 0.0
    ensures Mul(x, y) > 0.0
  {
  }

  /** Summing translated positions adds the offset once per position. */
  lemma {:induction false} SumTranslate(vs: seq<Vec3>, t: Vec3)
    ensures Sum(Translate(vs, t)) == Add(Sum(vs), Scale(t, |vs| as real))
    decreases |vs|
  {
    if |vs| > 0 {
      var n := |vs| - 1;
      var tv := Translate(vs, t);
      assert tv[..n] == Translate(vs[..n], t);
      SumTranslate(vs[..n], t);
      var a := Sum(vs[..n]);
      var m := n as real;
      assert Sum(tv) == Add(Add(a, Scale(t, m)), Add(vs[n], t));
      assert Sum(vs) == Add(a, vs[n]);
      AddScaleStep(a, vs[n], t, m);
    }
  }

  lemma AddScaleStep(a: Vec3, b: Vec3, t: Vec3, m: real)
    ensures Add(Add(a, Scale(t, m)), Add(b, t)) == Add(Add(a, b), Scale(t, m + 1.0))
  {
    assert t.x * (m + 1.0) == t.x * m + t.x;
    assert t.y * (m + 1.0) == t.y * m + t.y;
    assert t.z * (m + 1.0) == t.z * m + t.z;
  }

  /** The mean commutes with translation. */
  lemma MeanTranslate(vs: seq<Vec3>, t: Vec3)
    requires |vs| > 0
    ensures Mean(Translate(vs, t)) == Add(Mean(vs), t)
  {
    SumTranslate(vs, t);
    DivideShift(Sum(vs), t, |vs|);
  }

  lemma DivideShift(u: Vec3, t: Vec3, n: nat)
    requires n > 0
    ensures Divide(Add(u, Scale(t, n as real)), n) == Add(Divide(u, n), t)
  {
    DivShift(u.x, t.x, n as real);
    DivShift(u.y, t.y, n as real);
    DivShift(u.z, t.z, n as real);
  }

  lemma DivShift(a: real, b: real, n: real)
    requires n > 0.0
    ensures (a + b * n) / n == a / n + b
  {
    assert (a / n + b) * n == a + b * n;
  }

  /** The smoothing blend commutes with translation. */
  lemma BlendTranslate(mean: Vec3, prev: Vec3, t: Vec3)
    ensures Blend(Add(mean, t), Add(prev, t)) == Add(Blend(mean, prev), t)
  {
  }

  /** Blending a position with itself leaves it where it is. */
  lemma BlendSame(p: Vec3)
    ensures Blend(p, p) == p
  {
  }

  lemma GatherTranslate(pos: seq<Vec3>, idx: seq<nat>, t: Vec3)
    requires forall k :: 0 <= k < |idx| ==> idx[k] < |pos|
    ensures Gather(Translate(pos, t), idx) == Translate(Gather(pos, idx), t)
  {
  }
}

=== FILE: meshes.dfy ===
/** The two mesh representations the consolidation passes work on: the
    index mesh `LightMesh3D` (positions plus vertex-index triangles) and the
    half-edge mesh `Mesh3D`, kept here as an arena of vertices, half-edges
    and faces addressed by index. */
module Meshes {
  import opened Common
  import opened Geometry

  /** `FaceIndex`: the three corner indices of a triangle, in order. */
  datatype Tri = Tri(i0: nat, i1: nat, i2: nat)

  datatype LightMesh = LightMesh(positions: seq<Vec3>, faces: seq<Tri>)

  predicate TriIn(f: Tri, n: nat) {
    f.i0 < n && f.i1 < n && f.i2 < n
  }

  /** Every face corner names a vertex (`std::vector::at` would throw
      otherwise). */
  predicate ValidLight(m: LightMesh) {
    forall k :: 0 <= k < |m.faces| ==> TriIn(m.faces[k], |m.positions|)
  }

  /** `v` is one of the two corners of `f` that are inserted into the
      neighbour set of corner `u`. */
  predicate Adjacent(f: Tri, u: nat, v: nat) {
    || (u == f.i0 && (v == f.i1 || v == f.i2))
    || (u == f.i1 && (v == f.i2 || v == f.i0))
    || (u == f.i2 && (v == f.i0 || v == f.i1))
  }

  /** The six `insert`s one face makes into the neighbour sets. */
  function AddFace(sets: seq<set<nat>>, f: Tri): (r: seq<set<nat>>)
    requires TriIn(f, |sets|)
    ensures |r| == |sets|
    ensures forall u, v :: 0 <= u < |sets| ==> (v in r[u] <==> v in sets[u] || Adjacent(f, u, v))
  {
    var s0 := sets[f.i0 := sets[f.i0] + {f.i1, f.i2}];
    var s1 := s0[f.i1 := s0[f.i1] + {f.i2, f.i0}];
    s1[f.i2 := s1[f.i2] + {f.i0, f.i1}]
  }

  /** `neighList` / `neighVertList`: for every vertex, the set of vertices
      it shares a face with, built by walking the faces in order (a
      degenerate face makes a vertex its own neighbour, as the inserts do). */
  function NeighbourSets(n: nat, faces: seq<Tri>): (r: seq<set<nat>>)
    requires forall k :: 0 <= k < |faces| ==> TriIn(faces[k], n)
    ensures |r| == n
    ensures forall u, v :: 0 <= u < n ==>
              (v in r[u] <==> exists k :: 0 <= k < |faces| && Adjacent(faces[k], u, v))
  {
    if |faces| == 0 then seq(n, _ => {})
    else
      var last := |faces| - 1;
      var prev := NeighbourSets(n, faces[..last]);
      var r := AddFace(prev, faces[last]);
      assert faces == faces[..last] + [faces[last]];
      NeighbourSetsStep(n, faces, faces[..last], faces[last], prev, r);
      r
  }

  lemma NeighbourSetsStep(n: nat, faces: seq<Tri>, init: seq<Tri>, f: Tri, prev: seq<set<nat>>, r: seq<set<nat>>)
    requires faces == init + [f] && |prev| == n && |r| == n
    requires forall u, v :: 0 <= u < n ==>
               (v in prev[u] <==> exists k :: 0 <= k < |init| && Adjacent(init[k], u, v))
    requires forall u, v :: 0 <= u < n ==> (v in r[u] <==> v in prev[u] || Adjacent(f, u, v))
    ensures forall u, v :: 0 <= u < n ==>
              (v in r[u] <==> exists k :: 0 <= k < |faces| && Adjacent(faces[k], u, v))
  {
    forall u, v | 0 <= u < n
      ensures v in r[u] <==> exists k :: 0 <= k < |faces| && Adjacent(faces[k], u, v)
    {
      if v in prev[u] {
        var k :| 0 <= k < |init| && Adjacent(init[k], u, v);
        assert faces[k] == init[k];
      }
      if Adjacent(f, u, v) {
        assert faces[|init|] == f;
      }
      if exists k :: 0 <= k < |faces| && Adjacent(faces[k], u, v) {
        var k :| 0 <= k < |faces| && Adjacent(faces[k], u, v);
        if k < |init| {
          assert init[k] == faces[k];
        }
      }
    }
  }

  /** Face-derived adjacency is symmetric and stays among the vertices. */
  lemma NeighbourSetsSymmetric(n: nat, faces: seq<Tri>, u: nat, v: nat)
    requires forall k :: 0 <= k < |faces| ==> TriIn(faces[k], n)
    requires u < n && v in NeighbourSets(n, faces)[u]
    ensures v < n && u in NeighbourSets(n, faces)[v]
  {
    var k :| 0 <= k < |faces| && Adjacent(faces[k], u, v);
    assert Adjacent(faces[k], v, u);
  }

  /** How many corner slots of `f` hold `v`: the increments one face makes to
      `neighFaceNum[v]`. */
  function CornerCount(f: Tri, v: nat): nat {
    (if f.i0 == v then 1 else 0) + (if f.i1 == v then 1 else 0) + (if f.i2 == v then 1 else 0)
  }

  /** `neighFaceNum[v]`: the number of face corners at `v`. */
  function FaceCount(faces: seq<Tri>, v: nat): (c: nat)
    ensures c == 0 <==> forall k :: 0 <= k < |faces| ==> CornerCount(faces[k], v) == 0
  {
    if |faces| == 0 then 0
    else
      var last := |faces| - 1;
      var c := FaceCount(faces[..last], v) + CornerCount(faces[last], v);
      assert forall k :: 0 <= k < last ==> faces[..last][k] == faces[k];
      c
  }

  /** A vertex with no incident face has no neighbours, so the neighbour
      set and the face count agree on it (both are empty). */
  lemma IsolatedVertex(n: nat, faces: seq<Tri>, v: nat)
    requires forall k :: 0 <= k < |faces| ==> TriIn(faces[k], n)
    requires v < n && FaceCount(faces, v) == 0
    ensures NeighbourSets(n, faces)[v] == {}
  {
    forall u
      ensures u !in NeighbourSets(n, faces)[v]
    {
      forall k | 0 <= k < |faces|
        ensures !Adjacent(faces[k], v, u)
      {
        assert CornerCount(faces[k], v) == 0;
      }
    }
  }

  // ---------------------------------------------------------------------
  // Half-edge mesh

  /** `Edge3D`: the vertex it points to, its opposite half-edge, and the
      next and previous half-edges around its face (`NULL` on a border). */
  datatype HalfEdge = HalfEdge(vertex: nat, pair: nat, next: Option<nat>, pre: Option<nat>)

  /** `Vertex3D`: its position, one outgoing half-edge (if any) and the
      boundary flag `UpdateBoundaryFlag` computes. */
  datatype HEVertex = HEVertex(position: Vec3, edge: Option<nat>, boundary: bool)

  /** `Face3D`: one of its half-edges (if any). */
  datatype HEFace = HEFace(edge: Option<nat>)

  /** `Mesh3D`; a removed face is `None` (`GetFace(i) == NULL`). */
  datatype HalfEdgeMesh = HalfEdgeMesh(vertices: seq<HEVertex>, edges: seq<HalfEdge>, faces: seq<Option<HEFace>>)

  predicate EdgeRef(m: HalfEdgeMesh, e: Option<nat>) {
    e.Some? ==> e.value < |m.edges|
  }

  /** Every reference inside the arena points into it. */
  predicate WellFormed(m: HalfEdgeMesh) {
    && (forall e :: 0 <= e < |m.edges| ==>
          && m.edges[e].vertex < |m.vertices| && m.edges[e].pair < |m.edges|
          && EdgeRef(m, m.edges[e].next) && EdgeRef(m, m.edges[e].pre))
    && (forall v :: 0 <= v < |m.vertices| ==> EdgeRef(m, m.vertices[v].edge))
    && (forall f :: 0 <= f < |m.faces| && m.faces[f].Some? ==> EdgeRef(m, m.faces[f].value.edge))
  }

  /** One step of the walk around a vertex: `pEdge->GetPair()->GetNext()`. */
  function Rotate(m: HalfEdgeMesh, e: nat): (r: Option<nat>)
    requires WellFormed(m) && e < |m.edges|
    ensures EdgeRef(m, r)
  {
    m.edges[m.edges[e].pair].next
  }

  /** The `k`-th half-edge of the walk that starts at `e`, if the walk has
      not hit a `NULL` by then. */
  function Orbit(m: HalfEdgeMesh, e: nat, k: nat): (r: Option<nat>)
    requires WellFormed(m) && e < |m.edges|
    ensures EdgeRef(m, r)
  {
    if k == 0 then Some(e)
    else match Orbit(m, e, k - 1)
      case None => None
      case Some(p) => Rotate(m, p)
  }

  /** The walk of Src/DGP/Consolidation.cpp lines 424-442 and 743-750 from
      `cur` on, for a vertex whose walk began at `start`: record the vertex
      `cur` points to, then step, and stop on `NULL` or on coming back to
      `start`. At most `fuel` further steps are taken. */
  function RingFrom(m: HalfEdgeMesh, start: nat, cur: nat, fuel: nat): (r: seq<nat>)
    requires WellFormed(m) && start < |m.edges| && cur < |m.edges|
    decreases fuel
    ensures 1 <= |r| <= fuel + 1
    ensures r[0] == m.edges[cur].vertex
    ensures forall k :: 0 <= k < |r| ==> r[k] < |m.vertices|
  {
    var here := [m.edges[cur].vertex];
    match Rotate(m, cur)
    case None => here
    case Some(nx) => if nx == start || fuel == 0 then here else here + RingFrom(m, start, nx, fuel - 1)
  }

  /** The k-th vertex `RingFrom` records is the target of the k-th edge of
      the orbit of `cur`. */
  lemma {:induction false} RingFromVisits(m: HalfEdgeMesh, start: nat, cur: nat, fuel: nat)
    requires WellFormed(m) && start < |m.edges| && cur < |m.edges|
    ensures var r := RingFrom(m, start, cur, fuel);
            forall k :: 0 <= k < |r| ==>
              Orbit(m, cur, k).Some? && r[k] == m.edges[Orbit(m, cur, k).value].vertex
    decreases fuel
  {
    var r := RingFrom(m, start, cur, fuel);
    match Rotate(m, cur)
    case None =>
    case Some(nx) =>
      if nx != start && fuel != 0 {
        RingFromVisits(m, start, nx, fuel - 1);
        var tail := RingFrom(m, start, nx, fuel - 1);
        assert r == [m.edges[cur].vertex] + tail;
        forall k | 0 < k < |r|
          ensures Orbit(m, cur, k).Some? && r[k] == m.edges[Orbit(m, cur, k).value].vertex
        {
          OrbitShift(m, cur, nx, k - 1);
          assert r[k] == tail[k - 1];
        }
      }
  }

  /** After its first step the walk never stands on the edge `start` again. */
  lemma {:induction false} RingFromAvoidsStart(m: HalfEdgeMesh, start: nat, cur: nat, fuel: nat)
    requires WellFormed(m) && start < |m.edges| && cur < |m.edges|
    ensures var r := RingFrom(m, start, cur, fuel);
            forall k :: 0 < k < |r| ==> Orbit(m, cur, k) != Some(start)
    decreases fuel
  {
    var r := RingFrom(m, start, cur, fuel);
    match Rotate(m, cur)
    case None =>
    case Some(nx) =>
      if nx != start && fuel != 0 {
        RingFromAvoidsStart(m, start, nx, fuel - 1);
        var tail := RingFrom(m, start, nx, fuel - 1);
        forall k | 0 < k < |r|
          ensures Orbit(m, cur, k) != Some(start)
        {
          OrbitShift(m, cur, nx, k - 1);
          if k > 1 {
            assert 0 < k - 1 < |tail|;
          } else {
            assert Orbit(m, cur, 1) == Some(nx);
          }
        }
      }
  }

  /** The walk stops only when the orbit ends, comes back to `start`, or
      the fuel runs out. */
  lemma {:induction false} RingFromStops(m: HalfEdgeMesh, start: nat, cur: nat, fuel: nat)
    requires WellFormed(m) && start < |m.edges| && cur < |m.edges|
    ensures var r := RingFrom(m, start, cur, fuel);
            |r| == fuel + 1 || Orbit(m, cur, |r|).None? || Orbit(m, cur, |r|) == Some(start)
    decreases fuel
  {
    var r := RingFrom(m, start, cur, fuel);
    assert Orbit(m, cur, 1) == Rotate(m, cur);
    match Rotate(m, cur)
    case None =>
    case Some(nx) =>
      if nx != start && fuel != 0 {
        RingFromStops(m, start, nx, fuel - 1);
        var tail := RingFrom(m, start, nx, fuel - 1);
        OrbitShift(m, cur, nx, |tail|);
      }
  }

  /** The orbit of `cur` one step on is the orbit of its successor. */
  lemma {:induction false} OrbitShift(m: HalfEdgeMesh, cur: nat, nx: nat, k: nat)
    requires WellFormed(m) && cur < |m.edges| && Rotate(m, cur) == Some(nx)
    ensures Orbit(m, cur, k + 1) == Orbit(m, nx, k)
    decreases k
  {
    if k > 0 {
      OrbitShift(m, cur, nx, k - 1);
    }
  }

  /** The neighbours of vertex `v` in walk order; a vertex without an
      outgoing half-edge has none. The walk is cut after `|edges| + 1`
      vertices. */
  function Ring(m: HalfEdgeMesh, v: nat): (r: seq<nat>)
    requires WellFormed(m) && v < |m.vertices|
    ensures m.vertices[v].edge.None? <==> |r| == 0
    ensures forall k :: 0 <= k < |r| ==> r[k] < |m.vertices|
  {
    match m.vertices[v].edge
    case None => []
    case Some(e) => RingFrom(m, e, e, |m.edges|)
  }

  /** The vertex positions, in index order. */
  function VertexPositions(m: HalfEdgeMesh): (r: seq<Vec3>)
    ensures |r| == |m.vertices|
    ensures forall v :: 0 <= v < |r| ==> r[v] == m.vertices[v].position
  {
    seq(|m.vertices|, v requires 0 <= v < |m.vertices| => m.vertices[v].position)
  }

  /** The vertex-adjacency the half-edge flood fill walks. */
  function RingGraph(m: HalfEdgeMesh): (g: seq<seq<nat>>)
    requires WellFormed(m)
    ensures ValidGraph(g, |m.vertices|)
    ensures forall v :: 0 <= v < |m.vertices| ==> g[v] == Ring(m, v)
  {
    seq(|m.vertices|, v requires 0 <= v < |m.vertices| => Ring(m, v))
  }

  /** The corners of face `f` as read by lines 473-505: the vertices of its
      half-edge, of the next one and of the previous one; `None` when the
      face, its half-edge, or either neighbour half-edge is missing. */
  function FaceCorners(m: HalfEdgeMesh, f: nat): (r: Option<Tri>)
    requires WellFormed(m) && f < |m.faces|
    ensures r.Some? ==> TriIn(r.value, |m.vertices|)
    ensures r.Some? <==>
              && m.faces[f].Some? && m.faces[f].value.edge.Some?
              && m.edges[m.faces[f].value.edge.value].next.Some?
              && m.edges[m.faces[f].value.edge.value].pre.Some?
  {
    match m.faces[f]
    case None => None
    case Some(face) =>
      match face.edge
      case None => None
      case Some(e) =>
        match (m.edges[e].next, m.edges[e].pre)
        case (Some(nx), Some(pr)) =>
          Some(Tri(m.edges[e].vertex, m.edges[nx].vertex, m.edges[pr].vertex))
        case _ => None
  }
}

=== FILE: orientation.dfy ===
/** Normal orientation (`Consolidation::CalPointSetNormal`, its consistency
    pass) and re-orientation against stored normals
    (`Consolidation::RedressPointSetNormal`).

    The estimated normals (the covariance eigenvectors) and the k-nearest
    neighbour graph are inputs. The propagation is a greedy front expansion:
    the front is a `std::multimap` keyed by `1 - |cos|`; when it is empty a
    new front is seeded at the highest unaccepted point. */
module Orientation {
  import opened Common
  import opened Geometry
  import opened PointCloud
  import opened PriorityQueue

  /** The initial `maxZ` of the seed scan. */
  const SeedFloor: real := -10000000000.0

  function Abs(x: real): real {
    if x < 0.0 then -x else x
  }

  /** `s` is the lowest-index unaccepted point of maximal height. */
  predicate IsSeed(zs: seq<real>, accepted: seq<bool>, s: int)
    requires |accepted| == |zs|
  {
    && 0 <= s < |zs| && !accepted[s]
    && (forall j :: 0 <= j < |zs| && !accepted[j] ==> zs[j] <= zs[s])
    && (forall j :: 0 <= j < s && !accepted[j] ==> zs[j] < zs[s])
  }

  lemma SeedUnique(zs: seq<real>, accepted: seq<bool>, s: int, t: int)
    requires |accepted| == |zs|
    requires IsSeed(zs, accepted, s) && IsSeed(zs, accepted, t)
    ensures s == t
  {
  }

  /** The seed scan from index `i` on, `best`/`bestZ` being `maxZId`/`maxZ`
      so far: a point replaces the candidate only when strictly higher. */
  function ScanMaxZ(zs: seq<real>, accepted: seq<bool>, i: nat, best: int, bestZ: real): (r: int)
    requires |accepted| == |zs| && i <= |zs| && -1 <= best < i
    requires best >= 0 ==> !accepted[best] && zs[best] == bestZ
    requires forall j :: 0 <= j < i && !accepted[j] ==> zs[j] <= bestZ
    requires best >= 0 ==> forall j :: 0 <= j < best && !accepted[j] ==> zs[j] < bestZ
    decreases |zs| - i
    ensures r == -1 <==> best == -1 && forall j :: 0 <= j < |zs| && !accepted[j] ==> zs[j] <= bestZ
    ensures r != -1 ==> IsSeed(zs, accepted, r) && bestZ <= zs[r]
  {
    if i == |zs| then best
    else if !accepted[i] && zs[i] > bestZ then ScanMaxZ(zs, accepted, i + 1, i, zs[i])
    else ScanMaxZ(zs, accepted, i + 1, best, bestZ)
  }

  /** The seed scan as written: starting from `maxZ = -1e10`, it finds no
      seed (`-1`) when every unaccepted point lies at or below that floor. */
  function SeedAsWritten(zs: seq<real>, accepted: seq<bool>): (r: int)
    requires |accepted| == |zs|
    ensures r == -1 <==> forall j :: 0 <= j < |zs| && !accepted[j] ==> zs[j] <= SeedFloor
    ensures r != -1 ==> IsSeed(zs, accepted, r)
  {
    ScanMaxZ(zs, accepted, 0, -1, SeedFloor)
  }

  /** The seed scan without the floor: the scan starts from the first
      unaccepted point, so a seed is found whenever one is left. */
  function Seed(zs: seq<real>, accepted: seq<bool>): (r: Option<nat>)
    requires |accepted| == |zs|
    ensures r.None? <==> forall j :: 0 <= j < |zs| ==> accepted[j]
    ensures r.Some? ==> IsSeed(zs, accepted, r.value)
  {
    match FirstFalse(accepted, 0)
    case None => None
    case Some(f) =>
      var s := ScanMaxZ(zs, accepted, f + 1, f, zs[f]);
      Some(s)
  }

  /** One unaccepted point at height -2e10: the scan as written picks no
      seed, so the propagation stops with that point never accepted. */
  lemma DeepPointNeverSeeded()
    ensures SeedAsWritten([-20000000000.0], [false]) == -1
    ensures Seed([-20000000000.0], [false]) == Some(0)
  {
  }

  /** Whenever some unaccepted point lies above the floor, the two scans
      choose the same seed. */
  lemma SeedAgreesAboveFloor(zs: seq<real>, accepted: seq<bool>, j: nat)
    requires |accepted| == |zs|
    requires j < |zs| && !accepted[j] && zs[j] > SeedFloor
    ensures SeedAsWritten(zs, accepted) >= 0
    ensures Seed(zs, accepted) == Some(SeedAsWritten(zs, accepted) as nat)
  {
    var w := SeedAsWritten(zs, accepted);
    var c := Seed(zs, accepted);
    SeedUnique(zs, accepted, w, c.value);
  }

  /** The propagation state: `norList`, `acceptMark` and `prioritySet`, plus
      a record of the run: the point each point was accepted from (`-1` when
      none), the points in the order they entered the front, and the seeds
      in the order they were chosen. */
  datatype Front = Front(
    normals: seq<Vec3>,
    accepted: seq<bool>,
    queue: seq<Entry>,
    parent: seq<int>,
    inserted: seq<nat>,
    seeds: seq<nat>)

  function Initial(est: seq<Vec3>): (st: Front)
    ensures |st.accepted| == |est|
  {
    Front(est, seq(|est|, _ => false), [], seq(|est|, _ => -1), [], [])
  }

  /** What the propagation keeps true: normals are changed only by a sign
      and only when their point is accepted; the front holds accepted points;
      a point accepted from another agrees with it; each point entered the
      front at most once; seeds face up; every accepted point is a seed or
      entered the front. */
  predicate Inv(est: seq<Vec3>, graph: seq<seq<nat>>, st: Front) {
    && Shape(est, graph, st)
    && QueueOk(est, st)
    && NormalsOk(est, st)
    && ParentsOk(est, graph, st)
    && TraceOk(est, st)
  }

  predicate Shape(est: seq<Vec3>, graph: seq<seq<nat>>, st: Front) {
    && ValidGraph(graph, |est|)
    && |st.normals| == |est| && |st.accepted| == |est| && |st.parent| == |est|
  }

  predicate QueueOk(est: seq<Vec3>, st: Front)
    requires |st.accepted| == |est|
  {
    && Sorted(st.queue)
    && (forall k :: 0 <= k < |st.queue| ==> st.queue[k].id < |est| && st.accepted[st.queue[k].id])
  }

  predicate NormalsOk(est: seq<Vec3>, st: Front)
    requires |st.normals| == |est| && |st.accepted| == |est| && |st.parent| == |est|
  {
    && (forall i :: 0 <= i < |est| ==> st.normals[i] == est[i] || st.normals[i] == Neg(est[i]))
    && (forall i :: 0 <= i < |est| && !st.accepted[i] ==> st.normals[i] == est[i] && st.parent[i] == -1)
  }

  predicate ParentsOk(est: seq<Vec3>, graph: seq<seq<nat>>, st: Front)
    requires Shape(est, graph, st)
  {
    forall i :: 0 <= i < |est| && st.parent[i] != -1 ==>
      && 0 <= st.parent[i] < |est| && st.accepted[st.parent[i]] && st.accepted[i]
      && i in graph[st.parent[i]]
      && Dot(st.normals[st.parent[i]], st.normals[i]) >= 0.0
  }

  predicate TraceOk(est: seq<Vec3>, st: Front)
    requires |st.normals| == |est| && |st.accepted| == |est| && |st.parent| == |est|
  {
    var n := |est|;
    && Distinct(st.inserted)
    && (forall k :: 0 <= k < |st.inserted| ==> st.inserted[k] < n)
    && (forall i :: 0 <= i < n ==> (st.parent[i] != -1 <==> i in st.inserted))
    && Distinct(st.seeds)
    && (forall k :: 0 <= k < |st.seeds| ==>
          var s := st.seeds[k];
          s < n && st.accepted[s] && st.parent[s] == -1 && st.normals[s].z >= 0.0)
    && (forall i :: 0 <= i < n && st.accepted[i] ==> i in st.inserted || i in st.seeds)
    && CountFalse(st.accepted) + |st.inserted| + |st.seeds| == n
  }

  /** Accepting neighbour `m` of `active` (lines 148-154). */
  function Accept(st: Front, active: nat, m: nat): Front
    requires active < |st.normals| && m < |st.normals| && m < |st.accepted| && m < |st.parent|
    requires Sorted(st.queue)
  {
    var c := Dot(st.normals[active], st.normals[m]);
    var nm := if c < 0.0 then Neg(st.normals[m]) else st.normals[m];
    st.(normals := st.normals[m := nm],
        accepted := st.accepted[m := true],
        queue := Insert(st.queue, Entry(1.0 - Abs(c), m)),
        parent := st.parent[m := active],
        inserted := st.inserted + [m])
  }

  lemma AcceptInv(est: seq<Vec3>, graph: seq<seq<nat>>, st: Front, active: nat, m: nat)
    requires Inv(est, graph, st)
    requires active < |est| && st.accepted[active] && m < |est| && !st.accepted[m]
    requires m in graph[active]
    ensures Inv(est, graph, Accept(st, active, m))
    ensures CountFalse(Accept(st, active, m).accepted) + 1 == CountFalse(st.accepted)
    ensures |Accept(st, active, m).queue| == |st.queue| + 1
  {
    var r := Accept(st, active, m);
    CountFalseSet(st.accepted, m);
    assert Shape(est, graph, r);
    AcceptQueue(est, graph, st, active, m);
    AcceptNormals(est, graph, st, active, m);
    AcceptParents(est, graph, st, active, m);
    AcceptTrace(est, graph, st, active, m);
  }

  lemma AcceptQueue(est: seq<Vec3>, graph: seq<seq<nat>>, st: Front, active: nat, m: nat)
    requires Inv(est, graph, st)
    requires active < |est| && st.accepted[active] && m < |est| && !st.accepted[m]
    ensures Shape(est, graph, Accept(st, active, m))
    ensures QueueOk(est, Accept(st, active, m))
    ensures |Accept(st, active, m).queue| == |st.queue| + 1
  {
    var c := Dot(st.normals[active], st.normals[m]);
    InsertMembers(st.queue, Entry(1.0 - Abs(c), m));
  }

  lemma AcceptNormals(est: seq<Vec3>, graph: seq<seq<nat>>, st: Front, active: nat, m: nat)
    requires Inv(est, graph, st)
    requires active < |est| && st.accepted[active] && m < |est| && !st.accepted[m]
    ensures Shape(est, graph, Accept(st, active, m))
    ensures NormalsOk(est, Accept(st, active, m))
  {
  }

  lemma AcceptParents(est: seq<Vec3>, graph: seq<seq<nat>>, st: Front, active: nat, m: nat)
    requires Inv(est, graph, st)
    requires active < |est| && st.accepted[active] && m < |est| && !st.accepted[m]
    requires m in graph[active]
    ensures Shape(est, graph, Accept(st, active, m))
    ensures ParentsOk(est, graph, Accept(st, active, m))
  {
    var r := Accept(st, active, m);
    var c := Dot(st.normals[active], st.normals[m]);
    DotNeg(st.normals[active], st.normals[m]);
    assert Dot(r.normals[active], r.normals[m]) >= 0.0;
    forall i | 0 <= i < |est| && r.parent[i] != -1
      ensures && 0 <= r.parent[i] < |est| && r.accepted[r.parent[i]] && r.accepted[i]
              && i in graph[r.parent[i]]
              && Dot(r.normals[r.parent[i]], r.normals[i]) >= 0.0
    {
      if i != m {
        assert st.parent[i] != -1;
        assert r.parent[i] == st.parent[i] != m;
        assert r.normals[i] == st.normals[i];
        assert r.normals[r.parent[i]] == st.normals[st.parent[i]];
      }
    }
  }

  lemma AcceptTrace(est: seq<Vec3>, graph: seq<seq<nat>>, st: Front, active: nat, m: nat)
    requires Inv(est, graph, st)
    requires active < |est| && st.accepted[active] && m < |est| && !st.accepted[m]
    ensures Shape(est, graph, Accept(st, active, m))
    ensures TraceOk(est, Accept(st, active, m))
  {
    var r := Accept(st, active, m);
    CountFalseSet(st.accepted, m);
    AcceptTraceInserted(est, graph, st, active, m);
    AcceptTraceSeeds(est, graph, st, active, m);
    AcceptTraceCovers(est, graph, st, active, m);
  }

  lemma AcceptTraceInserted(est: seq<Vec3>, graph: seq<seq<nat>>, st: Front, active: nat, m: nat)
    requires Inv(est, graph, st)
    requires active < |est| && st.accepted[active] && m < |est| && !st.accepted[m]
    ensures var r := Accept(st, active, m);
            && Distinct(r.inserted)
            && (forall k :: 0 <= k < |r.inserted| ==> r.inserted[k] < |est|)
            && (forall i :: 0 <= i < |est| ==> (r.parent[i] != -1 <==> i in r.inserted))
  {
    var r := Accept(st, active, m);
    assert m !in st.inserted;
    assert Distinct(r.inserted);
    forall i | 0 <= i < |est|
      ensures r.parent[i] != -1 <==> i in r.inserted
    {
      assert i in r.inserted <==> i in st.inserted || i == m;
    }
  }

  lemma AcceptTraceSeeds(est: seq<Vec3>, graph: seq<seq<nat>>, st: Front, active: nat, m: nat)
    requires Inv(est, graph, st)
    requires active < |est| && st.accepted[active] && m < |est| && !st.accepted[m]
    ensures var r := Accept(st, active, m);
            && Distinct(r.seeds)
            && (forall k :: 0 <= k < |r.seeds| ==>
                  var s := r.seeds[k];
                  s < |est| && r.accepted[s] && r.parent[s] == -1 && r.normals[s].z >= 0.0)
  {
    var r := Accept(st, active, m);
    assert m !in st.seeds;
    forall k | 0 <= k < |r.seeds|
      ensures var s := r.seeds[k];
              s < |est| && r.accepted[s] && r.parent[s] == -1 && r.normals[s].z >= 0.0
    {
      assert r.seeds[k] != m;
    }
  }

  lemma AcceptTraceCovers(est: seq<Vec3>, graph: seq<seq<nat>>, st: Front, active: nat, m: nat)
    requires Inv(est, graph, st)
    requires active < |est| && st.accepted[active] && m < |est| && !st.accepted[m]
    ensures var r := Accept(st, active, m);
            && (forall i :: 0 <= i < |est| && r.accepted[i] ==> i in r.inserted || i in r.seeds)
            && CountFalse(r.accepted) + |r.inserted| + |r.seeds| == |est|
  {
    var r := Accept(st, active, m);
    CountFalseSet(st.accepted, m);
    forall i | 0 <= i < |est| && r.accepted[i]
      ensures i in r.inserted || i in r.seeds
    {
      if i != m {
        assert st.accepted[i];
      } else {
        assert r.inserted[|st.inserted|] == m;
      }
    }
  }

  /** Seeding at `s` (lines 121-128, 136): its normal is turned upward. */
  function SeedAt(st: Front, s: nat): Front
    requires s < |st.normals| && s < |st.accepted|
  {
    var ns := if st.normals[s].z < 0.0 then Neg(st.normals[s]) else st.normals[s];
    st.(normals := st.normals[s := ns],
        accepted := st.accepted[s := true],
        seeds := st.seeds + [s])
  }

  lemma SeedAtInv(est: seq<Vec3>, graph: seq<seq<nat>>, st: Front, s: nat)
    requires Inv(est, graph, st)
    requires s < |est| && !st.accepted[s]
    ensures Inv(est, graph, SeedAt(st, s))
    ensures CountFalse(SeedAt(st, s).accepted) + 1 == CountFalse(st.accepted)
  {
    var r := SeedAt(st, s);
    CountFalseSet(st.accepted, s);
    assert Shape(est, graph, r);
    assert QueueOk(est, r);
    assert NormalsOk(est, r);
    assert ParentsOk(est, graph, r) by {
      forall i | 0 <= i < |est| && r.parent[i] != -1
        ensures && 0 <= r.parent[i] < |est| && r.accepted[r.parent[i]] && r.accepted[i]
                && i in graph[r.parent[i]]
                && Dot(r.normals[r.parent[i]], r.normals[i]) >= 0.0
      {
        assert st.parent[i] != -1;
        assert i != s && st.parent[i] != s;
      }
    }
    assert TraceOk(est, r) by {
      assert s !in st.inserted;
      assert s !in st.seeds;
    }
  }

  lemma CountFalseAllUnset(n: nat)
    ensures CountFalse(seq(n, _ => false)) == n
  {
    if n > 0 {
      assert seq(n, _ => false)[..n - 1] == seq(n - 1, _ => false);
      CountFalseAllUnset(n - 1);
    }
  }

  lemma InitialInv(est: seq<Vec3>, graph: seq<seq<nat>>)
    requires ValidGraph(graph, |est|)
    ensures Inv(est, graph, Initial(est))
  {
    CountFalseAllUnset(|est|);
  }

  /** One neighbour `m` of `active` (lines 143-155): accepted unless it
      already was. */
  function Visit(est: seq<Vec3>, graph: seq<seq<nat>>, active: nat, st: Front, m: nat): (r: Front)
    requires Inv(est, graph, st)
    requires active < |est| && st.accepted[active] && m in graph[active]
    ensures Inv(est, graph, r)
    ensures r.seeds == st.seeds && r.accepted[m]
    ensures forall i :: 0 <= i < |est| && st.accepted[i] ==>
              r.accepted[i] && r.normals[i] == st.normals[i] && r.parent[i] == st.parent[i]
    ensures CountFalse(r.accepted) + |r.queue| == CountFalse(st.accepted) + |st.queue|
    ensures CountFalse(r.accepted) <= CountFalse(st.accepted)
    ensures st.accepted[m] ==> r == st
    ensures !st.accepted[m] ==> r == Accept(st, active, m)
    ensures !st.accepted[m] ==>
              var e := st.normals[m];
              var c := Dot(st.normals[active], e);
              && r.parent[m] == active
              && r.normals[m] == (if c < 0.0 then Neg(e) else e)
              && r.queue == Insert(st.queue, Entry(1.0 - Abs(c), m))
  {
    if st.accepted[m] then st
    else
      AcceptInv(est, graph, st, active, m);
      AcceptKeeps(est, st, active, m);
      AcceptEntry(st, active, m, st.normals[m]);
      Accept(st, active, m)
  }

  /** Accepting `m` touches only `m`'s entries and leaves the seeds alone. */
  lemma AcceptKeeps(est: seq<Vec3>, st: Front, active: nat, m: nat)
    requires |st.normals| == |est| && |st.accepted| == |est| && |st.parent| == |est|
    requires Sorted(st.queue) && active < |est| && m < |est| && !st.accepted[m]
    ensures var r := Accept(st, active, m);
            && r.seeds == st.seeds && |r.accepted| == |est| && r.accepted[m]
            && (forall i :: 0 <= i < |est| && st.accepted[i] ==>
                  r.accepted[i] && r.normals[i] == st.normals[i] && r.parent[i] == st.parent[i])
  {
    var r := Accept(st, active, m);
    assert r.accepted == st.accepted[m := true];
    assert r.parent == st.parent[m := active];
  }

  /** The accepted neighbour records `active` as its parent, takes the
      estimate flipped to agree with `active`, and enters the front with key
      `1 - |cos|` (lines 148-154). */
  lemma AcceptEntry(st: Front, active: nat, m: nat, e: Vec3)
    requires active < |st.normals| && m < |st.normals| && m < |st.accepted| && m < |st.parent|
    requires Sorted(st.queue) && st.normals[m] == e
    ensures var r := Accept(st, active, m);
            var c := Dot(st.normals[active], e);
            && r.parent[m] == active
            && r.normals[m] == (if c < 0.0 then Neg(e) else e)
            && r.queue == Insert(st.queue, Entry(1.0 - Abs(c), m))
  {
  }

  /** The neighbour loop of lines 139-156 from neighbour `k` of `active` on:
      each neighbour not yet accepted is flipped to agree with `active`,
      entered into the front with key `1 - |cos|`, and accepted. */
  function Expand(est: seq<Vec3>, graph: seq<seq<nat>>, active: nat, st: Front, k: nat): (r: Front)
    requires Inv(est, graph, st)
    requires active < |est| && st.accepted[active] && k <= |graph[active]|
    decreases |graph[active]| - k
    ensures Inv(est, graph, r)
    ensures r.seeds == st.seeds
    ensures forall i :: 0 <= i < |est| && st.accepted[i] ==>
              r.accepted[i] && r.normals[i] == st.normals[i] && r.parent[i] == st.parent[i]
    ensures forall j :: k <= j < |graph[active]| ==> r.accepted[graph[active][j]]
    ensures CountFalse(r.accepted) + |r.queue| == CountFalse(st.accepted) + |st.queue|
    ensures CountFalse(r.accepted) <= CountFalse(st.accepted)
  {
    if k == |graph[active]| then st
    else
      var m := graph[active][k];
      assert m in graph[active];
      var next := Visit(est, graph, active, st, m);
      var r := Expand(est, graph, active, next, k + 1);
      assert forall j :: k <= j < |graph[active]| ==> r.accepted[graph[active][j]] by {
        forall j | k <= j < |graph[active]|
          ensures r.accepted[graph[active][j]]
        {
          if j == k {
            assert m < |est| && next.accepted[m];
          }
        }
      }
      r
  }

  /** One turn of the loop of lines 95-157 with the corrected seed scan:
      pop the front's first entry, or, only when the front is empty, seed at
      the highest unaccepted point and turn its normal upward; then expand
      the active point. `None` is the `break`. */
  function Step(zs: seq<real>, est: seq<Vec3>, graph: seq<seq<nat>>, st: Front): (r: Option<Front>)
    requires |zs| == |est| && Inv(est, graph, st)
    ensures r.None? <==> |st.queue| == 0 && forall i :: 0 <= i < |est| ==> st.accepted[i]
    ensures r.Some? ==> Inv(est, graph, r.value)
    ensures r.Some? ==> 2 * CountFalse(r.value.accepted) + |r.value.queue| < 2 * CountFalse(st.accepted) + |st.queue|
    ensures r.Some? && |st.queue| > 0 ==> r.value.seeds == st.seeds
    ensures r.Some? && |st.queue| > 0 ==>
              Inv(est, graph, st.(queue := st.queue[1..])) &&
              r.value == Expand(est, graph, st.queue[0].id, st.(queue := st.queue[1..]), 0)
    ensures r.Some? && |st.queue| == 0 ==>
              && |r.value.seeds| == |st.seeds| + 1
              && IsSeed(zs, st.accepted, r.value.seeds[|st.seeds|])
  {
    if |st.queue| > 0 then
      var active := st.queue[0].id;
      Some(Expand(est, graph, active, st.(queue := st.queue[1..]), 0))
    else
      match Seed(zs, st.accepted)
      case None => None
      case Some(s) =>
        SeedAtInv(est, graph, st, s);
        Some(Expand(est, graph, s, SeedAt(st, s), 0))
  }

  /** The same turn with the seed scan as written: it also breaks while
      points remain unaccepted, once all of them lie at or below the floor.
      Whenever it goes on it does what the corrected turn does. */
  function StepAsWritten(zs: seq<real>, est: seq<Vec3>, graph: seq<seq<nat>>, st: Front): (r: Option<Front>)
    requires |zs| == |est| && Inv(est, graph, st)
    ensures r.None? <==> |st.queue| == 0 && forall i :: 0 <= i < |est| && !st.accepted[i] ==> zs[i] <= SeedFloor
    ensures r.Some? ==> r == Step(zs, est, graph, st)
  {
    if |st.queue| > 0 then Step(zs, est, graph, st)
    else
      var s := SeedAsWritten(zs, st.accepted);
      if s == -1 then None
      else
        assert zs[s] > SeedFloor;
        SeedAgreesAboveFloor(zs, st.accepted, s);
        Step(zs, est, graph, st)
  }

  /** The consistency pass as written: it ends with every point accepted
      except those the floor hides, which keep their unoriented estimate
      and were never reached. */
  method PropagateAsWritten(zs: seq<real>, est: seq<Vec3>, graph: seq<seq<nat>>) returns (r: Front)
    requires |zs| == |est| && ValidGraph(graph, |est|)
    ensures |r.normals| == |est| && |r.accepted| == |est| && |r.parent| == |est|
    ensures forall i :: 0 <= i < |est| && !r.accepted[i] ==>
              zs[i] <= SeedFloor && r.normals[i] == est[i] && r.parent[i] == -1
    ensures forall i :: 0 <= i < |est| ==> r.normals[i] == est[i] || r.normals[i] == Neg(est[i])
    ensures forall i :: 0 <= i < |est| && r.accepted[i] ==> i in r.inserted || i in r.seeds
    ensures forall i :: 0 <= i < |est| && r.parent[i] != -1 ==>
              && 0 <= r.parent[i] < |est| && i in graph[r.parent[i]]
              && Dot(r.normals[r.parent[i]], r.normals[i]) >= 0.0
    ensures forall k :: 0 <= k < |r.seeds| ==> r.seeds[k] < |est| && r.normals[r.seeds[k]].z >= 0.0
  {
    InitialInv(est, graph);
    r := Initial(est);
    while true
      invariant Inv(est, graph, r)
      decreases 2 * CountFalse(r.accepted) + |r.queue|
    {
      var next := StepAsWritten(zs, est, graph, r);
      if next.None? {
        break;
      }
      r := next.value;
    }
  }

  /** The consistency pass of `CalPointSetNormal` with the corrected seed
      scan: every point ends accepted, each exactly once as a seed or as a
      front entry, with its estimated normal or its negation; a point
      accepted from another agrees with it; seeds face up. */
  method Propagate(zs: seq<real>, est: seq<Vec3>, graph: seq<seq<nat>>) returns (r: Front)
    requires |zs| == |est| && ValidGraph(graph, |est|)
    ensures |r.normals| == |est| && |r.accepted| == |est| && |r.parent| == |est|
    ensures forall i :: 0 <= i < |est| ==> r.accepted[i]
    ensures forall i :: 0 <= i < |est| ==> r.normals[i] == est[i] || r.normals[i] == Neg(est[i])
    ensures Distinct(r.inserted) && Distinct(r.seeds)
    ensures |r.inserted| + |r.seeds| == |est|
    ensures forall i :: 0 <= i < |est| ==> i in r.inserted || i in r.seeds
    ensures forall i :: 0 <= i < |est| ==> (i in r.inserted <==> r.parent[i] != -1)
    ensures forall i :: 0 <= i < |est| && r.parent[i] != -1 ==>
              && 0 <= r.parent[i] < |est| && i in graph[r.parent[i]]
              && Dot(r.normals[r.parent[i]], r.normals[i]) >= 0.0
    ensures forall k :: 0 <= k < |r.seeds| ==> r.seeds[k] < |est| && r.normals[r.seeds[k]].z >= 0.0
  {
    InitialInv(est, graph);
    r := Initial(est);
    while true
      invariant Inv(est, graph, r)
      decreases 2 * CountFalse(r.accepted) + |r.queue|
    {
      var next := Step(zs, est, graph, r);
      if next.None? {
        break;
      }
      r := next.value;
    }
    CountFalseZeroWhenAllSet(r.accepted);
  }

  lemma {:induction false} CountFalseZeroWhenAllSet(flags: seq<bool>)
    requires forall i :: 0 <= i < |flags| ==> flags[i]
    ensures CountFalse(flags) == 0
    decreases |flags|
  {
    if |flags| > 0 {
      CountFalseZeroWhenAllSet(flags[..|flags| - 1]);
    }
  }

  /** `CalPointSetNormal` after the estimation, over the corrected
      propagation: the propagated normals are written back and the set is
      marked as having normals. */
  method CalPointSetNormal(ps: PointSet, est: seq<Vec3>, graph: seq<seq<nat>>) returns (r: PointSet)
    requires |est| == |ps.points| && ValidGraph(graph, |est|)
    ensures r.hasNormal && |r.points| == |ps.points|
    ensures forall i :: 0 <= i < |ps.points| ==>
              && r.points[i].position == ps.points[i].position
              && r.points[i].valid == ps.points[i].valid
              && (r.points[i].normal == est[i] || r.points[i].normal == Neg(est[i]))
  {
    var front := Propagate(Heights(ps.points), est, graph);
    var pts := seq(|ps.points|, i requires 0 <= i < |ps.points| => ps.points[i].(normal := front.normals[i]));
    r := PointSet(pts, true);
  }

  /** The sign choice of lines 244-247: keep the estimate unless it points
      against the stored normal. */
  function Agree(e: Vec3, stored: Vec3): (r: Vec3)
    ensures r == e || r == Neg(e)
    ensures Dot(r, stored) >= 0.0
    ensures Dot(e, stored) >= 0.0 ==> r == e
  {
    DotNeg(e, stored);
    if Dot(e, stored) < 0.0 then Neg(e) else e
  }

  /** `RedressPointSetNormal`: without stored normals it fails and changes
      nothing; otherwise every point gets its estimate, signed to agree with
      the normal it had. */
  function Redress(ps: PointSet, est: seq<Vec3>): (r: (bool, PointSet))
    requires |est| == |ps.points|
    ensures !ps.hasNormal ==> r == (false, ps)
    ensures ps.hasNormal ==> r.0 && r.1.hasNormal && |r.1.points| == |ps.points|
    ensures ps.hasNormal ==> forall i :: 0 <= i < |ps.points| ==>
              && r.1.points[i].position == ps.points[i].position
              && r.1.points[i].valid == ps.points[i].valid
              && (r.1.points[i].normal == est[i] || r.1.points[i].normal == Neg(est[i]))
              && Dot(r.1.points[i].normal, ps.points[i].normal) >= 0.0
              && (Dot(est[i], ps.points[i].normal) >= 0.0 ==> r.1.points[i].normal == est[i])
  {
    if !ps.hasNormal then (false, ps)
    else
      var pts := seq(|ps.points|, i requires 0 <= i < |ps.points| =>
                   ps.points[i].(normal := Agree(est[i], ps.points[i].normal)));
      (true, PointSet(pts, true))
  }

  /** Signing an estimate against its own signed copy keeps that copy. */
  lemma AgreeTwice(e: Vec3, stored: Vec3)
    ensures Agree(e, Agree(e, stored)) == Agree(e, stored)
  {
    if Dot(e, stored) < 0.0 {
      DotOrigin(stored);
      assert e != Origin;
      DotSelfPos(e);
      DotNeg(e, e);
      assert Dot(e, Neg(e)) < 0.0;
    } else {
      DotSelf(e);
    }
  }

  /** Redressing again against the same estimates changes nothing. */
  lemma RedressIdempotent(ps: PointSet, est: seq<Vec3>)
    requires |est| == |ps.points|
    ensures Redress(Redress(ps, est).1, est) == Redress(ps, est)
  {
    if ps.hasNormal {
      var once := Redress(ps, est).1;
      var twice := Redress(once, est).1;
      forall i | 0 <= i < |ps.points|
        ensures twice.points[i] == once.points[i]
      {
        AgreeTwice(est[i], ps.points[i].normal);
      }
      assert twice.points == once.points;
    }
  }
}

=== FILE: outlier.dfy ===
/** `Consolidation::RemovePointSetOutlier` (lines 632-716): every point has
    a spread score; the scores go into a `std::map<float, int>` from score to
    point index, the entries with the largest keys are walked from the top
    and their points marked invalid until `int(pointNum * proportion)`
    entries have been taken, and the points still valid are copied into a
    new set. The scores themselves are an input (see README). */
module Outlier {
  import opened Common
  import opened Geometry
  import opened PointCloud
  import opened PriorityQueue

  /** A `std::map` in iteration order, one entry (a score and the index
      stored under it) per key: keys strictly increase. */
  predicate StrictlySorted(q: seq<Entry>) {
    forall i, j :: 0 <= i < j < |q| ==> q[i].key < q[j].key
  }

  /** `densityMap[key] = id`: the entry for `key` is created, or its index
      overwritten; every other entry stays. */
  function Put(q: seq<Entry>, key: real, id: nat): (r: seq<Entry>)
    requires StrictlySorted(q)
    ensures StrictlySorted(r)
    ensures forall e :: e in r <==> e == Entry(key, id) || (e in q && e.key != key)
  {
    if |q| == 0 then [Entry(key, id)]
    else if key < q[0].key then [Entry(key, id)] + q
    else if key == q[0].key then
      assert forall e :: e in q[1..] ==> e.key != key by {
        forall e | e in q[1..] ensures e.key != key {
          var i :| 0 <= i < |q[1..]| && q[1..][i] == e;
          assert q[i + 1] == e;
        }
      }
      assert q == [q[0]] + q[1..];
      [Entry(key, id)] + q[1..]
    else
      var rest := Put(q[1..], key, id);
      assert q == [q[0]] + q[1..];
      assert forall e :: e in rest ==> q[0].key < e.key by {
        forall e | e in rest ensures q[0].key < e.key {
          if e != Entry(key, id) {
            var i :| 0 <= i < |q[1..]| && q[1..][i] == e;
            assert q[i + 1] == e;
          }
        }
      }
      PrependSorted(q[0], rest);
      [q[0]] + rest
  }

  lemma PrependSorted(e: Entry, q: seq<Entry>)
    requires StrictlySorted(q)
    requires forall x :: x in q ==> e.key < x.key
    ensures StrictlySorted([e] + q)
  {
    forall i, j | 0 <= i < j < |[e] + q|
      ensures ([e] + q)[i].key < ([e] + q)[j].key
    {
      assert ([e] + q)[j] == q[j - 1];
      assert q[j - 1] in q;
      if i > 0 {
        assert ([e] + q)[i] == q[i - 1];
      }
    }
  }

  /** `i` is the last of the first `count` points with its score. */
  predicate LastWithScore(scores: seq<real>, count: nat, i: nat)
    requires count <= |scores|
  {
    i < count && forall j :: i < j < count ==> scores[j] != scores[i]
  }

  /** Lines 666-679: the map after the first `count` points. It holds, for
      every score, the last point that has it. */
  function DensityMap(scores: seq<real>, count: nat): (r: seq<Entry>)
    requires count <= |scores|
    ensures StrictlySorted(r)
    ensures forall e :: e in r <==> LastWithScore(scores, count, e.id) && e.key == scores[e.id]
  {
    if count == 0 then []
    else
      var prev := DensityMap(scores, count - 1);
      var r := Put(prev, scores[count - 1], count - 1);
      DensityMapStep(scores, count, prev, r);
      r
  }

  /** One turn of the loop of lines 666-679: putting point `count - 1` into
      the map of the first `count - 1` points gives the map of the first
      `count`. */
  lemma DensityMapStep(scores: seq<real>, count: nat, prev: seq<Entry>, r: seq<Entry>)
    requires 0 < count <= |scores|
    requires forall e :: e in prev <==> LastWithScore(scores, count - 1, e.id) && e.key == scores[e.id]
    requires forall e :: e in r <==> e == Entry(scores[count - 1], count - 1) || (e in prev && e.key != scores[count - 1])
    ensures forall e :: e in r <==> LastWithScore(scores, count, e.id) && e.key == scores[e.id]
  {
    forall e
      ensures e in r <==> LastWithScore(scores, count, e.id) && e.key == scores[e.id]
    {
      if e.id < count - 1 && LastWithScore(scores, count - 1, e.id) && e.key == scores[e.id] {
        assert e in prev;
      }
    }
  }

  /** Every score of the first `count` points is a key of the map. */
  lemma {:induction false} DensityMapKeys(scores: seq<real>, count: nat, i: nat)
    requires count <= |scores| && i < count
    ensures exists e :: e in DensityMap(scores, count) && e.key == scores[i]
    decreases count - i
  {
    if LastWithScore(scores, count, i) {
      assert Entry(scores[i], i) in DensityMap(scores, count);
    } else {
      var j :| i < j < count && scores[j] == scores[i];
      DensityMapKeys(scores, count, j);
    }
  }

  /** Two map entries never store the same point. */
  lemma DensityMapIdsDistinct(scores: seq<real>, count: nat)
    requires count <= |scores|
    ensures forall a, b :: 0 <= a < b < |DensityMap(scores, count)| ==>
              DensityMap(scores, count)[a].id != DensityMap(scores, count)[b].id
  {
    var q := DensityMap(scores, count);
    forall a, b | 0 <= a < b < |q|
      ensures q[a].id != q[b].id
    {
      assert q[a] in q && q[b] in q;
    }
  }

  /** `int invalidNum = pointNum * proportion`. */
  function InvalidNum(n: nat, proportion: real): int {
    TruncToInt(n as real * proportion)
  }

  /** How many entries the reverse walk of lines 693-701 takes: it stops
      when its counter reaches `invalidNum` or the map is exhausted, so a
      negative `invalidNum` takes every entry. */
  function Taken(invalidNum: int, size: nat): (t: nat)
    ensures t <= size
    ensures 0 <= invalidNum ==> t <= invalidNum
    ensures t < size ==> t == invalidNum
  {
    if 0 <= invalidNum <= size then invalidNum else size
  }

  /** The indices the reverse walk over `q` visits in its first `t` steps,
      in visiting order. */
  function TopIds(q: seq<Entry>, t: nat): (r: seq<nat>)
    requires t <= |q|
    ensures |r| == t
    ensures forall k :: 0 <= k < t ==> r[k] == q[|q| - 1 - k].id
  {
    seq(t, k requires 0 <= k < t => q[|q| - 1 - k].id)
  }

  /** The copy `new Point3D(position, normal)`: a fresh valid point. */
  function Fresh(p: Point): Point {
    Point(p.position, p.normal, true)
  }

  /** The indices of the valid points, ascending. */
  function ValidIndices(points: seq<Point>): (r: seq<nat>)
    ensures forall k :: 0 <= k < |r| ==> r[k] < |points| && points[r[k]].valid
    ensures forall i :: 0 <= i < |points| && points[i].valid ==> i in r
    ensures forall a, b :: 0 <= a < b < |r| ==> r[a] < r[b]
  {
    if |points| == 0 then []
    else
      var last := |points| - 1;
      var prev := ValidIndices(points[..last]);
      assert forall k :: 0 <= k < |prev| ==> points[prev[k]] == points[..last][prev[k]];
      prev + (if points[last].valid then [last] else [])
  }

  /** Lines 703-713: a fresh copy of every valid point, in index order. */
  function CopyValid(points: seq<Point>): (r: seq<Point>)
    ensures |r| == |ValidIndices(points)|
    ensures forall k :: 0 <= k < |r| ==> r[k] == Fresh(points[ValidIndices(points)[k]])
  {
    if |points| == 0 then []
    else
      var last := |points| - 1;
      var prev := CopyValid(points[..last]);
      assert forall k :: 0 <= k < |prev| ==> ValidIndices(points)[k] == ValidIndices(points[..last])[k];
      assert forall k :: 0 <= k < |prev| ==>
        points[..last][ValidIndices(points[..last])[k]] == points[ValidIndices(points[..last])[k]];
      prev + (if points[last].valid then [Fresh(points[last])] else [])
  }

  /** Lines 691-701: walk the entries from the largest key down, clearing
      the validity flag of each entry's point, until `invalidNum` entries
      have been taken or the entries run out. */
  method Invalidate(points: seq<Point>, q: seq<Entry>, invalidNum: int) returns (flagged: seq<Point>)
    requires forall k :: 0 <= k < |q| ==> q[k].id < |points|
    ensures |flagged| == |points|
    ensures forall i :: 0 <= i < |points| ==>
              flagged[i] == points[i].(valid := points[i].valid && i !in TopIds(q, Taken(invalidNum, |q|)))
  {
    flagged := points;
    var invalidIndex := 0;
    while invalidIndex < |q|
      invariant 0 <= invalidIndex <= |q|
      invariant 0 <= invalidNum ==> invalidIndex <= invalidNum
      invariant |flagged| == |points|
      invariant forall i :: 0 <= i < |points| ==>
                  flagged[i] == points[i].(valid := points[i].valid && i !in TopIds(q, invalidIndex))
    {
      if invalidIndex == invalidNum {
        break;
      }
      var id := q[|q| - 1 - invalidIndex].id;
      flagged := flagged[id := flagged[id].(valid := false)];
      assert TopIds(q, invalidIndex + 1) == TopIds(q, invalidIndex) + [id];
      invalidIndex := invalidIndex + 1;
    }
    assert invalidIndex == Taken(invalidNum, |q|);
  }

  /** The whole filter as written. `flagged` is the input set after the
      walk has cleared the validity flag of the points it took; `kept` is
      the new set. */
  method RemoveOutlier(points: seq<Point>, scores: seq<real>, proportion: real)
    returns (flagged: seq<Point>, kept: seq<Point>)
    requires |scores| == |points|
    ensures |flagged| == |points|
    ensures var q := DensityMap(scores, |scores|);
            var t := Taken(InvalidNum(|points|, proportion), |q|);
            forall i :: 0 <= i < |points| ==>
              flagged[i] == points[i].(valid := points[i].valid && i !in TopIds(q, t))
    ensures kept == CopyValid(flagged)
  {
    var q := DensityMap(scores, |scores|);
    assert forall k :: 0 <= k < |q| ==> q[k] in q;
    flagged := Invalidate(points, q, InvalidNum(|points|, proportion));
    kept := CopyValid(flagged);
  }

  // ---------------------------------------------------------------------
  // What the walk takes

  /** The walk never takes a point twice. */
  lemma TopIdsDistinct(scores: seq<real>, t: nat)
    requires t <= |DensityMap(scores, |scores|)|
    ensures Distinct(TopIds(DensityMap(scores, |scores|), t))
  {
    DensityMapIdsDistinct(scores, |scores|);
  }

  /** Every point the walk takes scores higher than every point left in
      the map. */
  lemma TakenScoreHighest(scores: seq<real>, t: nat, i: nat, e: Entry)
    requires t <= |DensityMap(scores, |scores|)|
    requires i in TopIds(DensityMap(scores, |scores|), t)
    requires e in DensityMap(scores, |scores|) && e.id !in TopIds(DensityMap(scores, |scores|), t)
    ensures i < |scores| && e.key < scores[i]
  {
    var q := DensityMap(scores, |scores|);
    var k :| 0 <= k < t && TopIds(q, t)[k] == i;
    var b :| 0 <= b < |q| && q[b] == e;
    assert q[|q| - 1 - k] in q;
    NotTakenBelow(q, t, b);
  }

  /** A point whose score a later point repeats lost its map entry at the
      later insertion, so the walk never takes it. */
  lemma RepeatedScoreNeverTaken(scores: seq<real>, t: nat, i: nat, j: nat)
    requires t <= |DensityMap(scores, |scores|)|
    requires i < j < |scores| && scores[i] == scores[j]
    ensures i !in TopIds(DensityMap(scores, |scores|), t)
  {
    var q := DensityMap(scores, |scores|);
    forall k | 0 <= k < t
      ensures TopIds(q, t)[k] != i
    {
      var e := q[|q| - 1 - k];
      assert e in q;
      assert LastWithScore(scores, |scores|, e.id);
    }
  }

  /** A point whose score is strictly above every other is the first one the
      walk takes, so any positive `invalidNum` removes it (the five-point
      scenario with one point lifted off the plane). */
  lemma UniqueTopScoreTaken(scores: seq<real>, t: nat, i: nat)
    requires t <= |DensityMap(scores, |scores|)| && t > 0
    requires i < |scores| && forall j :: 0 <= j < |scores| && j != i ==> scores[j] < scores[i]
    ensures TopIds(DensityMap(scores, |scores|), t)[0] == i
  {
    var q := DensityMap(scores, |scores|);
    assert LastWithScore(scores, |scores|, i);
    assert Entry(scores[i], i) in q;
    var last := q[|q| - 1];
    assert last in q;
    var b :| 0 <= b < |q| && q[b] == Entry(scores[i], i);
    assert q[b].key <= last.key;
  }

  /** Two points with the same score, `proportion` 1: `invalidNum` is 2,
      but the map holds one entry, so point 0 is kept. */
  lemma EqualScoresSparePoint()
    ensures var q := DensityMap([1.0, 1.0], 2);
            |q| == 1 && InvalidNum(2, 1.0) == 2 && Taken(InvalidNum(2, 1.0), |q|) == 1
            && 0 !in TopIds(q, Taken(InvalidNum(2, 1.0), |q|))
  {
    var scores := [1.0, 1.0];
    assert DensityMap(scores, 1) == [Entry(1.0, 0)];
    assert DensityMap(scores, 2) == [Entry(1.0, 1)];
    RepeatedScoreNeverTaken(scores, 1, 0, 1);
  }

  // ---------------------------------------------------------------------
  // The ranking with every point kept in the container

  /** A `std::multimap<float, int>` of the first `count` scores: one entry
      per point, keys in order. */
  function AllScores(scores: seq<real>, count: nat): (r: seq<Entry>)
    requires count <= |scores|
    ensures Sorted(r) && |r| == count
    ensures forall e :: e in r <==> e.id < count && e.key == scores[e.id]
    ensures forall a, b :: 0 <= a < b < |r| ==> r[a].id != r[b].id
  {
    if count == 0 then []
    else
      var prev := AllScores(scores, count - 1);
      var e := Entry(scores[count - 1], count - 1);
      AllScoresStep(scores, count, prev, e);
      Insert(prev, e)
  }

  lemma AllScoresStep(scores: seq<real>, count: nat, prev: seq<Entry>, e: Entry)
    requires 0 < count <= |scores| && e == Entry(scores[count - 1], count - 1)
    requires Sorted(prev) && |prev| == count - 1
    requires forall x :: x in prev <==> x.id < count - 1 && x.key == scores[x.id]
    requires forall a, b :: 0 <= a < b < |prev| ==> prev[a].id != prev[b].id
    ensures forall x :: x in Insert(prev, e) <==> x.id < count && x.key == scores[x.id]
    ensures forall a, b :: 0 <= a < b < |Insert(prev, e)| ==> Insert(prev, e)[a].id != Insert(prev, e)[b].id
  {
    InsertMembers(prev, e);
    InsertKeepsIdsDistinct(prev, e);
  }

  lemma InsertKeepsIdsDistinct(q: seq<Entry>, e: Entry)
    requires Sorted(q)
    requires forall a, b :: 0 <= a < b < |q| ==> q[a].id != q[b].id
    requires forall x :: x in q ==> x.id != e.id
    ensures forall a, b :: 0 <= a < b < |Insert(q, e)| ==> Insert(q, e)[a].id != Insert(q, e)[b].id
  {
    var r := Insert(q, e);
    var j := UpperBound(q, e.key);
    forall a, b | 0 <= a < b < |r|
      ensures r[a].id != r[b].id
    {
      if b < j {
        assert r[a] == q[a] && r[b] == q[b];
      } else if b == j {
        assert r[a] == q[a] && q[a] in q;
      } else if a < j {
        assert r[a] == q[a] && r[b] == q[b - 1];
      } else if a == j {
        assert r[b] == q[b - 1] && q[b - 1] in q;
      } else {
        assert r[a] == q[a - 1] && r[b] == q[b - 1];
      }
    }
  }

  /** The filter with the ranking kept whole: the walk runs over every
      point's entry. */
  method RemoveOutlierRanked(points: seq<Point>, scores: seq<real>, proportion: real)
    returns (flagged: seq<Point>, kept: seq<Point>)
    requires |scores| == |points|
    ensures |flagged| == |points|
    ensures var q := AllScores(scores, |scores|);
            var t := Taken(InvalidNum(|points|, proportion), |q|);
            forall i :: 0 <= i < |points| ==>
              flagged[i] == points[i].(valid := points[i].valid && i !in TopIds(q, t))
    ensures kept == CopyValid(flagged)
  {
    var q := AllScores(scores, |scores|);
    assert forall k :: 0 <= k < |q| ==> q[k] in q;
    flagged := Invalidate(points, q, InvalidNum(|points|, proportion));
    kept := CopyValid(flagged);
  }

  /** With every point in the ranking, the walk takes exactly
      `min(invalidNum, pointNum)` distinct points for a non-negative
      `invalidNum`. */
  lemma RankedTakesExactly(scores: seq<real>, invalidNum: int)
    requires 0 <= invalidNum
    ensures var top := TopIds(AllScores(scores, |scores|), Taken(invalidNum, |scores|));
            && |top| == (if invalidNum <= |scores| then invalidNum else |scores|)
            && Distinct(top)
  {
    var q := AllScores(scores, |scores|);
    assert Distinct(TopIds(q, Taken(invalidNum, |scores|)));
  }

  /** With every point in the ranking, each point the walk takes scores at
      least as high as every point it leaves. */
  lemma RankedTakesHighest(scores: seq<real>, invalidNum: int, i: nat, j: nat)
    requires 0 <= invalidNum
    ensures var top := TopIds(AllScores(scores, |scores|), Taken(invalidNum, |scores|));
            i in top && j < |scores| && j !in top ==> i < |scores| && scores[j] <= scores[i]
  {
    var q := AllScores(scores, |scores|);
    TakenOutrank(scores, q, Taken(invalidNum, |scores|), i, j);
  }

  /** The same for any sorted ranking holding exactly one entry per point. */
  lemma TakenOutrank(scores: seq<real>, q: seq<Entry>, t: nat, i: nat, j: nat)
    requires Sorted(q) && t <= |q|
    requires forall e :: e in q <==> e.id < |scores| && e.key == scores[e.id]
    ensures i in TopIds(q, t) && j < |scores| && j !in TopIds(q, t) ==>
              i < |scores| && scores[j] <= scores[i]
  {
    var top := TopIds(q, t);
    if i in top && j < |scores| && j !in top {
      var k :| 0 <= k < t && top[k] == i;
      var b := EntryOf(scores, q, j);
      TopOutranks(q, t, k, b);
      assert q[|q| - 1 - k] in q;
    }
  }

  /** Where point `j`'s entry sits in the ranking. */
  lemma EntryOf(scores: seq<real>, q: seq<Entry>, j: nat) returns (b: nat)
    requires j < |scores|
    requires forall e :: e in q <==> e.id < |scores| && e.key == scores[e.id]
    ensures b < |q| && q[b] == Entry(scores[j], j)
  {
    assert Entry(scores[j], j) in q;
    b :| 0 <= b < |q| && q[b] == Entry(scores[j], j);
  }

  /** In a sorted ranking, an entry the walk did not take has a key no
      larger than any the walk took. */
  lemma TopOutranks(q: seq<Entry>, t: nat, k: nat, b: nat)
    requires Sorted(q) && k < t <= |q| && b < |q| && q[b].id !in TopIds(q, t)
    ensures q[b].key <= q[|q| - 1 - k].key
  {
    NotTakenBelow(q, t, b);
  }

  /** An entry whose point the walk did not take lies below the walked
      part. */
  lemma NotTakenBelow(q: seq<Entry>, t: nat, b: nat)
    requires t <= |q| && b < |q| && q[b].id !in TopIds(q, t)
    ensures b < |q| - t
  {
    assert forall c :: |q| - t <= c < |q| ==> q[c].id in TopIds(q, t) by {
      forall c | |q| - t <= c < |q|
        ensures q[c].id in TopIds(q, t)
      {
        assert TopIds(q, t)[|q| - 1 - c] == q[c].id;
      }
    }
  }
}

=== FILE: patches.dfy ===
/** `Consolidation::RemoveSmallMeshPatch`, for the half-edge mesh (lines
    385-518) and for the index mesh (lines 520-630): split the vertices into
    flood-fill groups, keep the groups with more than
    `int(vertNum * proportion)` vertices, number the kept vertices in group
    order, and keep the faces whose three corners are kept. */
module Patches {
  import opened Common
  import opened Geometry
  import opened Meshes
  import opened Components

  /** Groups smaller than this threshold make the pass give up
      (`smallNum < 10` returns `NULL`). */
  const MinSmall: int := 10

  /** `int smallNum = vertNum * proportion`. */
  function SmallNum(n: nat, proportion: real): int {
    TruncToInt(n as real * proportion)
  }

  /** `v` is in a group with more than `small` vertices. */
  predicate InLargeGroup(groups: seq<seq<nat>>, small: int, v: nat) {
    exists g :: 0 <= g < |groups| && |groups[g]| > small && v in groups[g]
  }

  /** The vertices inserted into the new mesh, in insertion order: the
      members of every group larger than `small`, group by group. */
  function Survivors(groups: seq<seq<nat>>, small: int): (r: seq<nat>)
    ensures forall v :: v in r <==> InLargeGroup(groups, small, v)
  {
    if |groups| == 0 then []
    else
      var init := groups[..|groups| - 1];
      var last := groups[|groups| - 1];
      var r := Survivors(init, small) + (if |last| > small then last else []);
      assert groups == init + [last];
      SurvivorsStep(groups, init, last, small, Survivors(init, small), r);
      r
  }

  lemma SurvivorsStep(groups: seq<seq<nat>>, init: seq<seq<nat>>, last: seq<nat>, small: int,
                      prev: seq<nat>, r: seq<nat>)
    requires groups == init + [last]
    requires forall v :: v in prev <==> InLargeGroup(init, small, v)
    requires r == prev + (if |last| > small then last else [])
    ensures forall v :: v in r <==> InLargeGroup(groups, small, v)
  {
    forall v
      ensures v in r <==> InLargeGroup(groups, small, v)
    {
      if InLargeGroup(groups, small, v) {
        var g :| 0 <= g < |groups| && |groups[g]| > small && v in groups[g];
        if g < |init| {
          assert groups[g] == init[g];
          assert InLargeGroup(init, small, v);
        } else {
          assert groups[g] == last;
        }
      }
      if v in prev {
        var g :| 0 <= g < |init| && |init[g]| > small && v in init[g];
        assert groups[g] == init[g];
      }
      if v in r && v !in prev {
        assert groups[|init|] == last;
      }
    }
  }

  /** Taken from a partition, the survivors list no vertex twice, and every
      one is a vertex below `n`. */
  lemma {:induction false} SurvivorsDistinct(n: nat, groups: seq<seq<nat>>, small: int)
    requires Disjoint(n, groups)
    ensures Distinct(Survivors(groups, small))
    ensures forall k :: 0 <= k < |Survivors(groups, small)| ==> Survivors(groups, small)[k] < n
    decreases |groups|
  {
    if |groups| > 0 {
      var init := groups[..|groups| - 1];
      var last := groups[|groups| - 1];
      assert groups == init + [last];
      DisjointPrefix(n, groups, init);
      SurvivorsDistinct(n, init, small);
      var prev := Survivors(init, small);
      var tail := if |last| > small then last else [];
      assert Distinct(tail) by {
        assert Distinct(groups[|groups| - 1]);
      }
      forall i, j | 0 <= i < |prev| && 0 <= j < |tail|
        ensures prev[i] != tail[j]
      {
        assert prev[i] in prev;
        var g :| 0 <= g < |init| && |init[g]| > small && prev[i] in init[g];
        assert init[g] == groups[g];
        assert tail[j] in groups[|groups| - 1];
        OnlyGroup(n, groups, |groups| - 1, g, tail[j]);
      }
      DistinctConcat(prev, tail);
      forall k | 0 <= k < |tail|
        ensures tail[k] < n
      {
        assert tail[k] == groups[|groups| - 1][k];
      }
    }
  }

  lemma OnlyGroup(n: nat, groups: seq<seq<nat>>, g: nat, h: nat, v: nat)
    requires Disjoint(n, groups) && g < |groups| && h < |groups| && g != h && v in groups[g]
    ensures v !in groups[h]
  {
  }

  lemma DisjointPrefix(n: nat, groups: seq<seq<nat>>, init: seq<seq<nat>>)
    requires Disjoint(n, groups) && |groups| > 0 && init == groups[..|groups| - 1]
    ensures Disjoint(n, init)
  {
    assert forall g :: 0 <= g < |init| ==> init[g] == groups[g];
  }

  lemma DistinctConcat(a: seq<nat>, b: seq<nat>)
    requires Distinct(a) && Distinct(b)
    requires forall i, j :: 0 <= i < |a| && 0 <= j < |b| ==> a[i] != b[j]
    ensures Distinct(a + b)
  {
    forall i, j | 0 <= i < j < |a + b|
      ensures (a + b)[i] != (a + b)[j]
    {
      if j < |a| {
        assert (a + b)[i] == a[i] && (a + b)[j] == a[j];
      } else if i < |a| {
        assert (a + b)[i] == a[i] && (a + b)[j] == b[j - |a|];
      } else {
        assert (a + b)[i] == b[i - |a|] && (a + b)[j] == b[j - |a|];
      }
    }
  }

  /** `vertMapOld2New`: the position at which each survivor was inserted
      (the last one, should a vertex be inserted twice). */
  function NewIndex(kept: seq<nat>): (r: map<nat, nat>)
    ensures forall v :: v in r <==> v in kept
    ensures forall v :: v in r ==> r[v] < |kept| && kept[r[v]] == v
  {
    if |kept| == 0 then map[]
    else
      var last := |kept| - 1;
      var prev := NewIndex(kept[..last]);
      assert forall v :: v in prev ==> kept[prev[v]] == kept[..last][prev[v]];
      assert kept == kept[..last] + [kept[last]];
      prev[kept[last] := last]
  }

  /** With distinct survivors the numbering is the survivor list's own
      indexing. */
  lemma {:induction false} NewIndexOfDistinct(kept: seq<nat>, i: nat)
    requires Distinct(kept) && i < |kept|
    ensures kept[i] in NewIndex(kept) && NewIndex(kept)[kept[i]] == i
  {
    var r := NewIndex(kept);
    assert kept[i] in kept;
    assert kept[r[kept[i]]] == kept[i];
  }

  /** All three corners of `f` are kept vertices (the `vertValidFlag` checks of
      lines 610-621 and 485-509). */
  predicate Survives(f: Tri, kept: seq<nat>) {
    f.i0 in kept && f.i1 in kept && f.i2 in kept
  }

  /** The faces whose corners all survive, in their old numbering. */
  function SurvivingFaces(faces: seq<Tri>, kept: seq<nat>): (r: seq<Tri>)
    ensures forall f :: f in r <==> f in faces && Survives(f, kept)
  {
    if |faces| == 0 then []
    else
      var last := |faces| - 1;
      assert faces == faces[..last] + [faces[last]];
      SurvivingFaces(faces[..last], kept) + (if Survives(faces[last], kept) then [faces[last]] else [])
  }

  /** A renumbered face read back in the old numbering. */
  function Restore(faces: seq<Tri>, kept: seq<nat>): (r: seq<Tri>)
    requires forall k :: 0 <= k < |faces| ==> TriIn(faces[k], |kept|)
    ensures |r| == |faces|
  {
    seq(|faces|, k requires 0 <= k < |faces| && TriIn(faces[k], |kept|) =>
      Tri(kept[faces[k].i0], kept[faces[k].i1], kept[faces[k].i2]))
  }

  /** The faces of the new mesh (lines 607-627 and 470-515): each surviving
      face with its corners renumbered through `vertMapOld2New`. The new
      faces name new vertices, and reading them back through the survivor
      list gives exactly the surviving faces. */
  function RebuildFaces(faces: seq<Tri>, kept: seq<nat>): (r: seq<Tri>)
    ensures forall k :: 0 <= k < |r| ==> TriIn(r[k], |kept|)
    ensures Restore(r, kept) == SurvivingFaces(faces, kept)
  {
    if |faces| == 0 then []
    else
      var last := |faces| - 1;
      var f := faces[last];
      var prev := RebuildFaces(faces[..last], kept);
      var index := NewIndex(kept);
      var r := prev + (if Survives(f, kept) then [Tri(index[f.i0], index[f.i1], index[f.i2])] else []);
      assert forall k :: 0 <= k < |prev| ==> r[k] == prev[k];
      assert Restore(r, kept) == Restore(prev, kept) + (if Survives(f, kept) then [f] else []);
      r
  }

  /** The adjacency the index-mesh flood fill walks: each vertex's
      neighbour set in `std::set` order. */
  function LightAdjacency(m: LightMesh): (adj: seq<seq<nat>>)
    requires ValidLight(m)
    ensures ValidGraph(adj, |m.positions|)
    ensures forall v, u :: 0 <= v < |m.positions| ==>
              (u in adj[v] <==> u < |m.positions| && u in NeighbourSets(|m.positions|, m.faces)[v])
  {
    var n := |m.positions|;
    var sets := NeighbourSets(n, m.faces);
    var adj := seq(n, v requires 0 <= v < n => Ascending(sets[v], 0, n));
    assert forall v, k :: 0 <= v < n && 0 <= k < |adj[v]| ==> adj[v][k] in adj[v];
    adj
  }

  /** Sharing a face is symmetric, so the index-mesh groups are the
      connected components: a member's face neighbours are members too. */
  lemma LightGroupsClosed(m: LightMesh, groups: seq<seq<nat>>, g: nat, v: nat, u: nat)
    requires ValidLight(m)
    requires Partition(|m.positions|, groups) && ReachesBack(LightAdjacency(m), groups)
    requires g < |groups| && v in groups[g] && u in LightAdjacency(m)[v]
    ensures u in groups[g]
  {
    var adj := LightAdjacency(m);
    var n := |m.positions|;
    forall a, b | 0 <= a < |adj| && b in adj[a]
      ensures b < |adj| && a in adj[b]
    {
      NeighbourSetsSymmetric(n, m.faces, a, b);
    }
    SymmetricGroupsClosed(adj, groups, g, v, u);
  }

  /** The faces of a half-edge mesh whose corners can be read, in face
      order. */
  function ReadableFaces(m: HalfEdgeMesh, count: nat): (r: seq<Tri>)
    requires WellFormed(m) && count <= |m.faces|
    ensures forall k :: 0 <= k < |r| ==> TriIn(r[k], |m.vertices|)
    ensures forall f :: f in r <==> exists i :: 0 <= i < count && FaceCorners(m, i) == Some(f)
  {
    if count == 0 then []
    else
      var prev := ReadableFaces(m, count - 1);
      var c := FaceCorners(m, count - 1);
      if c.None? then prev
      else
        assert forall f :: f in prev + [c.value] <==> f in prev || f == c.value;
        prev + [c.value]
  }

  /** How the index-mesh variant ends: the `NULL` of line 526, the
      `std::out_of_range` a face corner past the last vertex makes
      `neighList.at` throw (lines 533-538), or the new mesh. */
  datatype Pruning = Null | OutOfRange | Pruned(mesh: LightMesh)

  /** The index-mesh variant. It returns `NULL` when the size threshold is
      below 10, before reading any face; it throws when a face names a
      missing vertex; otherwise the new mesh holds the vertices of every
      group larger than the threshold, in group order, and the surviving
      faces renumbered onto them. */
  method RemoveSmallPatchLight(m: LightMesh, proportion: real)
    returns (r: Pruning, groups: seq<seq<nat>>)
    ensures r.Null? <==> SmallNum(|m.positions|, proportion) < MinSmall
    ensures r.OutOfRange? <==> SmallNum(|m.positions|, proportion) >= MinSmall && !ValidLight(m)
    ensures r.Pruned? ==> ValidLight(m)
    ensures r.Pruned? ==> Partition(|m.positions|, groups) && ReachesBack(LightAdjacency(m), groups)
    ensures r.Pruned? ==> Tree(LightAdjacency(m), groups) && Leaders(groups)
    ensures r.Pruned? ==>
      var kept := Survivors(groups, SmallNum(|m.positions|, proportion));
      && (forall k :: 0 <= k < |kept| ==> kept[k] < |m.positions|)
      && Distinct(kept)
      && r.mesh.positions == Gather(m.positions, kept)
      && ValidLight(r.mesh)
      && Restore(r.mesh.faces, kept) == SurvivingFaces(m.faces, kept)
  {
    var n := |m.positions|;
    var small := SmallNum(n, proportion);
    if small < MinSmall {
      return Null, [];
    }
    if !ValidLight(m) {
      return OutOfRange, [];
    }
    var adj := LightAdjacency(m);
    groups := FloodFill(adj);
    var kept := Survivors(groups, small);
    SurvivorsDistinct(n, groups, small);
    r := Pruned(LightMesh(Gather(m.positions, kept), RebuildFaces(m.faces, kept)));
  }

  /** The half-edge variant: the same pass over the ring adjacency, reading
      each face's corners through its half-edge; the result is returned as
      positions and triangles. */
  method RemoveSmallPatchHalfEdge(m: HalfEdgeMesh, proportion: real)
    returns (r: Option<LightMesh>, groups: seq<seq<nat>>)
    requires WellFormed(m)
    ensures r.None? <==> SmallNum(|m.vertices|, proportion) < MinSmall
    ensures r.Some? ==> Partition(|m.vertices|, groups) && ReachesBack(RingGraph(m), groups)
    ensures r.Some? ==> Tree(RingGraph(m), groups) && Leaders(groups)
    ensures r.Some? ==>
      var kept := Survivors(groups, SmallNum(|m.vertices|, proportion));
      && (forall k :: 0 <= k < |kept| ==> kept[k] < |m.vertices|)
      && Distinct(kept)
      && r.value.positions == Gather(VertexPositions(m), kept)
      && ValidLight(r.value)
      && Restore(r.value.faces, kept) == SurvivingFaces(ReadableFaces(m, |m.faces|), kept)
  {
    var n := |m.vertices|;
    var small := SmallNum(n, proportion);
    if small < MinSmall {
      return None, [];
    }
    groups := FloodFill(RingGraph(m));
    var kept := Survivors(groups, small);
    SurvivorsDistinct(n, groups, small);
    r := Some(LightMesh(Gather(VertexPositions(m), kept), RebuildFaces(ReadableFaces(m, |m.faces|), kept)));
  }
}

=== FILE: point_cloud.dfy ===
/** The point-set data model: `Point3D` (position, normal, validity flag) and
    `Point3DSet` (points in stable index order plus a has-normal flag). */
module PointCloud {
  import opened Geometry

  datatype Point = Point(position: Vec3, normal: Vec3, valid: bool)

  datatype PointSet = PointSet(points: seq<Point>, hasNormal: bool)

  /** The z coordinates of the points, in index order. */
  function Heights(points: seq<Point>): (zs: seq<real>)
    ensures |zs| == |points|
    ensures forall i :: 0 <= i < |points| ==> zs[i] == points[i].position.z
  {
    seq(|points|, i requires 0 <= i < |points| => points[i].position.z)
  }

  function Positions(points: seq<Point>): (ps: seq<Vec3>)
    ensures |ps| == |points|
    ensures forall i :: 0 <= i < |points| ==> ps[i] == points[i].position
  {
    seq(|points|, i requires 0 <= i < |points| => points[i].position)
  }
}

=== FILE: priority_queue.dfy ===
/** The `std::multimap<double, int>` that orders the propagation front, as its
    in-order sequence of entries: keys never decrease along the sequence, and
    `insert` places a new entry after every entry whose key is not greater
    (so entries with equal keys leave in insertion order). */
module PriorityQueue {

  datatype Entry = Entry(key: real, id: nat)

  predicate Sorted(q: seq<Entry>) {
    forall i, j :: 0 <= i < j < |q| ==> q[i].key <= q[j].key
  }

  /** The position `std::multimap::insert` uses for a key: the end of the run
      of entries whose key is at most `k`. */
  function UpperBound(q: seq<Entry>, k: real): (j: nat)
    requires Sorted(q)
    ensures j <= |q|
    ensures forall i :: 0 <= i < j ==> q[i].key <= k
    ensures forall i :: j <= i < |q| ==> k < q[i].key
  {
    if |q| == 0 || k < q[0].key then 0 else 1 + UpperBound(q[1..], k)
  }

  /** `prioritySet.insert(e)`: the new entry goes behind every entry whose
      key is not greater and in front of the rest, and the order is kept. */
  function Insert(q: seq<Entry>, e: Entry): (r: seq<Entry>)
    requires Sorted(q)
    ensures Sorted(r)
    ensures |r| == |q| + 1 && r[UpperBound(q, e.key)] == e
    ensures forall i :: 0 <= i < UpperBound(q, e.key) ==> r[i] == q[i]
    ensures forall i :: UpperBound(q, e.key) < i < |r| ==> r[i] == q[i - 1]
  {
    var j := UpperBound(q, e.key);
    var r := q[..j] + [e] + q[j..];
    assert forall i :: 0 <= i < j ==> r[i] == q[i];
    assert forall i :: j < i < |r| ==> r[i] == q[i - 1];
    r
  }

  lemma InsertMembers(q: seq<Entry>, e: Entry)
    requires Sorted(q)
    ensures |Insert(q, e)| == |q| + 1
    ensures forall x :: x in Insert(q, e) <==> x in q || x == e
  {
    var j := UpperBound(q, e.key);
    assert q == q[..j] + q[j..];
  }

  /** The entry `prioritySet.begin()` names has the smallest key. */
  lemma FrontIsMinimal(q: seq<Entry>)
    requires Sorted(q) && |q| > 0
    ensures forall i :: 0 <= i < |q| ==> q[0].key <= q[i].key
  {
  }

  /** An entry inserted after an entry with an equal key is placed behind
      it, so equal keys leave the front in insertion order. */
  lemma EqualKeysStayInInsertionOrder(q: seq<Entry>, e: Entry, i: nat)
    requires Sorted(q) && i < |q| && q[i].key == e.key
    ensures i < UpperBound(q, e.key)
    ensures Insert(q, e)[i] == q[i] && Insert(q, e)[UpperBound(q, e.key)] == e
  {
  }
}

=== FILE: range_limit.dfy ===
/** The scanning state of `ReconstructionApp`: the box of range limits the
    depth points are cut to (lines 97-140 and 305-357), and the playback
    frame counter of a recorded stream (lines 142-160 and 293-303). */
module RangeLimits {
  import opened Geometry

  /** `mLeftLimit` ... `mBackLimit`. The camera looks down the negative z
      axis, so `front` is the largest admitted depth and `back` the
      smallest. */
  datatype Limits = Limits(left: real, right: real, down: real, top: real, front: real, back: real)

  /** The starting limits of lines 101-104: each lower bound starts high
      and each upper bound low, so the first point inside moves them. */
  const InitialLimits: Limits := Limits(5000.0, -5000.0, 5000.0, -5000.0, -5000.0, -500.0)

  /** A point close enough to the camera plane (`z > -Epsilon`) does not
      take part in the depth limits. */
  predicate Deep(p: Vec3, epsilon: real) {
    p.z <= -epsilon
  }

  /** One turn of the loop of lines 106-137: widen the side limits to
      the point, and the depth limits too when the point is deep. */
  function Absorb(l: Limits, p: Vec3, epsilon: real): Limits {
    var l1 := l.(left := if p.x < l.left then p.x else l.left,
                 right := if p.x > l.right then p.x else l.right,
                 down := if p.y < l.down then p.y else l.down,
                 top := if p.y > l.top then p.y else l.top);
    if !Deep(p, epsilon) then l1
    else l1.(front := if p.z > l1.front then p.z else l1.front,
             back := if p.z < l1.back then p.z else l1.back)
  }

  /** `left` is the minimum of 5000 and every x, and so on: each limit bounds
      the coordinates it was fed, and is either its start value or one of
      them. Only deep points are fed to the depth limits. */
  predicate IsCoarse(l: Limits, pos: seq<Vec3>, epsilon: real) {
    && (forall i :: 0 <= i < |pos| ==> l.left <= pos[i].x <= l.right && l.down <= pos[i].y <= l.top)
    && (forall i :: 0 <= i < |pos| && Deep(pos[i], epsilon) ==> l.back <= pos[i].z <= l.front)
    && l.left <= 5000.0 && l.down <= 5000.0 && -5000.0 <= l.right && -5000.0 <= l.top
    && -5000.0 <= l.front && l.back <= -500.0
    && (l.left == 5000.0 || exists i :: 0 <= i < |pos| && l.left == pos[i].x)
    && (l.right == -5000.0 || exists i :: 0 <= i < |pos| && l.right == pos[i].x)
    && (l.down == 5000.0 || exists i :: 0 <= i < |pos| && l.down == pos[i].y)
    && (l.top == -5000.0 || exists i :: 0 <= i < |pos| && l.top == pos[i].y)
    && (l.front == -5000.0 || exists i :: 0 <= i < |pos| && Deep(pos[i], epsilon) && l.front == pos[i].z)
    && (l.back == -500.0 || exists i :: 0 <= i < |pos| && Deep(pos[i], epsilon) && l.back == pos[i].z)
  }

  /** `CoarseRangeLimitCalculation`. `MagicDGP::Epsilon` is a parameter. */
  method CoarseRangeLimit(pos: seq<Vec3>, epsilon: real) returns (l: Limits)
    ensures IsCoarse(l, pos, epsilon)
  {
    l := InitialLimits;
    var i := 0;
    while i < |pos|
      invariant 0 <= i <= |pos|
      invariant IsCoarse(l, pos[..i], epsilon)
    {
      AbsorbStep(l, pos, i, epsilon);
      l := Absorb(l, pos[i], epsilon);
      i := i + 1;
    }
    assert pos[..i] == pos;
  }

  lemma AbsorbStep(l: Limits, pos: seq<Vec3>, i: nat, epsilon: real)
    requires i < |pos| && IsCoarse(l, pos[..i], epsilon)
    ensures IsCoarse(Absorb(l, pos[i], epsilon), pos[..i + 1], epsilon)
  {
    var r := Absorb(l, pos[i], epsilon);
    var pre, post := pos[..i], pos[..i + 1];
    assert forall k :: 0 <= k < i ==> post[k] == pre[k];
    assert post[i] == pos[i];
    AbsorbBounds(l, r, pre, post, i, epsilon);
    AbsorbWitnesses(l, r, pre, post, i, epsilon);
  }

  lemma AbsorbBounds(l: Limits, r: Limits, pre: seq<Vec3>, post: seq<Vec3>, i: nat, epsilon: real)
    requires |pre| == i && |post| == i + 1 && r == Absorb(l, post[i], epsilon)
    requires forall k :: 0 <= k < i ==> post[k] == pre[k]
    requires IsCoarse(l, pre, epsilon)
    ensures forall k :: 0 <= k < |post| ==> r.left <= post[k].x <= r.right && r.down <= post[k].y <= r.top
    ensures forall k :: 0 <= k < |post| && Deep(post[k], epsilon) ==> r.back <= post[k].z <= r.front
    ensures r.left <= 5000.0 && r.down <= 5000.0 && -5000.0 <= r.right && -5000.0 <= r.top
    ensures -5000.0 <= r.front && r.back <= -500.0
  {
  }

  lemma AbsorbWitnesses(l: Limits, r: Limits, pre: seq<Vec3>, post: seq<Vec3>, i: nat, epsilon: real)
    requires |pre| == i && |post| == i + 1 && r == Absorb(l, post[i], epsilon)
    requires forall k :: 0 <= k < i ==> post[k] == pre[k]
    requires IsCoarse(l, pre, epsilon)
    ensures r.left == 5000.0 || exists k :: 0 <= k < |post| && r.left == post[k].x
    ensures r.right == -5000.0 || exists k :: 0 <= k < |post| && r.right == post[k].x
    ensures r.down == 5000.0 || exists k :: 0 <= k < |post| && r.down == post[k].y
    ensures r.top == -5000.0 || exists k :: 0 <= k < |post| && r.top == post[k].y
    ensures r.front == -5000.0 || exists k :: 0 <= k < |post| && Deep(post[k], epsilon) && r.front == post[k].z
    ensures r.back == -500.0 || exists k :: 0 <= k < |post| && Deep(post[k], epsilon) && r.back == post[k].z
  {
    if r.left != 5000.0 && r.left != post[i].x {
      var k :| 0 <= k < i && l.left == pre[k].x;
      assert r.left == post[k].x;
    }
    if r.right != -5000.0 && r.right != post[i].x {
      var k :| 0 <= k < i && l.right == pre[k].x;
      assert r.right == post[k].x;
    }
    if r.down != 5000.0 && r.down != post[i].y {
      var k :| 0 <= k < i && l.down == pre[k].y;
      assert r.down == post[k].y;
    }
    if r.top != -5000.0 && r.top != post[i].y {
      var k :| 0 <= k < i && l.top == pre[k].y;
      assert r.top == post[k].y;
    }
    if r.front != -5000.0 && r.front != l.front {
      assert r.front == post[i].z && Deep(post[i], epsilon);
    } else if r.front != -5000.0 {
      var k :| 0 <= k < i && Deep(pre[k], epsilon) && l.front == pre[k].z;
      assert r.front == post[k].z;
    }
    if r.back != -500.0 && r.back != l.back {
      assert r.back == post[i].z && Deep(post[i], epsilon);
    } else if r.back != -500.0 {
      var k :| 0 <= k < i && Deep(pre[k], epsilon) && l.back == pre[k].z;
      assert r.back == post[k].z;
    }
  }

  /** The pairs of opposite limits are strictly ordered. */
  predicate Ordered(l: Limits) {
    l.left < l.right && l.down < l.top && l.back < l.front
  }

  /** `ChangeLeftRange(rel)`: move the left limit by `rel` if it stays above
      -5000 and below the right limit. */
  function ChangeLeft(l: Limits, rel: int): (r: Limits)
    ensures r == l || r == l.(left := l.left + rel as real)
    ensures -5000.0 < l.left + rel as real < l.right ==> r.left == l.left + rel as real
    ensures r != l ==> -5000.0 < r.left < r.right
  {
    var temp := l.left + rel as real;
    if temp > -5000.0 && temp < l.right then l.(left := temp) else l
  }

  /** `ChangeRightRange(rel)`. */
  function ChangeRight(l: Limits, rel: int): (r: Limits)
    ensures r == l || r == l.(right := l.right + rel as real)
    ensures l.left < l.right + rel as real < 5000.0 ==> r.right == l.right + rel as real
    ensures r != l ==> r.left < r.right < 5000.0
  {
    var temp := l.right + rel as real;
    if temp < 5000.0 && temp > l.left then l.(right := temp) else l
  }

  /** `ChangeTopRange(rel)`. */
  function ChangeTop(l: Limits, rel: int): (r: Limits)
    ensures r == l || r == l.(top := l.top + rel as real)
    ensures l.down < l.top + rel as real < 5000.0 ==> r.top == l.top + rel as real
    ensures r != l ==> r.down < r.top < 5000.0
  {
    var temp := l.top + rel as real;
    if temp < 5000.0 && temp > l.down then l.(top := temp) else l
  }

  /** `ChangeDownRange(rel)`. */
  function ChangeDown(l: Limits, rel: int): (r: Limits)
    ensures r == l || r == l.(down := l.down + rel as real)
    ensures -5000.0 < l.down + rel as real < l.top ==> r.down == l.down + rel as real
    ensures r != l ==> -5000.0 < r.down < r.top
  {
    var temp := l.down + rel as real;
    if temp > -5000.0 && temp < l.top then l.(down := temp) else l
  }

  /** `ChangeFrontRange(rel)`: the limit moves by `-rel`, and only to a
      value below -500 and above the back limit. */
  function ChangeFront(l: Limits, rel: int): (r: Limits)
    ensures r == l || r == l.(front := l.front - rel as real)
    ensures l.back < l.front - rel as real < -500.0 ==> r.front == l.front - rel as real
    ensures r != l ==> r.back < r.front < -500.0
  {
    var temp := l.front - rel as real;
    if temp < -500.0 && temp > l.back then l.(front := temp) else l
  }

  /** `ChangeBackRange(rel)`. */
  function ChangeBack(l: Limits, rel: int): (r: Limits)
    ensures r == l || r == l.(back := l.back - rel as real)
    ensures -5000.0 < l.back - rel as real < l.front ==> r.back == l.back - rel as real
    ensures r != l ==> -5000.0 < r.back < r.front
  {
    var temp := l.back - rel as real;
    if temp > -5000.0 && temp < l.front then l.(back := temp) else l
  }

  /** One of the six keyboard adjustments. */
  datatype Change = Left(rel: int) | Right(rel: int) | Top(rel: int) | Down(rel: int) | Front(rel: int) | Back(rel: int)

  function ApplyChange(l: Limits, c: Change): Limits {
    match c
    case Left(rel) => ChangeLeft(l, rel)
    case Right(rel) => ChangeRight(l, rel)
    case Top(rel) => ChangeTop(l, rel)
    case Down(rel) => ChangeDown(l, rel)
    case Front(rel) => ChangeFront(l, rel)
    case Back(rel) => ChangeBack(l, rel)
  }

  function ApplyChanges(l: Limits, cs: seq<Change>): Limits
    decreases |cs|
  {
    if |cs| == 0 then l else ApplyChanges(ApplyChange(l, cs[0]), cs[1..])
  }

  /** Any run of adjustments keeps an ordered box ordered. */
  lemma {:induction false} ChangesKeepOrder(l: Limits, cs: seq<Change>)
    requires Ordered(l)
    ensures Ordered(ApplyChanges(l, cs))
    decreases |cs|
  {
    if |cs| > 0 {
      ChangesKeepOrder(ApplyChange(l, cs[0]), cs[1..]);
    }
  }

  // ---------------------------------------------------------------------
  // Playback frames

  /** `mFrameCurrent`, `mFrameStartIndex`, `mFrameEndIndex` and the two
      pending flags. */
  datatype Playback = Playback(current: int, start: int, end: int, setStart: bool, setEnd: bool)

  /** The state after opening a recording with `frameCount` frames (lines
      286-288). */
  function Opened(frameCount: int): Playback {
    Playback(0, 0, frameCount, false, false)
  }

  /** `SetTimeStart`: only raises the pending start flag. */
  function SetTimeStart(p: Playback): (r: Playback)
    ensures r.setStart && r.setEnd == p.setEnd
    ensures r.current == p.current && r.start == p.start && r.end == p.end
  {
    p.(setStart := true)
  }

  /** `SetTimeEnd`: only raises the pending end flag. */
  function SetTimeEnd(p: Playback): (r: Playback)
    ensures r.setEnd && r.setStart == p.setStart
    ensures r.current == p.current && r.start == p.start && r.end == p.end
  {
    p.(setEnd := true)
  }

  /** The state after one display update and the frame it seeks to. */
  datatype Tick = Tick(state: Playback, shown: int)

  /** Lines 144-160: pending flags capture the current frame and are
      cleared, the current frame is shown, then advanced and wrapped back
      to the start once it passes the end. */
  function Update(p: Playback): (t: Tick)
    ensures !t.state.setStart && !t.state.setEnd
    ensures t.shown == p.current
    ensures t.state.start == (if p.setStart then p.current else p.start)
    ensures t.state.end == (if p.setEnd then p.current else p.end)
    ensures p.current + 1 <= t.state.end ==> t.state.current == p.current + 1
    ensures p.current + 1 > t.state.end ==> t.state.current == t.state.start
  {
    var start := if p.setStart then p.current else p.start;
    var end := if p.setEnd then p.current else p.end;
    var next := p.current + 1;
    Tick(Playback(if next > end then start else next, start, end, false, false), p.current)
  }

  /** The current frame lies in the start-end window. */
  predicate InWindow(p: Playback) {
    p.start <= p.current <= p.end
  }

  /** An update keeps the current frame in the window, whether or not the
      flags were raised. */
  lemma UpdateStaysInWindow(p: Playback)
    requires InWindow(p)
    ensures InWindow(Update(p).state)
  {
  }

  /** The frames shown by `k` updates. */
  function Shown(p: Playback, k: nat): (r: seq<int>)
    decreases k
    ensures |r| == k
  {
    if k == 0 then [] else [Update(p).shown] + Shown(Update(p).state, k - 1)
  }

  /** From a state in the window, with no flag raised in between, the
      next `end - current + 1` updates show every remaining frame of the
      window in turn, the last of them wrapping back to the start. */
  lemma {:induction false} ShownSweepsWindow(p: Playback)
    requires InWindow(p) && !p.setStart && !p.setEnd
    ensures var k := p.end - p.current + 1;
            forall i :: 0 <= i < k ==> Shown(p, k)[i] == p.current + i
    ensures After(p, p.end - p.current + 1).current == p.start
    decreases p.end - p.current
  {
    var k := p.end - p.current + 1;
    var q := Update(p).state;
    if p.current == p.end {
      assert Shown(p, 1) == [p.current];
    } else {
      assert InWindow(q) && !q.setStart && !q.setEnd && q.current == p.current + 1;
      assert q.start == p.start && q.end == p.end;
      ShownSweepsWindow(q);
      assert forall i :: 1 <= i < k ==> Shown(p, k)[i] == Shown(q, k - 1)[i - 1];
    }
  }

  /** The state after `k` updates. */
  function After(p: Playback, k: nat): Playback
    decreases k
  {
    if k == 0 then p else After(Update(p).state, k - 1)
  }

  /** From a state in the window, with no flag raised in between, every
      frame shown lies in the window the updates keep. */
  lemma {:induction false} ShownInWindow(p: Playback, k: nat)
    requires InWindow(p) && !p.setStart && !p.setEnd
    ensures forall i :: 0 <= i < k ==> p.start <= Shown(p, k)[i] <= p.end
    decreases k
  {
    if k > 0 {
      var q := Update(p).state;
      UpdateStaysInWindow(p);
      assert q.start == p.start && q.end == p.end;
      ShownInWindow(q, k - 1);
      assert forall i :: 1 <= i < k ==> Shown(p, k)[i] == Shown(q, k - 1)[i - 1];
    }
  }
}

=== FILE: smoothing.dfy ===
/** The explicit smoothers: `SimpleMeshSmooth` on the half-edge mesh (lines
    718-762) and on the index mesh (lines 764-809), and
    `SimplePointsetSmooth` (lines 920-1001). Each computes every new
    position from the positions before the pass, as
    `0.75 * mean(neighbours) + 0.25 * old`, and leaves pinned vertices
    where they are. */
module Smoothing {
  import opened Common
  import opened Geometry
  import opened Meshes
  import opened PointCloud

  /** `avgPos += pos[idx[k]]` over the neighbour list, from the origin. */
  method SumOver(pos: seq<Vec3>, idx: seq<nat>) returns (s: Vec3)
    requires forall k :: 0 <= k < |idx| ==> idx[k] < |pos|
    ensures s == Sum(Gather(pos, idx))
  {
    s := Origin;
    var k := 0;
    while k < |idx|
      invariant 0 <= k <= |idx|
      invariant s == Sum(Gather(pos, idx[..k]))
    {
      assert Gather(pos, idx[..k + 1])[..k] == Gather(pos, idx[..k]);
      s := Add(s, pos[idx[k]]);
      k := k + 1;
    }
    assert idx[..k] == idx;
  }

  /** The new position of a moved vertex: the blend of the mean of its
      neighbours' old positions with its own old position. */
  function Relaxed(pos: seq<Vec3>, idx: seq<nat>, v: nat): Vec3
    requires v < |pos| && |idx| > 0
    requires forall k :: 0 <= k < |idx| ==> idx[k] < |pos|
  {
    Blend(Mean(Gather(pos, idx)), pos[v])
  }

  /** A position that already is the mean of its neighbours stays put. */
  lemma RelaxedFixed(pos: seq<Vec3>, idx: seq<nat>, v: nat)
    requires v < |pos| && |idx| > 0
    requires forall k :: 0 <= k < |idx| ==> idx[k] < |pos|
    requires Mean(Gather(pos, idx)) == pos[v]
    ensures Relaxed(pos, idx, v) == pos[v]
  {
    BlendSame(pos[v]);
  }

  /** Moving every position by the same offset moves the relaxed position
      by that offset. */
  lemma RelaxedTranslate(pos: seq<Vec3>, idx: seq<nat>, v: nat, t: Vec3)
    requires v < |pos| && |idx| > 0
    requires forall k :: 0 <= k < |idx| ==> idx[k] < |pos|
    ensures Relaxed(Translate(pos, t), idx, v) == Add(Relaxed(pos, idx, v), t)
  {
    GatherTranslate(pos, idx, t);
    MeanTranslate(Gather(pos, idx), t);
    BlendTranslate(Mean(Gather(pos, idx)), pos[v], t);
  }

  // ---------------------------------------------------------------------
  // Half-edge mesh

  /** Every vertex the pass moves has an outgoing half-edge: the walk of
      lines 737-746 starts by dereferencing it. */
  predicate Smoothable(m: HalfEdgeMesh) {
    && WellFormed(m)
    && forall v :: 0 <= v < |m.vertices| && !m.vertices[v].boundary ==> m.vertices[v].edge.Some?
  }

  /** The position vertex `v` is given: boundary vertices are pinned, the
      others relax towards the mean over their ring walk (lines 737-747). */
  function HalfEdgeTarget(m: HalfEdgeMesh, v: nat): Vec3
    requires Smoothable(m) && v < |m.vertices|
  {
    if m.vertices[v].boundary then m.vertices[v].position
    else Relaxed(VertexPositions(m), Ring(m, v), v)
  }

  /** The backup and target loops of lines 724-751: the target of every
      interior vertex, read from the backed-up positions. */
  method HalfEdgeTargets(m: HalfEdgeMesh) returns (smooth: seq<Vec3>)
    requires Smoothable(m)
    ensures |smooth| == |m.vertices|
    ensures forall u :: 0 <= u < |m.vertices| && !m.vertices[u].boundary ==> smooth[u] == HalfEdgeTarget(m, u)
  {
    var backup := VertexPositions(m);
    smooth := seq(|m.vertices|, _ => Origin);
    var v := 0;
    while v < |m.vertices|
      invariant 0 <= v <= |m.vertices| && |smooth| == |m.vertices|
      invariant forall u :: 0 <= u < v && !m.vertices[u].boundary ==> smooth[u] == HalfEdgeTarget(m, u)
    {
      if !m.vertices[v].boundary {
        var ring := Ring(m, v);
        var sum := SumOver(backup, ring);
        smooth := smooth[v := Blend(Divide(sum, |ring|), backup[v])];
      }
      v := v + 1;
    }
  }

  /** Lines 721-760 on a mesh whose boundary flags are already set. */
  method SmoothHalfEdge(m: HalfEdgeMesh) returns (r: HalfEdgeMesh)
    requires Smoothable(m)
    ensures r.edges == m.edges && r.faces == m.faces && |r.vertices| == |m.vertices|
    ensures forall v :: 0 <= v < |m.vertices| ==>
              r.vertices[v] == m.vertices[v].(position := HalfEdgeTarget(m, v))
    ensures forall v :: 0 <= v < |m.vertices| && m.vertices[v].boundary ==> r.vertices[v] == m.vertices[v]
  {
    var smooth := HalfEdgeTargets(m);
    var vertices := m.vertices;
    var v := 0;
    while v < |m.vertices|
      invariant 0 <= v <= |m.vertices| && |vertices| == |m.vertices|
      invariant forall u :: 0 <= u < |m.vertices| ==>
                  vertices[u] == (if u < v then m.vertices[u].(position := HalfEdgeTarget(m, u)) else m.vertices[u])
    {
      if !m.vertices[v].boundary {
        vertices := vertices[v := vertices[v].(position := smooth[v])];
      }
      v := v + 1;
    }
    r := m.(vertices := vertices);
  }

  /** The mesh with every vertex moved by `t`. */
  function ShiftMesh(m: HalfEdgeMesh, t: Vec3): (r: HalfEdgeMesh)
    ensures r.edges == m.edges && r.faces == m.faces && |r.vertices| == |m.vertices|
    ensures forall v :: 0 <= v < |m.vertices| ==>
              r.vertices[v] == m.vertices[v].(position := Add(m.vertices[v].position, t))
  {
    m.(vertices := seq(|m.vertices|, v requires 0 <= v < |m.vertices| =>
                         m.vertices[v].(position := Add(m.vertices[v].position, t))))
  }

  /** Smoothing commutes with moving the whole mesh. */
  lemma HalfEdgeTranslate(m: HalfEdgeMesh, t: Vec3, v: nat)
    requires Smoothable(m) && v < |m.vertices|
    ensures Smoothable(ShiftMesh(m, t))
    ensures HalfEdgeTarget(ShiftMesh(m, t), v) == Add(HalfEdgeTarget(m, v), t)
  {
    var s := ShiftMesh(m, t);
    assert VertexPositions(s) == Translate(VertexPositions(m), t);
    assert Ring(s, v) == Ring(m, v) by {
      RingIgnoresPositions(m, s, v);
    }
    if !m.vertices[v].boundary {
      RelaxedTranslate(VertexPositions(m), Ring(m, v), v, t);
    }
  }

  /** The ring walk reads only the connectivity. */
  lemma RingIgnoresPositions(m: HalfEdgeMesh, s: HalfEdgeMesh, v: nat)
    requires WellFormed(m) && WellFormed(s) && v < |m.vertices|
    requires s.edges == m.edges && |s.vertices| == |m.vertices|
    requires forall u :: 0 <= u < |m.vertices| ==> s.vertices[u].edge == m.vertices[u].edge
    ensures Ring(s, v) == Ring(m, v)
  {
    match m.vertices[v].edge
    case None =>
    case Some(e) => RingFromIgnoresPositions(m, s, e, e, |m.edges|);
  }

  lemma {:induction false} RingFromIgnoresPositions(m: HalfEdgeMesh, s: HalfEdgeMesh, start: nat, cur: nat, fuel: nat)
    requires WellFormed(m) && WellFormed(s) && start < |m.edges| && cur < |m.edges|
    requires s.edges == m.edges && |s.vertices| == |m.vertices|
    ensures RingFrom(s, start, cur, fuel) == RingFrom(m, start, cur, fuel)
    decreases fuel
  {
    match Rotate(m, cur)
    case None =>
    case Some(nx) =>
      if nx != start && fuel > 0 {
        RingFromIgnoresPositions(m, s, start, nx, fuel - 1);
      }
  }

  /** A vertex that is the mean of its ring (a planar, evenly sampled
      patch) keeps its position. */
  lemma HalfEdgeFixed(m: HalfEdgeMesh, v: nat)
    requires Smoothable(m) && v < |m.vertices| && !m.vertices[v].boundary
    requires Mean(Gather(VertexPositions(m), Ring(m, v))) == m.vertices[v].position
    ensures HalfEdgeTarget(m, v) == m.vertices[v].position
  {
    RelaxedFixed(VertexPositions(m), Ring(m, v), v);
  }

  // ---------------------------------------------------------------------
  // Index mesh

  /** `neighVertList[v]` in `std::set` order. */
  function NeighbourList(m: LightMesh, v: nat): (r: seq<nat>)
    requires ValidLight(m) && v < |m.positions|
    ensures forall k :: 0 <= k < |r| ==> r[k] < |m.positions|
    ensures |r| == |NeighbourSets(|m.positions|, m.faces)[v]|
  {
    NeighbourListLength(m, v);
    Ascending(NeighbourSets(|m.positions|, m.faces)[v], 0, |m.positions|)
  }

  lemma NeighbourListLength(m: LightMesh, v: nat)
    requires ValidLight(m) && v < |m.positions|
    ensures |Ascending(NeighbourSets(|m.positions|, m.faces)[v], 0, |m.positions|)|
            == |NeighbourSets(|m.positions|, m.faces)[v]|
    ensures var a := Ascending(NeighbourSets(|m.positions|, m.faces)[v], 0, |m.positions|);
            forall k :: 0 <= k < |a| ==> a[k] < |m.positions|
  {
    var a := Ascending(NeighbourSets(|m.positions|, m.faces)[v], 0, |m.positions|);
    assert forall k :: 0 <= k < |a| ==> a[k] in a;
    var n := |m.positions|;
    var set_v := NeighbourSets(n, m.faces)[v];
    forall u | u in set_v
      ensures u < n
    {
      NeighbourSetsSymmetric(n, m.faces, v, u);
    }
    AscendingLength(set_v, 0, n);
  }

  /** The guard of lines 788 and 802 as written: a vertex is pinned when the
      size of its neighbour set differs from its incident-face count. */
  predicate PinnedAsWritten(m: LightMesh, v: nat)
    requires ValidLight(m) && v < |m.positions|
  {
    |NeighbourSets(|m.positions|, m.faces)[v]| != FaceCount(m.faces, v)
  }

  /** A vertex on no face passes that guard: both counts are zero, so line
      797 divides by a face count of zero. */
  lemma IsolatedVertexPassesGuard(m: LightMesh, v: nat)
    requires ValidLight(m) && v < |m.positions| && FaceCount(m.faces, v) == 0
    ensures !PinnedAsWritten(m, v)
  {
    IsolatedVertex(|m.positions|, m.faces, v);
  }

  /** One vertex and no faces: vertex 0 is moved with a divisor of zero. */
  lemma LoneVertexDividesByZero()
    ensures var m := LightMesh([Origin], []);
            ValidLight(m) && !PinnedAsWritten(m, 0) && FaceCount(m.faces, 0) == 0
  {
    IsolatedVertexPassesGuard(LightMesh([Origin], []), 0);
  }

  /** The guard with the isolated case pinned as well: a vertex moves only
      when it lies on some face and its neighbour count equals its face
      count. */
  predicate Pinned(m: LightMesh, v: nat)
    requires ValidLight(m) && v < |m.positions|
  {
    PinnedAsWritten(m, v) || FaceCount(m.faces, v) == 0
  }

  /** The position vertex `v` is given (lines 786-799): the sum over its
      neighbour set divided by its face count, blended with its old
      position. */
  function LightTarget(m: LightMesh, v: nat): Vec3
    requires ValidLight(m) && v < |m.positions|
  {
    if Pinned(m, v) then m.positions[v]
    else
      Blend(Divide(Sum(Gather(m.positions, NeighbourList(m, v))), FaceCount(m.faces, v)), m.positions[v])
  }

  /** A moved vertex has neighbours, and the face-count divisor makes its
      new position the common relaxation over them. */
  lemma LightTargetRelaxes(m: LightMesh, v: nat)
    requires ValidLight(m) && v < |m.positions| && !Pinned(m, v)
    ensures |NeighbourList(m, v)| > 0
    ensures LightTarget(m, v) == Relaxed(m.positions, NeighbourList(m, v), v)
  {
  }

  /** The loop of lines 784-799: `smoothPos` holds the target of every
      vertex the guard lets through. */
  method LightTargets(m: LightMesh) returns (smooth: seq<Vec3>)
    requires ValidLight(m)
    ensures |smooth| == |m.positions|
    ensures forall u :: 0 <= u < |m.positions| && !Pinned(m, u) ==> smooth[u] == LightTarget(m, u)
  {
    var n := |m.positions|;
    smooth := seq(n, _ => Origin);
    var v := 0;
    while v < n
      invariant 0 <= v <= n && |smooth| == n
      invariant forall u :: 0 <= u < v && !Pinned(m, u) ==> smooth[u] == LightTarget(m, u)
    {
      if !Pinned(m, v) {
        var sum := SumOver(m.positions, NeighbourList(m, v));
        smooth := smooth[v := Blend(Divide(sum, FaceCount(m.faces, v)), m.positions[v])];
      }
      v := v + 1;
    }
  }

  /** Lines 765-808, with the isolated-vertex case pinned. `None` is the
      `std::out_of_range` that `neighVertList.at` throws (lines 773-781)
      when a face names a missing vertex; the mesh is then left as it was. */
  method SmoothLight(m: LightMesh) returns (r: Option<LightMesh>)
    ensures r.None? <==> !ValidLight(m)
    ensures r.Some? ==> ValidLight(m) && r.value.faces == m.faces && |r.value.positions| == |m.positions|
    ensures r.Some? ==> forall v :: 0 <= v < |m.positions| ==> r.value.positions[v] == LightTarget(m, v)
    ensures r.Some? ==> forall v :: 0 <= v < |m.positions| && Pinned(m, v) ==> r.value.positions[v] == m.positions[v]
  {
    if !ValidLight(m) {
      return None;
    }
    var n := |m.positions|;
    var smooth := LightTargets(m);
    var positions := m.positions;
    var v := 0;
    while v < n
      invariant 0 <= v <= n && |positions| == n
      invariant forall u :: 0 <= u < n ==> positions[u] == (if u < v then LightTarget(m, u) else m.positions[u])
    {
      if !Pinned(m, v) {
        positions := positions[v := smooth[v]];
      }
      v := v + 1;
    }
    r := Some(m.(positions := positions));
  }

  /** Index-mesh smoothing commutes with moving the whole mesh. */
  lemma LightTranslate(m: LightMesh, t: Vec3, v: nat)
    requires ValidLight(m) && v < |m.positions|
    ensures ValidLight(m.(positions := Translate(m.positions, t)))
    ensures LightTarget(m.(positions := Translate(m.positions, t)), v) == Add(LightTarget(m, v), t)
  {
    var s := m.(positions := Translate(m.positions, t));
    assert NeighbourList(s, v) == NeighbourList(m, v);
    assert Pinned(s, v) == Pinned(m, v);
    if !Pinned(m, v) {
      LightTargetRelaxes(m, v);
      LightTargetRelaxes(s, v);
      RelaxedTranslate(m.positions, NeighbourList(m, v), v, t);
    }
  }

  // ---------------------------------------------------------------------
  // Point set

  /** The lists a smoothing pass reads: those of points `0..n-1` that the
      graph has, each non-empty and naming points only. */
  predicate Readable(graph: seq<seq<nat>>, n: nat) {
    forall i :: 0 <= i < n && i < |graph| ==>
      |graph[i]| > 0 && forall k :: 0 <= k < |graph[i]| ==> graph[i][k] < n
  }

  /** The first loop of lines 983-995: every point's target, read from the
      backed-up positions. */
  method PointTargets(points: seq<Point>, graph: seq<seq<nat>>) returns (smooth: seq<Vec3>)
    requires |graph| >= |points| && Readable(graph, |points|)
    ensures |smooth| == |points|
    ensures forall j :: 0 <= j < |points| ==> smooth[j] == Relaxed(Positions(points), graph[j], j)
  {
    var pos := Positions(points);
    smooth := seq(|points|, _ => Origin);
    var i := 0;
    while i < |points|
      invariant 0 <= i <= |points| && |smooth| == |points|
      invariant forall j :: 0 <= j < i ==> smooth[j] == Relaxed(pos, graph[j], j)
    {
      var sum := SumOver(pos, graph[i]);
      smooth := smooth[i := Blend(Divide(sum, |graph[i]|), pos[i])];
      i := i + 1;
    }
  }

  /** Lines 920-1000. With `needConstructGraph` the graph is first replaced
      by `knn`, the nearest-neighbour lists the search returns, one per
      point; every point then relaxes towards the mean of its graph
      neighbours' old positions. `None` is the `std::out_of_range` that
      `RiemannianGraph.at(pid)` throws (line 987) when a cached graph has
      fewer lists than there are points; it is thrown before any point
      moves. The lists read must be non-empty (line 993 divides by their
      length). */
  method SmoothPoints(points: seq<Point>, graph: seq<seq<nat>>, needConstructGraph: bool, knn: seq<seq<nat>>)
    returns (r: Option<seq<Point>>, graph': seq<seq<nat>>)
    requires needConstructGraph ==> |knn| == |points|
    requires Readable(if needConstructGraph then knn else graph, |points|)
    ensures graph' == (if needConstructGraph then knn else graph)
    ensures r.None? <==> |graph'| < |points|
    ensures r.Some? ==> |r.value| == |points| && |graph'| >= |points|
    ensures r.Some? ==> forall i :: 0 <= i < |points| ==>
              r.value[i] == points[i].(position := Relaxed(Positions(points), graph'[i], i))
  {
    graph' := if needConstructGraph then knn else graph;
    if |graph'| < |points| {
      return None, graph';
    }
    var smooth := PointTargets(points, graph');
    var moved := Place(points, smooth);
    r := Some(moved);
  }

  /** The second loop of lines 996-999: every point takes its target. */
  method Place(points: seq<Point>, smooth: seq<Vec3>) returns (moved: seq<Point>)
    requires |smooth| == |points|
    ensures |moved| == |points|
    ensures forall j :: 0 <= j < |points| ==> moved[j] == points[j].(position := smooth[j])
  {
    moved := points;
    var i := 0;
    while i < |points|
      invariant 0 <= i <= |points| && |moved| == |points|
      invariant forall j :: 0 <= j < |points| ==>
                  moved[j] == (if j < i then points[j].(position := smooth[j]) else points[j])
    {
      moved := moved[i := moved[i].(position := smooth[i])];
      i := i + 1;
    }
  }
}

=== FILE: vision_shop.dfy ===
// The image-editing application's two pieces of plain logic: the size an
// image is scaled to so that it fits the viewing area, and the brush that
// marks foreground and background pixels for graph-cut segmentation.

module VisionShop {
  import opened Common

  // ---------------------------------------------------------------------
  // Fitting an image to the view
  // ---------------------------------------------------------------------

  /** The tool panel on the left takes this much of the window's width … */
  const PanelWidth: int := 200
  /** … and the title strip this much of its height. */
  const PanelHeight: int := 20

  /** A display size, and whether it differs from the image's own. */
  datatype ViewSize = ViewSize(w: int, h: int, resized: bool)

  /** `int(side * float(num) / den)`: the float quotient truncated toward
      zero; `None` when `den` is zero, where the float quotient is infinite
      or not a number and the conversion to `int` is undefined. */
  function ScaleSide(side: int, num: int, den: int): (r: Option<int>)
    ensures r.None? <==> den == 0
    ensures den > 0 && side >= 0 && num >= 0 ==> r == Some(side * num / den)
  {
    if den == 0 then None
    else
      var q := TruncToInt(side as real * num as real / den as real);
      if den > 0 && side >= 0 && num >= 0 then TruncQuotient(side, num, den); Some(q)
      else Some(q)
  }

  /** For non-negative operands, truncating the exact quotient is integer
      division. */
  lemma TruncQuotient(a: int, b: int, c: int)
    requires a >= 0 && b >= 0 && c > 0
    ensures TruncToInt(a as real * b as real / c as real) == a * b / c
  {
    var x := a as real * b as real / c as real;
    var q, m := a * b / c, a * b % c;
    assert (a * b) as real == a as real * b as real;
    assert x == (q * c + m) as real / c as real;
    assert x == q as real + m as real / c as real;
    assert 0.0 <= m as real / c as real < 1.0;
  }

  /** The width step: an image wider than the view is scaled to the view's
      width, its height in proportion. */
  function FitWidth(s: ViewSize, winW: int): (r: Option<ViewSize>)
    ensures s.w <= winW ==> r == Some(s)
    ensures r.None? <==> winW < s.w == 0
    ensures winW < s.w && 0 <= s.h && 0 <= winW ==>
              r == Some(ViewSize(winW, s.h * winW / s.w, true))
  {
    if s.w > winW then
      match ScaleSide(s.h, winW, s.w)
      case None => None
      case Some(h) => Some(ViewSize(winW, h, true))
    else Some(s)
  }

  /** The height step, applied after the width step: an image taller than
      the view is scaled to the view's height, its width in proportion. */
  function FitHeight(s: ViewSize, winH: int): (r: Option<ViewSize>)
    ensures s.h <= winH ==> r == Some(s)
    ensures r.None? <==> winH < s.h == 0
    ensures winH < s.h && 0 <= s.w && 0 <= winH ==>
              r == Some(ViewSize(s.w * winH / s.h, winH, true))
  {
    if s.h > winH then
      match ScaleSide(s.w, winH, s.h)
      case None => None
      case Some(w) => Some(ViewSize(w, winH, true))
    else Some(s)
  }

  /** `ResizeToViewSuit`: the size an `imgW × imgH` image is shown at in a
      `windowW × windowH` render window. `None` when a step divides by a
      zero side, which needs a window smaller than its panels. */
  function ResizeToViewSuit(imgW: int, imgH: int, windowW: int, windowH: int): (r: Option<ViewSize>)
    ensures r.Some? && imgW <= windowW - PanelWidth ==>
              (r.value.resized <==> imgH > windowH - PanelHeight)
    ensures imgW <= windowW - PanelWidth && imgH <= windowH - PanelHeight ==>
              r == Some(ViewSize(imgW, imgH, false))
  {
    var winW, winH := windowW - PanelWidth, windowH - PanelHeight;
    match FitWidth(ViewSize(imgW, imgH, false), winW)
    case None => None
    case Some(s) => FitHeight(s, winH)
  }

  /** An image is marked resized exactly when it did not fit, whether the
      width step or the height step changed it. */
  lemma ResizedIffTooLarge(imgW: int, imgH: int, windowW: int, windowH: int)
    requires 0 <= imgW && 0 <= imgH && PanelWidth <= windowW && PanelHeight <= windowH
    ensures ResizeToViewSuit(imgW, imgH, windowW, windowH).Some?
    ensures ResizeToViewSuit(imgW, imgH, windowW, windowH).value.resized <==>
              imgW > windowW - PanelWidth || imgH > windowH - PanelHeight
  {
    var winW, winH := windowW - PanelWidth, windowH - PanelHeight;
    if imgW > winW {
      var s := FitWidth(ViewSize(imgW, imgH, false), winW).value;
      assert s.resized;
      FitsAfterWidth(imgW, imgH, winW);
    }
  }

  /** After the width step the height is still non-negative and no larger
      than before. */
  lemma FitsAfterWidth(imgW: int, imgH: int, winW: int)
    requires 0 <= winW < imgW && 0 <= imgH
    ensures 0 <= imgH * winW / imgW <= imgH
  {
    var x := imgH * winW;
    var q, m := x / imgW, x % imgW;
    assert 0 <= x by { MulMonotone(imgH, 0, winW); }
    assert x == q * imgW + m;
    assert x <= imgH * imgW by { MulMonotone(imgH, winW, imgW); }
    assert (imgH - q) * imgW == imgH * imgW - q * imgW;
    NonNegFactor(imgH - q, imgW);
    assert (q + 1) * imgW == q * imgW + imgW;
    NonNegFactor(q + 1, imgW);
  }

  lemma MulMonotone(a: int, b: int, c: int)
    requires 0 <= a && b <= c
    ensures a * b <= a * c
  {
    assert a * c - a * b == a * (c - b);
  }

  /** A product with a positive factor has the sign of the other factor. */
  lemma NonNegFactor(a: int, d: int)
    requires 0 < d
    ensures 0 <= a * d <==> 0 <= a
    ensures 0 < a * d <==> 0 < a
  {
  }

  /** For a window larger than its panels and an image of non-negative
      size, the result is defined, non-negative and fits the view. */
  lemma ResizeFits(imgW: int, imgH: int, windowW: int, windowH: int)
    requires 0 <= imgW && 0 <= imgH && PanelWidth < windowW && PanelHeight < windowH
    ensures ResizeToViewSuit(imgW, imgH, windowW, windowH).Some?
    ensures var s := ResizeToViewSuit(imgW, imgH, windowW, windowH).value;
            0 <= s.w <= windowW - PanelWidth && 0 <= s.h <= windowH - PanelHeight
  {
    var winW, winH := windowW - PanelWidth, windowH - PanelHeight;
    var s1 := FitWidth(ViewSize(imgW, imgH, false), winW).value;
    if imgW > winW {
      FitsAfterWidth(imgW, imgH, winW);
    }
    assert 0 <= s1.w <= winW && 0 <= s1.h;
    if s1.h > winH {
      FitsAfterWidth(s1.h, s1.w, winH);
      assert s1.w * winH / s1.h == winH * s1.w / s1.h;
    }
  }

  /** The proportional side is the floor of the exact proportion: after the
      width step the width is the view's and the height is
      ⌊imgH · winW / imgW⌋; a height step alone keeps the view's height and
      makes the width ⌊imgW · winH / imgH⌋. */
  lemma ResizeProportions(imgW: int, imgH: int, windowW: int, windowH: int)
    requires 0 <= imgW && 0 <= imgH && PanelWidth < windowW && PanelHeight < windowH
    ensures var winW, winH := windowW - PanelWidth, windowH - PanelHeight;
            var s := ResizeToViewSuit(imgW, imgH, windowW, windowH);
            (imgW > winW && imgH * winW / imgW <= winH ==>
               s == Some(ViewSize(winW, imgH * winW / imgW, true))) &&
            (imgW <= winW && imgH > winH ==>
               s == Some(ViewSize(imgW * winH / imgH, winH, true)))
  {
  }

  // ---------------------------------------------------------------------
  // The marking brush
  // ---------------------------------------------------------------------

  /** What a left-button drag does. */
  datatype MouseMode = View | PaintFront | PaintBack

  newtype byte = x: int | 0 <= x < 256

  /** A pixel of the three-channel mark image, channels in storage order. */
  datatype Pixel = Pixel(c0: byte, c1: byte, c2: byte)

  /** The foreground mark: channels (0, 0, 255). */
  const FrontColour: Pixel := Pixel(0, 0, 255)
  /** The background mark: channels (255, 0, 0). */
  const BackColour: Pixel := Pixel(255, 0, 0)

  /** The mark image as rows of pixels. */
  type Image = seq<seq<Pixel>>

  /** The image is drawn this far right of and below the window corner. */
  const ImageLeft: int := 165
  const ImageTop: int := 10
  /** The brush covers this many pixels on every side of its centre. */
  const BrushRadius: int := 2

  /** The application state the brush depends on. */
  datatype Shop = Shop(mode: MouseMode, mark: Image)

  /** A mouse-move event: the absolute cursor position and the left button. */
  datatype MouseEvent = MouseEvent(x: int, y: int, leftDown: bool)

  /** A freshly constructed application views and does not paint. */
  function Initial(mark: Image): (r: Shop)
    ensures r.mode == View && r.mark == mark
  {
    Shop(View, mark)
  }

  /** `BrushFront`: left-button drags now mark foreground. */
  function BrushFront(s: Shop): (r: Shop)
    ensures r.mode == PaintFront && r.mark == s.mark
  {
    s.(mode := PaintFront)
  }

  /** `BrushBack`: left-button drags now mark background. */
  function BrushBack(s: Shop): (r: Shop)
    ensures r.mode == PaintBack && r.mark == s.mark
  {
    s.(mode := PaintBack)
  }

  /** `SegmentImageDo`: back to viewing; the marks are kept for the graph
      cut, which is not part of this model. */
  function SegmentImageDo(s: Shop): (r: Shop)
    ensures r.mode == View && r.mark == s.mark
  {
    s.(mode := View)
  }

  /** The colour a drag paints in `mode`, if it paints. */
  function BrushColour(mode: MouseMode): (r: Option<Pixel>)
    ensures r.Some? <==> mode != View
    ensures mode == PaintFront ==> r == Some(FrontColour)
    ensures mode == PaintBack ==> r == Some(BackColour)
  {
    match mode
    case View => None
    case PaintFront => Some(FrontColour)
    case PaintBack => Some(BackColour)
  }

  predicate InImage(mark: Image, row: int, col: int)
  {
    0 <= row < |mark| && 0 <= col < |mark[row]|
  }

  /** Two images with the same rows of the same lengths. */
  predicate SameShape(a: Image, b: Image)
  {
    |a| == |b| && forall row :: 0 <= row < |a| ==> |a[row]| == |b[row]|
  }

  /** Pixel (row, col) lies in the brush square centred at (hPos, wPos). */
  predicate InBrush(row: int, col: int, hPos: int, wPos: int)
  {
    -BrushRadius <= row - hPos <= BrushRadius && -BrushRadius <= col - wPos <= BrushRadius
  }

  /** Reference definition of one brush stroke, clipped to the image:
      every pixel of the image inside the square takes `colour`, every
      other pixel is kept. */
  function Stamp(mark: Image, hPos: int, wPos: int, colour: Pixel): (r: Image)
    ensures SameShape(r, mark)
  {
    seq(|mark|, row requires 0 <= row < |mark| =>
      seq(|mark[row]|, col requires 0 <= col < |mark[row]| =>
        if InBrush(row, col, hPos, wPos) then colour else mark[row][col]))
  }

  predicate Written(row: int, col: int, hPos: int, wPos: int, hid: int, wid: int)
  {
    InBrush(row, col, hPos, wPos) &&
    (row - hPos < hid || (row - hPos == hid && col - wPos < wid))
  }

  /** The corrected stroke, in the handler's order: rows −2…2 of the
      square in turn, each row's columns −2…2 in turn, one pixel written at
      a time. Unlike the handler, which writes all 25 addresses unchecked,
      it skips the positions that lie outside the image. */
  method Paint(mark: Image, hPos: int, wPos: int, colour: Pixel) returns (r: Image)
    ensures r == Stamp(mark, hPos, wPos, colour)
  {
    r := mark;
    var hid := -BrushRadius;
    while hid <= BrushRadius
      invariant -BrushRadius <= hid <= BrushRadius + 1
      invariant SameShape(r, mark)
      invariant forall row, col :: InImage(mark, row, col) ==>
                  r[row][col] == if Written(row, col, hPos, wPos, hid, -BrushRadius)
                                 then colour else mark[row][col]
    {
      var wid := -BrushRadius;
      while wid <= BrushRadius
        invariant -BrushRadius <= wid <= BrushRadius + 1
        invariant SameShape(r, mark)
        invariant forall row, col :: InImage(mark, row, col) ==>
                    r[row][col] == if Written(row, col, hPos, wPos, hid, wid)
                                   then colour else mark[row][col]
      {
        var row, col := hPos + hid, wPos + wid;
        if 0 <= row < |r| && 0 <= col < |r[row]| {
          r := r[row := r[row][col := colour]];
        }
        wid := wid + 1;
      }
      hid := hid + 1;
    }
    var s := Stamp(mark, hPos, wPos, colour);
    forall row | 0 <= row < |r|
      ensures r[row] == s[row]
    {
      assert forall col :: 0 <= col < |r[row]| ==> InImage(mark, row, col);
    }
  }

  /** Reference definition of `MouseMoved` with the clipped stroke: with
      the left button down and a paint mode chosen, one stroke of that
      mode's colour centred on the cursor, shifted into image coordinates;
      otherwise nothing changes. */
  function Drag(s: Shop, e: MouseEvent): (r: Shop)
    ensures r.mode == s.mode && SameShape(r.mark, s.mark)
    ensures !e.leftDown || s.mode == View ==> r == s
    ensures forall row, col :: InImage(s.mark, row, col) ==>
              r.mark[row][col] ==
                if e.leftDown && s.mode != View && InBrush(row, col, e.y - ImageTop, e.x - ImageLeft)
                then BrushColour(s.mode).value else s.mark[row][col]
  {
    match BrushColour(s.mode)
    case Some(colour) =>
      if e.leftDown then s.(mark := Stamp(s.mark, e.y - ImageTop, e.x - ImageLeft, colour)) else s
    case None => s
  }

  /** `MouseMoved` with the corrected stroke, performed pixel by pixel. */
  method MouseMoved(s: Shop, e: MouseEvent) returns (r: Shop)
    ensures r == Drag(s, e)
  {
    r := s;
    if e.leftDown {
      match BrushColour(s.mode)
      case Some(colour) =>
        var mark := Paint(s.mark, e.y - ImageTop, e.x - ImageLeft, colour);
        r := s.(mark := mark);
      case None =>
    }
  }

  /** A later stroke at the same place wins: painting background over a
      foreground stroke leaves only background. */
  lemma StampOverwrites(mark: Image, hPos: int, wPos: int, first: Pixel, second: Pixel)
    ensures Stamp(Stamp(mark, hPos, wPos, first), hPos, wPos, second) ==
              Stamp(mark, hPos, wPos, second)
  {
    var a := Stamp(Stamp(mark, hPos, wPos, first), hPos, wPos, second);
    var b := Stamp(mark, hPos, wPos, second);
    forall row | 0 <= row < |a|
      ensures a[row] == b[row]
    {
    }
  }

  /** Moving the mouse again to the same place changes nothing more. */
  lemma DragIdempotent(s: Shop, e: MouseEvent)
    ensures Drag(Drag(s, e), e) == Drag(s, e)
  {
    if e.leftDown && s.mode != View {
      var c := BrushColour(s.mode).value;
      StampOverwrites(s.mark, e.y - ImageTop, e.x - ImageLeft, c, c);
    }
  }

  /** After `SegmentImageDo`, moving the mouse never changes the marks. */
  lemma SegmentStopsPainting(s: Shop, e: MouseEvent)
    ensures Drag(SegmentImageDo(s), e) == SegmentImageDo(s)
  {
  }

  /** After `BrushFront` a left-button drag marks the cursor pixel, when it
      lies in the image, as foreground; after `BrushBack`, as background. */
  lemma BrushMarksCursor(s: Shop, e: MouseEvent)
    requires e.leftDown && InImage(s.mark, e.y - ImageTop, e.x - ImageLeft)
    ensures Drag(BrushFront(s), e).mark[e.y - ImageTop][e.x - ImageLeft] == FrontColour
    ensures Drag(BrushBack(s), e).mark[e.y - ImageTop][e.x - ImageLeft] == BackColour
  {
  }

  /** A back stroke over a front stroke at the same place leaves what the
      back stroke alone leaves. */
  lemma BackOverFront(s: Shop, e: MouseEvent)
    requires e.leftDown
    ensures Drag(BrushBack(Drag(BrushFront(s), e)), e) == Drag(BrushBack(s), e)
  {
    StampOverwrites(s.mark, e.y - ImageTop, e.x - ImageLeft, FrontColour, BackColour);
  }

  /** The 25 pixel positions the handler addresses, before any bounds
      check: the square as written in the source, which does not look at
      the image's size. */
  function AddressedCells(e: MouseEvent): (r: seq<(int, int)>)
    ensures |r| == 25
    ensures forall k :: 0 <= k < 25 ==> InBrush(r[k].0, r[k].1, e.y - ImageTop, e.x - ImageLeft)
  {
    seq(25, k requires 0 <= k < 25 =>
      (e.y - ImageTop + k / 5 - BrushRadius, e.x - ImageLeft + k % 5 - BrushRadius))
  }

  /** A drag at the image's top-left corner addresses row −2, column −2,
      which lies outside every image. */
  lemma CornerStrokeLeavesImage(mark: Image)
    ensures AddressedCells(MouseEvent(ImageLeft, ImageTop, true))[0] == (-2, -2)
    ensures !InImage(mark, -2, -2)
  {
  }
}
